=== FILE: README.md ===
# OptOpenHash in Dafny

A model of the three open-addressing hash tables of OptOpenHash, with proofs
about them:

- the **Krapivin backshift engine**. It is one flat slot array probed with a
  two-parity step. The even steps multiply by `hash / Length + 1`, the odd
  steps by the step number, and the sum is truncated to 32 bits. The array
  doubles at 75% load. `Remove` empties the slot and reinserts the occupied
  run behind it. The engine ships in three variants:
  - `KrapivinHashTable`: resizes before it probes, and its lookup walks
    every step;
  - `KrapivinDictionary`: probes before it resizes, its lookup stops at the
    first Empty slot, and misuse throws;
  - `KrapivinHashSet`: a `used` bit per slot, plus the set algebra.
- **FunnelHashTable**. It has 24 layers of 7-slot buckets. Layer sizes
  shrink by a quarter per layer. A special overflow array is probed
  linearly for at most `probeLimit` steps.
- **ElasticHashTable**. Level `i` has `2^i` slots, and each level is probed
  quadratically with the hash XOR-salted by a level number. An insert
  chooses a level from how full the current level and the next level are.
  When every level is full, the table appends a level of twice the length.

## Modelling conventions

- `GetHashCode` is a parameter `hash: K -> U32`, and key equality is
  Dafny's `==`.
- Arrays are `seq<Slot<K, V>>`, where `Slot` is either `Empty` or
  `Occupied(key, value)`.
- Every operation is a pure function from the old state to the new state.
- An exception is the value `Threw(error, state)`. It keeps the writes
  made before the throw, because C# does not roll them back. A normal
  return is `Returned(state, result)`.
- Every invariant is a `ghost predicate`:
  - Krapivin: `Contiguous` says each stored key is found by the lookup
    that stops at Empty. `OnOwnSequence` says each stored key lies on its
    own probe sequence. `Distinct` says no key is stored twice.
  - Funnel: `Settled` says each stored key sits where `Add` would put it.
  - Elastic: `Valid` says the occupancy counters sum to the number of
    stored entries.

Several quantities in the source are computed in `double`: the load tests
and the bounded probe limit of Elastic `Add`, the per-level capacity step of
the Elastic constructor, and the probe limit, `maxInserts`, special-array
size and per-layer share of the Funnel constructor. The model computes each
one exactly:

- Elastic: the load tests `free/size > 0.05` and `nextFree/nextSize > 0.25`
  become `20 * free > size` and `4 * nextFree > nextSize`.
- Elastic: the probe limit `max(1, (int)(4 * min(log2(size/free), log2 10)))`
  becomes the largest `n <= 13` with `2^n * free^4 <= size^4`, and at
  least 1.
- Elastic: the capacity step `size - (int)(size * 0.1)` becomes
  `size - size / 10` (`LevelCount`).
- Funnel: `max(1, ceil(ln(ln(c + 1) + 1)))` becomes integer thresholds on
  `c` (`ProbeLimit`); `c - (int)(0.1 * c)` becomes `c - c / 10`; and
  `max(1, floor(0.3 * (c >> 2)))` becomes `max(1, 3 * (c / 4) / 10)`
  (`SpecialSize`).
- Funnel: the per-layer bucket share `a1 *= 0.75` becomes
  `(remaining / 3) * 3^i / 4^i`. The constants `Alpha = 24`, `Beta = 7`
  and `BucketDiv = 3` are those the source's static initialisers evaluate
  to.

**The Elastic quirk.** The source's next-level branch
(`OptOpenHash/ElasticHashTable.cs:33`) probes level `i + 1` with the salt
`i`. It also credits the occupancy counter of level `i`. `FindEntry` probes
level `i + 1` with salt `i + 1`. The model does the same, and
`ElasticHashTable.QuirkLosesKey` shows a table satisfying `Valid` where a key
that `Add` just stored is no longer found by `Contains`. That table is not
one a run of Adds from `New` produces, and the model does not claim it is
reachable. Worked by hand and not proved here, a reachable run exists: from
`New(15)` (levels of 1, 2, 4 and 8 slots), add keys 1 to 12 with hash 3 for
keys 8 to 10, hash 7 for key 11 and hash 0 otherwise. Key 12 then goes
through the next-level branch into slot 2 of level 3, which the probes
salted with 3 never visit.

## Model

| member | source | states |
|---|---|---|
| KrapivinProbe.Stride | OptOpenHash/KrapivinHashTable.cs:8 | Odd steps multiply by the step number. Even steps multiply by `hash / Length + 1`, wrapped to a uint, which is zero exactly when the array has one slot and the hash is `2^32 - 1`. |
| KrapivinProbe.CalcIndex | OptOpenHash/KrapivinHashTable.cs:7-10 | Every probe step names a slot inside the array. |
| KrapivinProbe.FindSlotFrom | OptOpenHash/KrapivinHashTable.cs:42-49 | The answer is the first step whose slot is Empty or holds the key, and every earlier step meets another key; -1 means no step fits. |
| KrapivinProbe.FindEntryAllFrom | OptOpenHash/KrapivinHashTable.cs:58-65 | The answer is the first step whose slot holds the key, passing Empty slots; -1 means no step holds it. |
| KrapivinProbe.FindEntryStopFrom | OptOpenHash/KrapivinDictionary.cs:103-111 | The answer holds the key and is reached over occupied slots only; -1 means that no step reachable before an Empty slot holds the key. |
| KrapivinProbe.Place | OptOpenHash/KrapivinHashTable.cs:23-31 | A write through FindSlot stores the pair at the first fitting slot and counts it only if that slot was Empty. With no slot it changes nothing. Keys gain exactly `k`, and no other slot changes. |
| KrapivinProbe.PlaceThenFind | OptOpenHash/KrapivinHashTable.cs:23-31 | After a write, both lookups find the key at the step FindSlot chose, holding the written value. |
| KrapivinProbe.ContiguousLookupsAgree | OptOpenHash/KrapivinDictionary.cs:103-111 | On a contiguous array, the lookup that stops at Empty and the lookup that walks all steps give the same answer. |
| KrapivinProbe.ContiguousEmptyFitMeansAbsent | OptOpenHash/KrapivinDictionary.cs:87-94 | On a contiguous array, a FindSlot that lands on an Empty slot proves the key is not stored. |
| KrapivinProbe.ContiguousFindStop | OptOpenHash/KrapivinDictionary.cs:103-111 | On a contiguous array, the stop-at-Empty lookup finds a key exactly when it is stored. |
| KrapivinProbe.FoundIsSlot | OptOpenHash/KrapivinDictionary.cs:87-94 | When the stop-at-Empty lookup finds a key, FindSlot reports the same step. |
| KrapivinProbe.ExtendsKeepsFound | OptOpenHash/KrapivinDictionary.cs:103-111 | Filling Empty slots never moves or hides a key the stop-at-Empty lookup found. |
| KrapivinProbe.PlaceKeepsContiguous | OptOpenHash/KrapivinHashTable.cs:23-31 | Writing through FindSlot keeps every stored key reachable before an Empty slot. |
| KrapivinProbe.PlaceKeepsDistinct | OptOpenHash/KrapivinDictionary.cs:66-74 | On a contiguous array, a write never stores a second copy of a key. |
| KrapivinProbe.PlaceKeepsOtherLookups | OptOpenHash/KrapivinDictionary.cs:66-74 | On a contiguous array, writing one key leaves every other key's lookup at the same step, with the same contents. |
| KrapivinProbe.OnOwnSequenceFindAll | OptOpenHash/KrapivinHashTable.cs:58-65 | When every key lies on its own probe sequence, the full-length lookup finds exactly the stored keys. |
| KrapivinProbe.PlaceKeepsOnOwnSequence | OptOpenHash/KrapivinHashTable.cs:23-31 | A write keeps every key on its own probe sequence. |
| KrapivinProbe.ClearingKeepsOnOwnSequence | OptOpenHash/KrapivinHashTable.cs:73 | Emptying slots keeps every remaining key on its own probe sequence. |
| KrapivinProbe.LiveKeys | OptOpenHash/KrapivinHashTable.cs:37-39 | The entries a resize reinserts, in slot order, carry exactly the stored keys and entries. |
| KrapivinProbe.Regrow | OptOpenHash/KrapivinHashTable.cs:37-39 | The rebuild loop keeps the length, and the count grows by the number of newly occupied slots, at most one per entry. |
| KrapivinProbe.RegrowKeys | OptOpenHash/KrapivinHashTable.cs:37-39 | The rebuild keeps only the keys it started with or was given, and all of them when every entry found a slot. |
| KrapivinProbe.RegrowEntries | OptOpenHash/KrapivinHashTable.cs:37-39 | The rebuild stores only the pairs it started with or was given. |
| KrapivinProbe.RegrowContiguous | OptOpenHash/KrapivinHashTable.cs:37-39 | The rebuild keeps contiguity. |
| KrapivinProbe.RegrowOnOwnSequence | OptOpenHash/KrapivinHashTable.cs:37-39 | The rebuild keeps every key on its own probe sequence. |
| KrapivinProbe.RegrowDistinct | OptOpenHash/KrapivinHashTable.cs:37-39 | The rebuild of a contiguous, duplicate-free array stays duplicate-free. |
| KrapivinProbe.Doubled | OptOpenHash/KrapivinHashTable.cs:33-40 | A resize gives twice the length and keeps a subset of the keys and pairs, all of them when every entry found a slot. Its count matches the occupied slots, and the result is contiguous, on its own sequences and duplicate-free. |
| KrapivinProbe.DoubledNeverNests | OptOpenHash/KrapivinHashTable.cs:24 | During a resize's rebuild, the count stays below the doubled array's threshold before every nested insert, so none of them resizes again. Dafny proves it without proof steps; it records why the nested inserts are modelled without their own resize check. |
| KrapivinProbe.Store | OptOpenHash/KrapivinDictionary.cs:156-157 | The final store of a dictionary or set insert leaves the key found by the stop-at-Empty lookup with the new value. It adds exactly `k` to the keys and keeps contiguity and distinctness. |
| KrapivinProbe.Lift | OptOpenHash/KrapivinHashTable.cs:84-90 | The first loop of RekeyAfterHole empties some slots and returns the entries it took. Occupancy drops by exactly their number, and each one was stored. |
| KrapivinProbe.LiftRun | OptOpenHash/KrapivinHashTable.cs:84-89 | The steps lifted now visit Empty slots, and the walk stopped at an Empty slot or after the last step. |
| KrapivinProbe.LiftCollects | OptOpenHash/KrapivinHashTable.cs:87-88 | Every entry the loop emptied is in the list it returns. |
| KrapivinProbe.LiftKeys | OptOpenHash/KrapivinHashTable.cs:84-89 | Lifting keeps only stored keys, both in the array and in the list. |
| KrapivinHashTable.New | OptOpenHash/KrapivinHashTable.cs:3-5 | Fails with Overflow exactly when `capacity` is negative. Otherwise the new table has `capacity` Empty slots, count 0, and satisfies the invariant. |
| KrapivinHashTable.PreparedHasRoom | OptOpenHash/KrapivinHashTable.cs:13 | After the resize check, a valid table has room under the 75% threshold and has lost no invariant. |
| KrapivinHashTable.Add | OptOpenHash/KrapivinHashTable.cs:12-21 | True exactly when FindSlot on the resized table reports an Empty slot. The key is then absent before and found with its value after, and the count rises by one. False leaves the resized table. The keys are exactly the resized table's keys plus `k` when true, and unchanged when false; below the threshold the resized table is the original. The invariant and contiguity are preserved. |
| KrapivinHashTable.AddOrUpdate | OptOpenHash/KrapivinHashTable.cs:23-31 | With a slot, the key is found with the new value, and the result is true exactly when the slot was Empty, which is when the count rises. With no slot, the result is false and nothing changes. The keys are exactly the resized table's keys, plus `k` when there is a slot; below the threshold the resized table is the original. The invariant is preserved. |
| KrapivinHashTable.FindEntry | OptOpenHash/KrapivinHashTable.cs:58-65 | The slot reported holds the key. On a valid table a slot is reported exactly when the key is stored. |
| KrapivinHashTable.GetValueOrDefault | OptOpenHash/KrapivinHashTable.cs:51-54 | The result is the default when the key is not found, and otherwise a value stored with the key. |
| KrapivinHashTable.ContainsKey | OptOpenHash/KrapivinHashTable.cs:56 | On a valid table, true exactly when the key is stored. |
| KrapivinHashTable.Remove | OptOpenHash/KrapivinHashTable.cs:67-80 | False, with nothing changed, exactly when the stop-at-Empty walk does not find the key. Otherwise the key is gone (when stored once), no key is added, and the invariant is preserved. |
| KrapivinHashTable.ClearUniqueKey | OptOpenHash/KrapivinHashTable.cs:73 | Emptying the only slot holding a key removes the key. |
| KrapivinHashTable.RekeyAfterHole | OptOpenHash/KrapivinHashTable.cs:82-94 | The repair adds no key and restores the invariant of the table. |
| KrapivinHashTable.ReinsertAll | OptOpenHash/KrapivinHashTable.cs:91-93 | Reinserting adds only the lifted keys and keeps the invariant. |
| KrapivinDictionary.New | OptOpenHash/KrapivinDictionary.cs:10-13 | Fails with Overflow exactly when `capacity` is negative. Otherwise the new dictionary is empty, has `capacity` slots, and is valid. |
| KrapivinDictionary.Clear | OptOpenHash/KrapivinDictionary.cs:26-29 | Clearing keeps the length, empties every slot, zeroes the count and gives a valid dictionary. |
| KrapivinDictionary.CheckResize | OptOpenHash/KrapivinDictionary.cs:76-85 | Resizes exactly at 75% load, to twice the length, keeping a subset of the entries. Below the threshold nothing changes. Validity is preserved. |
| KrapivinDictionary.FindEntry | OptOpenHash/KrapivinDictionary.cs:103-111 | The slot reported holds the key. On a contiguous array a slot is reported exactly when the key is stored. |
| KrapivinDictionary.Get | OptOpenHash/KrapivinDictionary.cs:139-143 | The getter throws KeyNotFound exactly when the lookup fails, and otherwise returns a value stored with the key. |
| KrapivinDictionary.GetIsEntry | OptOpenHash/KrapivinDictionary.cs:139-143 | On a valid dictionary, the getter returns `v` exactly when `(k, v)` is stored. |
| KrapivinDictionary.TryGetValue | OptOpenHash/KrapivinDictionary.cs:128-136 | Succeeds exactly when the getter does, with the same value. |
| KrapivinDictionary.GetValueOrDefault | OptOpenHash/KrapivinDictionary.cs:96-99 | The stored value when the getter succeeds, and otherwise the default. |
| KrapivinDictionary.ContainsKey | OptOpenHash/KrapivinDictionary.cs:101 | True exactly when FindEntry reports a slot, and on a contiguous array exactly when the key is stored. |
| KrapivinDictionary.ContainsPair | OptOpenHash/KrapivinDictionary.cs:31-35 | True exactly when the getter returns `v`, and on a valid dictionary exactly when `(k, v)` is stored. |
| KrapivinDictionary.Add | OptOpenHash/KrapivinDictionary.cs:56-64 | Throws "full" exactly when FindSlot finds nothing, and "duplicate" exactly when it finds the key, both with nothing changed. A stored key always throws "duplicate". On return the key is found with its value. Validity is preserved. Below the threshold, the count and keys grow by exactly the new key. |
| KrapivinDictionary.AddOrUpdate | OptOpenHash/KrapivinDictionary.cs:66-74 | No slot gives false with nothing changed. Otherwise the key is found with the new value, and the result is true exactly when the first slot was Empty, which happens only for an absent key. Only an IndexOutOfRange after a resize can throw. Below the threshold, with a slot, the keys are exactly the old keys plus `k`. Validity is preserved, and below the threshold a `count` equal to the number of occupied slots stays equal, even on a table that is not contiguous. |
| KrapivinDictionary.StoreThenGet | OptOpenHash/KrapivinDictionary.cs:61-62 | After the write that ends an insert, the key is stored and the getter returns the new value. |
| KrapivinDictionary.StoreNewValid | OptOpenHash/KrapivinDictionary.cs:60-63 | Writing an absent key into the slot FindSlot gives after CheckResize keeps a valid dictionary valid: a resize leaves room under the doubled threshold. |
| KrapivinDictionary.StoreOverValid | OptOpenHash/KrapivinDictionary.cs:69-72 | Overwriting a slot that already holds the key keeps a valid dictionary valid. |
| KrapivinDictionary.Set | OptOpenHash/KrapivinDictionary.cs:144-148 | Throws KeyNotFound, with nothing changed, exactly when the lookup fails. Otherwise the key reads back `v`, the keys and count are unchanged, and validity is preserved. |
| KrapivinDictionary.Remove | OptOpenHash/KrapivinDictionary.cs:113-126 | False, with nothing changed, exactly when ContainsKey is false. A key stored once is gone afterwards, and no key is added. At or below the threshold it never throws, keeps the length and does not raise the count. There, a `count` equal to the number of occupied slots stays equal. |
| KrapivinDictionary.RemovePair | OptOpenHash/KrapivinDictionary.cs:45-50 | Removes only when the key is found with value `v`, and otherwise returns false with nothing changed. |
| KrapivinDictionary.ClearUniqueKey | OptOpenHash/KrapivinDictionary.cs:119 | Emptying the only slot holding a key removes the key. |
| KrapivinDictionary.RekeyAfterHole | OptOpenHash/KrapivinDictionary.cs:155-167 | The repair adds no key. Below the threshold it never throws, keeps the length and does not raise the count. There, a `count` equal to the number of occupied slots stays equal. |
| KrapivinDictionary.ReinsertAll | OptOpenHash/KrapivinDictionary.cs:164-166 | Reinserting adds only the lifted keys. With room for all of them, no reinsert resizes or throws, and a `count` equal to the number of occupied slots stays equal. |
| KrapivinHashSet.New | OptOpenHash/KrapivinHashSet.cs:11-15 | Fails with Overflow exactly when `capacity` is negative. Otherwise the new set is empty, has `capacity` slots, and is valid. |
| KrapivinHashSet.Clear | OptOpenHash/KrapivinHashSet.cs:97-101 | Clearing keeps the length, gives an empty valid set, and zeroes the count. |
| KrapivinHashSet.FindEntry | OptOpenHash/KrapivinHashSet.cs:144-152 | The slot reported is used and holds the item. On a contiguous set a slot is reported exactly when the item is present. |
| KrapivinHashSet.Contains | OptOpenHash/KrapivinHashSet.cs:103 | True only for present items, and on a contiguous set for every present item. |
| KrapivinHashSet.CheckResize | OptOpenHash/KrapivinHashSet.cs:163-177 | Nothing happens exactly below 75% load. A resize doubles the length and keeps every item. Its rebuild throws "full" only with a doubled array, and the items never grow. Validity is preserved. |
| KrapivinHashSet.Add | OptOpenHash/KrapivinHashSet.cs:85-95 | No slot throws "full". The result is false, with nothing changed, exactly when FindSlot finds the item, and always when the item is present. A return holds exactly the old items plus the item, and a true result makes it found. Validity is preserved. Below the threshold the count rises by one exactly for a true result, and a `count` equal to the number of used bits stays equal. |
| KrapivinHashSet.StoreNew | OptOpenHash/KrapivinHashSet.cs:90-93 | Writing an absent item after CheckResize adds exactly that item and makes Contains true. Below the threshold the length stays and the count grows by one. |
| KrapivinHashSet.StoreNewValid | OptOpenHash/KrapivinHashSet.cs:90-93 | That write keeps a valid set valid. |
| KrapivinHashSet.Remove | OptOpenHash/KrapivinHashSet.cs:111-124 | False, with nothing changed, exactly when Contains is false. An item stored once is gone afterwards, and no item is added. At or below the threshold it can throw only TableFull ("full"), keeps the length and does not raise the count. There, a `count` equal to the number of used bits stays equal. |
| KrapivinHashSet.ClearUniqueKey | OptOpenHash/KrapivinHashSet.cs:117 | Clearing the only used slot holding an item removes the item. |
| KrapivinHashSet.RekeyAfterHole | OptOpenHash/KrapivinHashSet.cs:126-138 | The repair adds no item. Below the threshold it can throw only TableFull ("full"), keeps the length and does not raise the count. There, a `count` equal to the number of used bits stays equal. |
| KrapivinHashSet.ReinsertAll | OptOpenHash/KrapivinHashSet.cs:134-136 | Reinserting adds only the lifted items. With room for all of them it can throw only TableFull ("full"), keeps the length and does not raise the count. There, a `count` equal to the number of used bits stays equal. |
| KrapivinHashSet.UnionWith | OptOpenHash/KrapivinHashSet.cs:77-81 | On return the set is the old set united with `other`. Even after a throw it holds no other items. Validity is preserved. |
| KrapivinHashSet.ExceptWith | OptOpenHash/KrapivinHashSet.cs:32-36 | Removing items never adds one, and an empty `other` changes nothing. On a valid set the first item of `other` is gone afterwards, even when a removal throws. |
| KrapivinHashSet.Kept | OptOpenHash/KrapivinHashSet.cs:39-44 | The kept list holds exactly the items of `other` that Contains accepts, all of them present. |
| KrapivinHashSet.IntersectWith | OptOpenHash/KrapivinHashSet.cs:38-49 | The result is within the intersection, and on return from a contiguous set it is exactly the intersection. The result is valid. |
| KrapivinHashSet.Overlaps | OptOpenHash/KrapivinHashSet.cs:59 | True only when a common item exists, and on a contiguous set exactly then. |
| KrapivinHashSet.Marks | OptOpenHash/KrapivinHashSet.cs:64-68 | The marked indices are exactly the FindEntry answers of the items of `other`. |
| KrapivinHashSet.CoveredFrom | OptOpenHash/KrapivinHashSet.cs:69-72 | True exactly when every used slot from `i` on is found and marked. A failed lookup reads bit -1 of the `BitArray` and throws ArgumentOutOfRange, which a contiguous set never does. |
| KrapivinHashSet.SetEquals | OptOpenHash/KrapivinHashSet.cs:61-73 | On a contiguous, duplicate-free set it never throws, and it is true exactly when `other` holds the same items. Any other set can only throw ArgumentOutOfRange, from reading bit -1 of the `BitArray`. |
| FunnelHashTable.ProbeLimit | OptOpenHash/FunnelHashTable.cs:17 | The special-array probe limit is between 1 and 4, and it is 1 exactly for capacities up to 4. |
| FunnelHashTable.SpecialSize | OptOpenHash/FunnelHashTable.cs:19 | The special array has at least one slot. For a capacity of at least 1 it has no more slots than the capacity; a capacity of 0 still gets 1 slot. |
| FunnelHashTable.RemainingBuckets | OptOpenHash/FunnelHashTable.cs:20 | The buckets and the special array together fit in the capacity, or in one slot for capacity 0. |
| FunnelHashTable.BuildFrom | OptOpenHash/FunnelHashTable.cs:24-29 | The layer loop, including the last-layer `extra` branch as written, yields one Empty layer and one bucket count per remaining layer. |
| FunnelHashTable.TailAtLeast | OptOpenHash/FunnelHashTable.cs:25 | Every layer still to build can take at least one bucket. |
| FunnelHashTable.BuildFromFits | OptOpenHash/FunnelHashTable.cs:24-29 | When the shares cover the remaining buckets, every layer has exactly `buckets * Beta` slots, the bucket counts add up to the buckets given out, and the `extra` branch adds nothing. |
| FunnelHashTable.EveryBucketFits | OptOpenHash/FunnelHashTable.cs:21-28 | Starting from `remaining / 3`, the 24 shares always cover the remaining buckets. So the loop places every bucket before its last layer, and the `extra` branch is never taken. |
| FunnelHashTable.New | OptOpenHash/FunnelHashTable.cs:14-31 | Throws ArgumentOutOfRange exactly for a negative capacity. Otherwise the table is valid and empty, with `maxInserts = c - c/10`, the probe limit and special size above, and all remaining buckets placed in at most `max(c, 1)` slots. |
| FunnelHashTable.Segment | OptOpenHash/FunnelHashTable.cs:39-40 | A key's candidate slots in a layer are Beta slots of one bucket, or none when the layer has no buckets. In the special array they are `probeLimit` consecutive slots; all are in range. |
| FunnelHashTable.SegFit | OptOpenHash/FunnelHashTable.cs:40-47 | The first candidate that is Empty or holds the key, with every earlier one holding another key. |
| FunnelHashTable.SegFind | OptOpenHash/FunnelHashTable.cs:70-73 | The first candidate holding the key, reached over occupied slots. The scan stops at the first Empty slot. |
| FunnelHashTable.SlotFrom | OptOpenHash/FunnelHashTable.cs:36-59 | The slot `Add` writes lies in one of the layers or the special array, within its length, and is Empty or holds the key. |
| FunnelHashTable.SlotFromIsFirstFit | OptOpenHash/FunnelHashTable.cs:36-59 | That slot is the first fitting candidate of the first layer, in order and then the special array, that has one: every earlier layer's scan finds no fit, and the slot is the first fit of its own layer's scan. None means no layer has a fit. |
| FunnelHashTable.FindFrom | OptOpenHash/FunnelHashTable.cs:66-81 | The slot `FindEntry` reports holds the key. |
| FunnelHashTable.SegFitStable | OptOpenHash/FunnelHashTable.cs:40-47 | Within one bucket or special run, filling Empty slots keeps `Add`'s scan where it was, once the chosen slot holds the key. |
| FunnelHashTable.SlotStable | OptOpenHash/FunnelHashTable.cs:42-45 | Filling other Empty slots does not move where `Add` puts a key already stored there. |
| FunnelHashTable.SlotIsFound | OptOpenHash/FunnelHashTable.cs:63-82 | Where `Add` put a key, `FindEntry` finds it. |
| FunnelHashTable.ValuesDoNotSteer | OptOpenHash/FunnelHashTable.cs:42 | Changing stored values, but not keys, changes neither walk. |
| FunnelHashTable.SettledDistinct | OptOpenHash/FunnelHashTable.cs:42-45 | In a settled table no key is stored in two slots. |
| FunnelHashTable.Put | OptOpenHash/FunnelHashTable.cs:43-44 | A write changes one slot, and the insert count moves with the number of occupied slots. |
| FunnelHashTable.PutStores | OptOpenHash/FunnelHashTable.cs:43-44 | Writing a fitting slot adds exactly the key and at most the pair, and keeps every pair when the slot was Empty. |
| FunnelHashTable.PutKeepsSettled | OptOpenHash/FunnelHashTable.cs:42-45 | Writing where `Add` aims keeps every key at its own target. |
| FunnelHashTable.PutThenFind | OptOpenHash/FunnelHashTable.cs:42-45 | After such a write, `FindEntry` reports that slot. |
| FunnelHashTable.FindEntry | OptOpenHash/FunnelHashTable.cs:63-82 | The slot reported holds the key. In a settled table it is reported exactly when the key is stored, and it is the slot `Add` would use. |
| FunnelHashTable.StoredKeyIsFound | OptOpenHash/FunnelHashTable.cs:63-82 | In a settled table every stored key is found. |
| FunnelHashTable.Add | OptOpenHash/FunnelHashTable.cs:33-61 | Throws "full", with nothing changed, exactly when the insert count has reached `maxInserts` or no candidate fits. Otherwise it returns true, and the key is found with its value. The keys grow by exactly the key, and the count grows exactly when the key was new. Validity is preserved. |
| FunnelHashTable.AddOrUpdate | OptOpenHash/FunnelHashTable.cs:84-95 | A found key is overwritten in place, with the count and keys unchanged, and the result is false: the number of levels and each level's length are kept, and every other slot is unchanged. Otherwise it is `Add`, with result true. After a return the key is found with its value. Validity is preserved. |
| FunnelHashTable.OverwriteKeeps | OptOpenHash/FunnelHashTable.cs:87-90 | An in-place overwrite keeps the keys, the count, the lookup and settledness. |
| FunnelHashTable.OverwriteValid | OptOpenHash/FunnelHashTable.cs:87-90 | An in-place overwrite of a found key keeps a valid table valid. |
| FunnelHashTable.GetValueOrDefault | OptOpenHash/FunnelHashTable.cs:97-103 | The default for a missing key, and otherwise a value stored with it. |
| FunnelHashTable.GetValueIsStored | OptOpenHash/FunnelHashTable.cs:97-103 | In a settled table, `(k, v)` is stored exactly when `k` is stored and the lookup returns `v`. |
| FunnelHashTable.Contains | OptOpenHash/FunnelHashTable.cs:105 | In a settled table, true exactly when the key is stored. |
| FunnelHashTable.Count | OptOpenHash/FunnelHashTable.cs:107 | In a valid table, the number of occupied slots, within `[0, maxInserts]`. |
| FunnelHashTable.Remaining | OptOpenHash/FunnelHashTable.cs:109 | In a valid table, never negative, and together with the occupied slots it makes `maxInserts`. |
| ElasticHashTable.LevelCount | OptOpenHash/ElasticHashTable.cs:13 | The fewest levels whose capacity reaches the request. If no count up to 31 reaches it, the result is an Overflow error, and only then. |
| ElasticHashTable.New | OptOpenHash/ElasticHashTable.cs:11-18 | Overflow exactly when 31 levels cannot reach the request. A request of 0 or less gives no levels. Otherwise the table is the smallest that reaches the request, valid, empty, with zero counters. |
| ElasticHashTable.QuadPeriodic | OptOpenHash/ElasticHashTable.cs:46-47 | On a power-of-two level the triangular probe repeats every `size` steps. |
| ElasticHashTable.FreeStep | OptOpenHash/ElasticHashTable.cs:45-56 | The first probe step below the limit that meets an Empty slot. Every earlier step meets an occupied one. |
| ElasticHashTable.FirstFreeWithinLevel | OptOpenHash/ElasticHashTable.cs:45-56 | The first free step on a level comes before `size` steps, whatever the limit. |
| ElasticHashTable.InsertAt | OptOpenHash/ElasticHashTable.cs:44-57 | A success names an Empty slot of the level probed, reached with the given salt within the limit. A failure means every step within the limit met an occupied slot. |
| ElasticHashTable.BoundedProbes | OptOpenHash/ElasticHashTable.cs:30 | The probe limit lies between 1 and 13, and above 1 it satisfies `2^n * free^4 <= size^4`. |
| ElasticHashTable.TargetFrom | OptOpenHash/ElasticHashTable.cs:22-36 | The target is an Empty slot, the first Empty one on its probe sequence, in the salt's own level or the next one, with the salt at least `i`. A salt below the last level is more than 5% free by its counter. A target in the next level is chosen only when that level is at most 25% free by its counter. |
| ElasticHashTable.Attempt | OptOpenHash/ElasticHashTable.cs:23-33 | One turn of the loop finds a slot only on a level more than 5% free by its counter. The slot is the first Empty one on the probe sequence salted with the level's index, in that level or the next. It is in the next level only when that level is at most 25% free. |
| ElasticHashTable.Write | OptOpenHash/ElasticHashTable.cs:50-52 | A write stores the pair and credits the counter of the SALT level. The insert count and counter sum each rise by one. |
| ElasticHashTable.Expand | OptOpenHash/ElasticHashTable.cs:39-40 | Appending a level adds an Empty level of twice the last length and a zero counter. It keeps every entry and count. |
| ElasticHashTable.LastLevelLength | OptOpenHash/ElasticHashTable.cs:39 | The last level reaches `2^30` slots exactly when there are 31 levels. Doubling it would need a negative length. |
| ElasticHashTable.WriteLanded | OptOpenHash/ElasticHashTable.cs:50-52 | A write to a landing slot adds exactly the key and the pair, and keeps the shape. |
| ElasticHashTable.WriteAdds | OptOpenHash/ElasticHashTable.cs:47-52 | The write at a landing target keeps the number of levels, adds exactly the key and the pair, raises `numInserts`, the counter sum and the occupied slots by one, keeps every old key in place, and keeps a valid table valid. |
| Slots.XorZero | OptOpenHash/ElasticHashTable.cs:46 | Salting with 0 leaves the hash as it is. |
| ElasticHashTable.Add | OptOpenHash/ElasticHashTable.cs:20-42 | It throws ArgumentOutOfRange exactly when there are no levels, and returns on every table with 1 to 30 levels. It throws Overflow only with 31 full levels, both with nothing changed. Otherwise the key is new-stored. The count, counter sum and occupied slots rise by one, the pairs grow by exactly `(k, v)`, and a level is appended only when no existing level took the key. Validity is preserved. |
| ElasticHashTable.FindStep | OptOpenHash/ElasticHashTable.cs:87-92 | The step reported holds the key, and every earlier step holds another key. -1 means no step reachable over occupied slots holds the key. |
| ElasticHashTable.FindFrom | OptOpenHash/ElasticHashTable.cs:83-94 | The slot reported holds the key, at the first matching step of its level. The scan of every earlier level, or of every level when nothing is reported, misses the key. |
| ElasticHashTable.FindEntry | OptOpenHash/ElasticHashTable.cs:81-95 | The slot reported holds the key, so the key is stored. It is the first match of the first level whose scan finds the key; on a miss every level's scan misses it. |
| ElasticHashTable.LandedIsFound | OptOpenHash/ElasticHashTable.cs:81-95 | A key written with its own level's salt is found afterwards. |
| ElasticHashTable.AddThenContains | OptOpenHash/ElasticHashTable.cs:20-42 | After `Add`, `Contains` finds the key on every path except the next-level branch. |
| ElasticHashTable.FindFromKeysOnly | OptOpenHash/ElasticHashTable.cs:87-92 | The lookup depends only on which slots hold which keys. |
| ElasticHashTable.AddOrUpdate | OptOpenHash/ElasticHashTable.cs:60-71 | A found key is overwritten in place, and the result is false: the level count and every level's length are kept, every other slot is unchanged, and the keys and counters stay the same. Otherwise it is `Add`, with result true. Validity is preserved. |
| ElasticHashTable.OverwriteKeeps | OptOpenHash/ElasticHashTable.cs:63-66 | An in-place overwrite keeps the keys, the occupancy, the validity and the lookup. |
| ElasticHashTable.GetValueOrDefault | OptOpenHash/ElasticHashTable.cs:73-79 | The default for a key not found, and otherwise the value in the slot `FindEntry` reports, which is stored with the key. |
| ElasticHashTable.Contains | OptOpenHash/ElasticHashTable.cs:97 | True only for stored keys. |
| ElasticHashTable.Count | OptOpenHash/ElasticHashTable.cs:99 | In a valid table, the number of occupied slots, which is also the sum of the level counters. |
| ElasticHashTable.QuirkLosesKey | OptOpenHash/ElasticHashTable.cs:33 | There is a table satisfying `Valid`, not claimed reachable from `New`, in which `Add` returns true and `Contains` then misses the key just added. |

## Left out

- Hashing and equality: `GetHashCode` is an arbitrary function to 32 bits,
  and `Equals` (or a custom comparer) is `==`.
- Null keys and items are not modelled. In the set, a null item always
  hashes to 0 (`OptOpenHash/KrapivinHashSet.cs:112`, `:145`, `:155`), and the
  default comparer `(x, y) => x.Equals(y)` (`:12`) is called with the stored
  item as receiver (`:116`, `:148`, `:158`). So once a null is stored, the
  next probe that reaches its used slot throws NullReferenceException.
- Enumerators, `CopyTo`, `Keys`, `Values` and `IsReadOnly`: they are views of
  the slot array, and no property of the tables depends on them.
- The set methods that throw `NotImplementedException`: `IsSubsetOf`,
  `IsSupersetOf`, `IsProperSubsetOf`, `IsProperSupersetOf` and
  `SymmetricExceptWith`.
- The benchmark program and the test projects.
- Floating point: the Elastic load tests, probe limit and capacity step, and
  the Funnel probe limit, `maxInserts`, special-array size and layer share
  are exact integer or rational forms. They agree with the double
  arithmetic except where rounding crosses an integer boundary.
- C# 32-bit `int` overflow of sizes and counts, such as `capacity + 1` at
  `int.MaxValue` or `Length << 1` past 2^30 in the Krapivin resize. The
  32-bit `uint` probe arithmetic and the Elastic level limit are modelled.
- `Count` of the Krapivin dictionary and set: it is the `count` field. That
  it equals the number of used slots is part of `Valid`.
- KrapivinHashTable.Remove: does not claim the key's neighbours stay findable. The
  table's lookup walks every step, so only "every key lies on its own probe
  sequence" is kept.
- KrapivinDictionary.Remove: does not claim contiguity afterwards, so not
  `Valid` either. The repair reinserts only the run behind the hole on the
  removed key's own sequence, so other keys can be left behind an Empty slot.
  The count, the threshold bound and the absence of new keys are kept.
- KrapivinHashSet.Remove: same as the dictionary. Only contiguity is not
  claimed after a removal; the count still equals the number of used bits.
- KrapivinHashSet.ExceptWith: only the first item of `other` is claimed gone. The
  removal can leave the set non-contiguous, and the lookup of a later `Remove`
  stops at the first Empty slot, so a later item can be missed.
- KrapivinDictionary.Add: the exact count after a resizing insert is stated only
  below the threshold. Above it, the rebuild may drop entries that find no slot.
- FunnelHashTable.Add: requires the layer layout that the constructor builds
  (`Shape`), which holds for every table the constructor returns.
- ElasticHashTable.Contains: states only that a key found is stored. The
  converse fails on the table of QuirkLosesKey, which satisfies `Valid` but
  is not claimed reachable from `New`.
- ElasticHashTable.QuirkLosesKey: its table satisfies `Valid` but no run of
  Adds from `New` produces it. A reachable run of twelve Adds that loses a
  key (see the quirk paragraph above) was worked by hand and is not proved:
  evaluating twelve concrete inserts is beyond what the solver does cheaply.
- ElasticHashTable.Valid: does not claim each level's counter matches that
  level's slots. The next-level branch credits the wrong level, so only the
  sum is kept.
- ElasticHashTable.Add: an `InvalidOperationException` ("full") is never
  produced. After appending a level of twice the length, the first probe step
  finds it Empty.

=== FILE: elastic_hash_table.dfy ===
/** ElasticHashTable: a list of levels of 1, 2, 4, ... slots with one
    occupancy counter each. An insert picks a level by how free it and the
    next level are, probes quadratically from `(hash ^ i)` and only ever
    fills Empty slots; when no level takes the entry a level of twice the
    last size is appended. */
module ElasticHashTable {
  import opened Slots

  /** A slot: the level and the index in it. */
  type Pos = (nat, nat)

  /** `occupancies[i]` is credited with every insert made on behalf of level
      `i`, which is not always an insert INTO level `i` (see TargetFrom). */
  datatype Elastic<K, V> = Elastic(
    levels: seq<seq<Slot<K, V>>>,
    occupancies: seq<nat>,
    numInserts: int)

  /** Level 31 would have `1 << 31` slots, which wraps to a negative `int`. */
  const MaxLevels: nat := 31

  /** The layout every table has: level `i` has `2^i` slots, one counter per
      level, and no level is longer than the largest `int` power of two. */
  predicate Shape<K, V>(t: Elastic<K, V>)
  {
    && |t.occupancies| == |t.levels| <= MaxLevels
    && forall i :: 0 <= i < |t.levels| ==> |t.levels[i]| == Pow2(i)
  }

  /** The state the table keeps: the counters add up to `numInserts`, which
      is the number of occupied slots. Each counter on its own need not match
      its level. */
  ghost predicate Valid<K, V>(t: Elastic<K, V>)
  {
    && Shape(t)
    && Sum(t.occupancies) == t.numInserts
    && t.numInserts == TotalOccupancy(t.levels)
  }

  // ---------------------------------------------------------------- construction

  /** The slots the constructor counts for the first `n` levels: each level of
      `size` slots adds `size - (int)(size * 0.1)`. */
  function Capacity(n: nat): nat
  {
    if n == 0 then 0 else Capacity(n - 1) + Pow2(n - 1) - Pow2(n - 1) / 10
  }

  /** The constructor's loop from level `i`, with `capacity` counted so far:
      the number of levels it allocates. Level `top` (MaxLevels, 31) would
      have `1 << 31` slots, which wraps to a negative `int`, and allocating
      it throws. The bound is a parameter so that no proof evaluates
      Capacity at the literal 31. */
  function LevelCount(desired: int, capacity: int, i: nat, top: nat): (r: Result<nat>)
    requires i <= top && capacity == Capacity(i)
    ensures r.Ok? ==> i <= r.value <= top && Capacity(r.value) >= desired
    ensures r.Ok? ==> forall m :: i <= m < r.value ==> Capacity(m) < desired
    ensures r.Err? ==> r.error == Overflow && forall m :: i <= m <= top ==> Capacity(m) < desired
    ensures (forall m :: i <= m <= top ==> Capacity(m) < desired) ==> r.Err?
    decreases top - i
  {
    if capacity >= desired then
      Ok(i)
    else if i == top then Err(Overflow)
    else LevelCount(desired, capacity + Pow2(i) - Pow2(i) / 10, i + 1, top)
  }

  /** `new ElasticHashTable(desiredCapacity)`: the fewest levels of 1, 2, 4,
      ... slots whose counted capacity reaches `desired`, all empty. */
  function New<K, V>(desired: int): (r: Result<Elastic<K, V>>)
    ensures r.Err? ==> r.error == Overflow && forall m :: 0 <= m <= MaxLevels ==> Capacity(m) < desired
    ensures (forall m :: 0 <= m <= MaxLevels ==> Capacity(m) < desired) ==> r.Err?
    ensures desired <= 0 ==> r.Ok? && r.value.levels == []
    ensures r.Ok? ==> Valid(r.value) && r.value.numInserts == 0 && KeysIn(r.value.levels) == {}
    ensures r.Ok? ==> Capacity(|r.value.levels|) >= desired
    ensures r.Ok? ==> forall m :: 0 <= m < |r.value.levels| ==> Capacity(m) < desired
    ensures r.Ok? ==> forall i :: 0 <= i < |r.value.levels| ==> r.value.occupancies[i] == 0
  {
    match LevelCount(desired, 0, 0, MaxLevels)
    case Err(e) => Err(e)
    case Ok(n) =>
      var t := Elastic(seq(n, i requires 0 <= i => Empties<K, V>(Pow2(i))), seq(n, _ => 0), 0);
      NothingStored(t.levels, t.occupancies);
      Ok(t)
  }

  /** Levels of Empty slots and zero counters hold nothing. */
  lemma {:induction false} NothingStored<K, V>(ls: seq<seq<Slot<K, V>>>, occ: seq<nat>)
    requires forall l, p :: 0 <= l < |ls| && 0 <= p < |ls[l]| ==> ls[l][p].Empty?
    requires forall i :: 0 <= i < |occ| ==> occ[i] == 0
    ensures TotalOccupancy(ls) == 0 && Sum(occ) == 0 && KeysIn(ls) == {}
  {
    NoneOccupied(ls);
    ZerosSum(occ);
  }

  lemma {:induction false} NoneOccupied<K, V>(ls: seq<seq<Slot<K, V>>>)
    requires forall l, p :: 0 <= l < |ls| && 0 <= p < |ls[l]| ==> ls[l][p].Empty?
    ensures TotalOccupancy(ls) == 0
  {
    if ls != [] {
      OccupancyNone(ls[0]);
      NoneOccupied(ls[1..]);
    }
  }

  lemma {:induction false} ZerosSum(occ: seq<nat>)
    requires forall i :: 0 <= i < |occ| ==> occ[i] == 0
    ensures Sum(occ) == 0
  {
    if occ != [] {
      ZerosSum(occ[1..]);
    }
  }

  lemma {:induction false} OccupancyNone<K, V>(s: seq<Slot<K, V>>)
    requires forall p :: 0 <= p < |s| ==> s[p].Empty?
    ensures Occupancy(s) == 0
  {
    if s != [] {
      OccupancyNone(s[1..]);
    }
  }

  // ---------------------------------------------------------------- probing

  /** Step `j` of the quadratic probe: `hashi` starts at the salted hash and
      grows by `2j + 1` per step, wrapping at `2^32`, so step `j` is at
      `(hs + j^2) mod 2^32`, reduced modulo the level's length. */
  function QuadIndex(hs: U32, j: nat, size: nat): (p: nat)
    requires size >= 1
    ensures p < size
  {
    ((hs + j * j) % TWO32) % size
  }

  lemma DivModUnique(y: int, s: int, q: int, r: int)
    requires s >= 1 && 0 <= r < s && y == s * q + r
    ensures y % s == r
  {
    var q', r' := y / s, y % s;
    var d := q - q';
    assert s * d == r' - r;
    if d >= 1 {
      AtLeastOnce(s, d);
    } else if d <= -1 {
      AtLeastOnce(s, -d);
    }
  }

  lemma AtLeastOnce(s: int, d: int)
    requires s >= 1 && d >= 1
    ensures s * d >= s
  {
    assert s * d == s + s * (d - 1);
  }

  /** Adding a multiple of `s` does not change the remainder modulo `s`. */
  lemma ModShift(x: int, s: int, m: int)
    requires s >= 1
    ensures (x + s * m) % s == x % s
  {
    var q, r := x / s, x % s;
    assert x + s * m == s * (q + m) + r;
    DivModUnique(x + s * m, s, q + m, r);
  }

  lemma {:induction false} Pow2Split(a: nat, b: nat)
    ensures Pow2(a + b) == Pow2(a) * Pow2(b)
    decreases a
  {
    if a > 0 {
      Pow2Split(a - 1, b);
    }
  }

  /** Reducing modulo `2^32` first does not change the remainder modulo a
      divisor of `2^32`. */
  lemma ModOfWrap(x: int, s: int, c: int)
    requires s >= 1 && c >= 1 && TWO32 == s * c
    ensures (x % TWO32) % s == x % s
  {
    var w := x / TWO32;
    assert x % TWO32 == x + s * -(c * w) by {
      assert x == TWO32 * w + x % TWO32;
      assert TWO32 * w == s * (c * w);
    }
    ModShift(x, s, -(c * w));
  }

  /** `j^2` and `(j mod s)^2` differ by a multiple of `s`. */
  lemma SquareMod(j: nat, s: int)
    requires s >= 1
    ensures exists m :: j * j == (j % s) * (j % s) + s * m
  {
    var q, r := j / s, j % s;
    assert j == s * q + r;
    var m := s * q * q + 2 * q * r;
    assert j * j == r * r + s * m by {
      assert j * j == (s * q + r) * (s * q + r);
    }
  }

  /** In a level of `2^e` slots the probe repeats every `2^e` steps. */
  lemma QuadPeriodic(hs: U32, j: nat, e: nat)
    requires e <= 32
    ensures QuadIndex(hs, j, Pow2(e)) == QuadIndex(hs, j % Pow2(e), Pow2(e))
  {
    var s := Pow2(e);
    Pow2Is32();
    Pow2Split(e, 32 - e);
    var c := Pow2(32 - e);
    var r := j % s;
    SquareShift(hs, j, s);
    ModOfWrap(hs + j * j, s, c);
    ModOfWrap(hs + r * r, s, c);
  }

  /** `x + j^2` and `x + (j mod s)^2` leave the same remainder modulo `s`. */
  lemma SquareShift(x: int, j: nat, s: int)
    requires s >= 1
    ensures (x + j * j) % s == (x + (j % s) * (j % s)) % s
  {
    var r := j % s;
    SquareMod(j, s);
    var m :| j * j == r * r + s * m;
    ModShift(x + r * r, s, m);
  }

  /** InsertAt's scan: the first of the steps `j .. limit - 1` that lands on
      an Empty slot, or -1. */
  function FreeStep<K, V>(level: seq<Slot<K, V>>, hs: U32, limit: nat, j: nat): (r: int)
    requires |level| >= 1 && j <= limit
    ensures r == -1 || j <= r < limit
    ensures r >= 0 ==> level[QuadIndex(hs, r, |level|)].Empty?
    ensures forall m :: j <= m < limit && (r == -1 || m < r) ==> level[QuadIndex(hs, m, |level|)].Occupied?
    decreases limit - j
  {
    if j == limit then -1
    else if level[QuadIndex(hs, j, |level|)].Empty? then j
    else FreeStep(level, hs, limit, j + 1)
  }

  /** A write Add settles on: into `levels[level][slot]`, reached at probe
      `step` with salt `salt`, credited to `occupancies[salt]`. */
  datatype Target = Target(salt: nat, level: nat, step: nat, slot: nat)

  /** The target is a real Empty slot, found as the first Empty one of the
      probe sequence salted with `salt` in its level, within the first
      `2^level` steps. */
  ghost predicate Lands<K, V>(t: Elastic<K, V>, h: U32, tg: Target)
  {
    && tg.salt < |t.occupancies| && tg.level < |t.levels| && tg.salt < TWO32
    && |t.levels[tg.level]| >= 1
    && tg.step < |t.levels[tg.level]|
    && tg.slot == QuadIndex(Xor(h, tg.salt), tg.step, |t.levels[tg.level]|)
    && t.levels[tg.level][tg.slot].Empty?
    && forall m :: 0 <= m < tg.step ==> t.levels[tg.level][QuadIndex(Xor(h, tg.salt), m, |t.levels[tg.level]|)].Occupied?
  }

  /** `InsertAt(limit, salt, levels[into])`: the first Empty slot among the
      first `limit` probe steps, if any. The write itself is Write. */
  function InsertAt<K, V>(t: Elastic<K, V>, h: U32, limit: nat, salt: nat, into: nat): (r: Option<Target>)
    requires Shape(t) && salt < |t.levels| && into < |t.levels|
    ensures r.Some? ==> Lands(t, h, r.value) && r.value.salt == salt && r.value.level == into && r.value.step < limit
    ensures r.None? ==> forall m :: 0 <= m < limit ==> t.levels[into][QuadIndex(Xor(h, salt), m, |t.levels[into]|)].Occupied?
  {
    var size := |t.levels[into]|;
    var hs := Xor(h, salt);
    var j := FreeStep(t.levels[into], hs, limit, 0);
    if j < 0 then None
    else
      FirstFreeWithinLevel(t.levels[into], hs, limit, into, j);
      Some(Target(salt, into, j, QuadIndex(hs, j, size)))
  }

  /** The first Empty step is below the level's length: a later step would
      revisit the slot of an earlier one, which was Occupied. */
  lemma FirstFreeWithinLevel<K, V>(level: seq<Slot<K, V>>, hs: U32, limit: nat, e: nat, j: nat)
    requires e <= 32 && |level| == Pow2(e) && j < limit
    requires FreeStep(level, hs, limit, 0) == j
    ensures j < |level|
  {
    if j >= |level| {
      QuadPeriodic(hs, j, e);
    }
  }

  // ---------------------------------------------------------------- Add

  /** The bounded probe limit of the same-level branch, for a level with
      `free` of `size` slots free by its counter:
      `max(1, (int)(4 * min(log2(size / free), log2 10)))`. The value is the
      largest `n <= 13` with `2^n * free^4 <= size^4`, since
      `(int)(4 * log2 10) == 13`. */
  function BoundedProbes(free: nat, size: nat): (n: nat)
    requires 1 <= free <= size
    ensures 1 <= n <= 13
    ensures n > 1 ==> Pow2(n) * (free * free * free * free) <= size * size * size * size
  {
    Largest(free * free * free * free, size * size * size * size, 13)
  }

  function Largest(f4: nat, s4: nat, n: nat): (r: nat)
    requires 1 <= n
    ensures 1 <= r <= n
    ensures r > 1 ==> Pow2(r) * f4 <= s4
    decreases n
  {
    if n == 1 || Pow2(n) * f4 <= s4 then n else Largest(f4, s4, n - 1)
  }

  /** One turn of the loop of Add at level `i` below the last. Level `i` is
      tried only when more than 5% of it is free by its counter
      (`20 * free > size`); then if more than a quarter of level `i + 1` is
      free (`4 * nextFree > nextSize`) the bounded probe runs in level `i`,
      otherwise `size` probes run in level `i + 1` — salted with `i` and
      credited to level `i`, as the source passes `i`. */
  function Attempt<K, V>(t: Elastic<K, V>, h: U32, i: nat): (r: Option<Target>)
    requires Shape(t) && i < |t.levels| - 1
    ensures r.Some? ==> Lands(t, h, r.value) && r.value.salt == i
    ensures r.Some? ==> r.value.level == i || r.value.level == i + 1
    ensures r.Some? ==> 20 * (|t.levels[i]| - t.occupancies[i]) > |t.levels[i]|
    ensures r.Some? && r.value.level == i + 1 ==> 4 * (|t.levels[i + 1]| - t.occupancies[i + 1]) <= |t.levels[i + 1]|
  {
    var size := |t.levels[i]|;
    var free := size - t.occupancies[i];
    if 20 * free > size then
      var nextSize := |t.levels[i + 1]|;
      var nextFree := nextSize - t.occupancies[i + 1];
      if 4 * nextFree > nextSize then InsertAt(t, h, BoundedProbes(free, size), i, i)
      else InsertAt(t, h, size, i, i + 1)
    else None
  }

  /** The loop of Add from level `i`, then the last level, probed in full.
      The target comes from the first level whose turn finds a slot. */
  function TargetFrom<K, V>(t: Elastic<K, V>, h: U32, i: nat): (r: Option<Target>)
    requires Shape(t) && i < |t.levels|
    ensures r.Some? ==> Lands(t, h, r.value) && i <= r.value.salt
    ensures r.Some? ==> r.value.level == r.value.salt || r.value.level == r.value.salt + 1
    ensures r.Some? && r.value.salt < |t.levels| - 1 ==>
              20 * (|t.levels[r.value.salt]| - t.occupancies[r.value.salt]) > |t.levels[r.value.salt]|
    ensures r.Some? && r.value.level == r.value.salt + 1 ==>
              4 * (|t.levels[r.value.level]| - t.occupancies[r.value.level]) <= |t.levels[r.value.level]|
    decreases |t.levels| - i
  {
    if i == |t.levels| - 1 then InsertAt(t, h, |t.levels[i]|, i, i)
    else
      var attempt := Attempt(t, h, i);
      if attempt.Some? then attempt else TargetFrom(t, h, i + 1)
  }

  /** `level[idx] = (key, value); occupancies[salt]++; numInserts++`. */
  function Write<K, V>(t: Elastic<K, V>, tg: Target, k: K, v: V): (r: Elastic<K, V>)
    requires tg.level < |t.levels| && tg.slot < |t.levels[tg.level]| && tg.salt < |t.occupancies|
    ensures |r.levels| == |t.levels| && |r.occupancies| == |t.occupancies|
    ensures r.levels == t.levels[tg.level := t.levels[tg.level][tg.slot := Occupied(k, v)]]
    ensures forall i :: 0 <= i < |t.occupancies| && i != tg.salt ==> r.occupancies[i] == t.occupancies[i]
    ensures r.occupancies[tg.salt] == t.occupancies[tg.salt] + 1
    ensures r.numInserts == t.numInserts + 1 && Sum(r.occupancies) == Sum(t.occupancies) + 1
    ensures t.levels[tg.level][tg.slot].Empty? ==> TotalOccupancy(r.levels) == TotalOccupancy(t.levels) + 1
  {
    SumBump(t.occupancies, tg.salt);
    TotalOccupancyUpdate(t.levels, tg.level, tg.slot, Occupied(k, v));
    Elastic(t.levels[tg.level := t.levels[tg.level][tg.slot := Occupied(k, v)]],
            t.occupancies[tg.salt := t.occupancies[tg.salt] + 1],
            t.numInserts + 1)
  }

  /** The table with an Empty level of twice the last size appended. */
  function Expand<K, V>(t: Elastic<K, V>): (r: Elastic<K, V>)
    requires Shape(t) && 1 <= |t.levels| < 31
    ensures Shape(r) && |r.levels| == |t.levels| + 1 && r.levels[..|t.levels|] == t.levels
    ensures TotalOccupancy(r.levels) == TotalOccupancy(t.levels) && Sum(r.occupancies) == Sum(t.occupancies)
    ensures EntriesIn(r.levels) == EntriesIn(t.levels) && r.numInserts == t.numInserts
    ensures forall p :: 0 <= p < |r.levels[|t.levels|]| ==> r.levels[|t.levels|][p].Empty?
  {
    var n := |t.levels|;
    var grown := Empties<K, V>(2 * |t.levels[n - 1]|);
    OccupancyEmpties<K, V>(2 * |t.levels[n - 1]|);
    TotalOccupancyAppend(t.levels, grown);
    SumAppend(t.occupancies, 0);
    var r := Elastic(t.levels + [grown], t.occupancies + [0], t.numInserts);
    assert r.levels[..n] == t.levels;
    EntriesAppendEmpty(t.levels, grown);
    r
  }

  lemma EntriesAppendEmpty<K, V>(ls: seq<seq<Slot<K, V>>>, l: seq<Slot<K, V>>)
    requires forall p :: 0 <= p < |l| ==> l[p].Empty?
    ensures EntriesIn(ls + [l]) == EntriesIn(ls)
  {
    var r: seq<seq<Slot<K, V>>> := ls + [l];
    forall e | e in EntriesIn(r) ensures e in EntriesIn(ls) {
      var a, p :| 0 <= a < |r| && 0 <= p < |r[a]| && r[a][p].Occupied? && e == (r[a][p].key, r[a][p].value);
      assert a < |ls| && r[a][p] == ls[a][p];
    }
    forall e | e in EntriesIn(ls) ensures e in EntriesIn(r) {
      var a, p :| 0 <= a < |ls| && 0 <= p < |ls[a]| && ls[a][p].Occupied? && e == (ls[a][p].key, ls[a][p].value);
      assert r[a][p] == ls[a][p];
    }
  }

  lemma {:induction false} Pow2Below(a: nat, b: nat)
    requires a < b
    ensures Pow2(a) < Pow2(b)
    decreases b
  {
    if a < b - 1 {
      Pow2Below(a, b - 1);
    }
  }

  /** The last level is `2^30` slots long exactly when there are 31 levels. */
  lemma LastLevelLength<K, V>(t: Elastic<K, V>)
    requires Shape(t) && |t.levels| >= 1
    ensures |t.levels[|t.levels| - 1]| >= 0x4000_0000 <==> |t.levels| == MaxLevels
  {
    var n := |t.levels|;
    Pow2Is30();
    if n - 1 < 30 {
      Pow2Below(n - 1, 30);
    }
  }

  lemma Pow2Is30()
    ensures Pow2(30) == 0x4000_0000
  {
    Pow2Is32();
    Pow2Split(30, 2);
  }

  /** Writing `(k, v)` at a target that landed: the slot was Empty, so every
      count grows by one and every stored entry stays. */
  lemma WriteLanded<K, V>(t: Elastic<K, V>, h: U32, tg: Target, k: K, v: V)
    requires Shape(t) && Lands(t, h, tg)
    ensures Shape(Write(t, tg, k, v))
    ensures TotalOccupancy(Write(t, tg, k, v).levels) == TotalOccupancy(t.levels) + 1
    ensures EntriesIn(Write(t, tg, k, v).levels) == EntriesIn(t.levels) + {(k, v)}
    ensures KeysIn(Write(t, tg, k, v).levels) == KeysIn(t.levels) + {k}
    ensures LevelsExtend(t.levels, Write(t, tg, k, v).levels)
  {
    LevelsWrite(t.levels, tg.level, tg.slot, k, v);
  }

  /** The write of Add's first branch: the table keeps its levels, gains
      `(k, v)` in the target slot and stays valid. */
  lemma WriteAdds<K, V>(t: Elastic<K, V>, h: U32, tg: Target, k: K, v: V)
    requires Shape(t) && Lands(t, h, tg)
    ensures var r := Write(t, tg, k, v);
            && Shape(r) && |r.levels| == |t.levels|
            && r.numInserts == t.numInserts + 1 && Sum(r.occupancies) == Sum(t.occupancies) + 1
            && TotalOccupancy(r.levels) == TotalOccupancy(t.levels) + 1
            && EntriesIn(r.levels) == EntriesIn(t.levels) + {(k, v)}
            && KeysIn(r.levels) == KeysIn(t.levels) + {k}
            && LevelsExtend(t.levels, r.levels[..|t.levels|])
            && (Valid(t) ==> Valid(r))
  {
    WriteLanded(t, h, tg, k, v);
    var r := Write(t, tg, k, v);
    assert r.levels[..|t.levels|] == r.levels;
  }

  /** The appended level is empty, so probing it always lands, at step 0;
      the write leaves the old levels as they were. */
  lemma GrowLands<K, V>(t: Elastic<K, V>, h: U32, k: K, v: V)
    requires Shape(t) && 1 <= |t.levels| < MaxLevels
    ensures var t1 := Expand(t); var n := |t.levels|;
            && InsertAt(t1, h, |t1.levels[n]|, n, n).Some?
            && var r := Write(t1, InsertAt(t1, h, |t1.levels[n]|, n, n).value, k, v);
            && Shape(r) && |r.levels| == n + 1 && r.levels[..n] == t.levels
            && r.numInserts == t.numInserts + 1 && Sum(r.occupancies) == Sum(t.occupancies) + 1
            && TotalOccupancy(r.levels) == TotalOccupancy(t.levels) + 1
            && EntriesIn(r.levels) == EntriesIn(t.levels) + {(k, v)}
            && KeysIn(r.levels) == KeysIn(t.levels) + {k}
  {
    var t1 := Expand(t);
    var n := |t.levels|;
    var a := InsertAt(t1, h, |t1.levels[n]|, n, n);
    assert t1.levels[n][QuadIndex(Xor(h, n), 0, |t1.levels[n]|)].Empty?;
    var tg := a.value;
    WriteLanded(t1, h, tg, k, v);
    var r := Write(t1, tg, k, v);
    assert r.levels[..n] == t1.levels[..n];
    ExpandKeys(t);
  }

  lemma ExpandKeys<K, V>(t: Elastic<K, V>)
    requires Shape(t) && 1 <= |t.levels| < MaxLevels
    ensures KeysIn(Expand(t).levels) == KeysIn(t.levels)
  {
    var r := Expand(t);
    var n := |t.levels|;
    forall x | x in KeysIn(r.levels) ensures x in KeysIn(t.levels) {
      var a, p :| 0 <= a < |r.levels| && 0 <= p < |r.levels[a]| && r.levels[a][p].Occupied? && x == r.levels[a][p].key;
      assert a < n && r.levels[a] == t.levels[a];
    }
    forall x | x in KeysIn(t.levels) ensures x in KeysIn(r.levels) {
      var a, p :| 0 <= a < |t.levels| && 0 <= p < |t.levels[a]| && t.levels[a][p].Occupied? && x == t.levels[a][p].key;
      assert r.levels[a] == t.levels[a];
    }
  }

  /** `Add`: the levels below the last in order, then the last level, then a
      doubled level appended. The entry always goes into an Empty slot, even
      when `k` is already stored. With no levels at all `levels[^1]` throws;
      with 31 levels the doubled length wraps and its allocation throws. */
  function Add<K(==), V>(t: Elastic<K, V>, hash: K -> U32, k: K, v: V): (r: Outcome<Elastic<K, V>, bool>)
    requires Shape(t)
    ensures |t.levels| == 0 ==> r == Threw(ArgumentOutOfRange, t)
    ensures r.Threw? && r.error == ArgumentOutOfRange ==> |t.levels| == 0
    ensures 0 < |t.levels| < MaxLevels ==> r.Returned?
    ensures r.Threw? ==> r.state == t && (r.error == ArgumentOutOfRange || r.error == Overflow)
    ensures r.Threw? && r.error == Overflow ==> |t.levels| == MaxLevels && TargetFrom(t, hash(k), 0).None?
    ensures r.Returned? ==> r.result && Shape(r.state)
    ensures r.Returned? ==> r.state.numInserts == t.numInserts + 1 && Sum(r.state.occupancies) == Sum(t.occupancies) + 1
    ensures r.Returned? ==> TotalOccupancy(r.state.levels) == TotalOccupancy(t.levels) + 1
    ensures r.Returned? ==> EntriesIn(r.state.levels) == EntriesIn(t.levels) + {(k, v)}
    ensures r.Returned? ==> KeysIn(r.state.levels) == KeysIn(t.levels) + {k}
    ensures r.Returned? ==> |t.levels| <= |r.state.levels| <= |t.levels| + 1
    ensures r.Returned? ==> LevelsExtend(t.levels, r.state.levels[..|t.levels|])
    ensures r.Returned? && |r.state.levels| > |t.levels| ==>
              TargetFrom(t, hash(k), 0).None? && r.state.levels[..|t.levels|] == t.levels
    ensures Valid(t) ==> Valid(r.State())
  {
    var h := hash(k);
    var n := |t.levels|;
    if n == 0 then Threw(ArgumentOutOfRange, t)
    else
      match TargetFrom(t, h, 0)
      case Some(tg) =>
        WriteAdds(t, h, tg, k, v);
        Returned(Write(t, tg, k, v), true)
      case None =>
        LastLevelLength(t);
        if |t.levels[n - 1]| >= 0x4000_0000 then Threw(Overflow, t)
        else
          var t1 := Expand(t);
          GrowLands(t, h, k, v);
          match InsertAt(t1, h, |t1.levels[n]|, n, n)
          case Some(tg) => Returned(Write(t1, tg, k, v), true)
          case None => Threw(TableFull, t1)
  }

  // ---------------------------------------------------------------- lookups

  /** FindEntry's scan of one level from probe step `j`, over at most the
      level's length in steps: the first step holding `k`, giving up at the
      first Empty slot, or -1. */
  function FindStep<K(==), V>(level: seq<Slot<K, V>>, hs: U32, k: K, j: nat): (r: int)
    requires |level| >= 1 && j <= |level|
    ensures r == -1 || (j <= r < |level| && Holds(level, QuadIndex(hs, r, |level|), k))
    ensures r >= 0 ==> forall m :: j <= m < r ==>
              level[QuadIndex(hs, m, |level|)].Occupied? && level[QuadIndex(hs, m, |level|)].key != k
    ensures forall J :: (&& j <= J < |level| && Holds(level, QuadIndex(hs, J, |level|), k)
                         && forall m :: j <= m < J ==> level[QuadIndex(hs, m, |level|)].Occupied?) ==> r >= 0
    decreases |level| - j
  {
    if j == |level| then -1
    else
      var e := level[QuadIndex(hs, j, |level|)];
      if e.Empty? then -1
      else if e.key == k then j
      else FindStep(level, hs, k, j + 1)
  }

  /** The scan of level `l`, salted with `l`, does not find `k`. */
  ghost predicate LevelMisses<K, V>(t: Elastic<K, V>, h: U32, k: K, l: nat)
    requires Shape(t) && l < |t.levels|
  {
    FindStep(t.levels[l], Xor(h, l), k, 0) < 0
  }

  /** FindEntry from level `l` on: each level probed with its own index as
      salt, in order; the first slot found. */
  function FindFrom<K(==), V>(t: Elastic<K, V>, h: U32, k: K, l: nat): (r: Option<Pos>)
    requires Shape(t) && l <= |t.levels|
    ensures r.Some? ==> l <= r.value.0 < |t.levels| && r.value.1 < |t.levels[r.value.0]|
    ensures r.Some? ==> Holds(t.levels[r.value.0], r.value.1, k)
    ensures r.Some? ==> var hs := Xor(h, r.value.0); var level := t.levels[r.value.0];
              FindStep(level, hs, k, 0) >= 0 && r.value.1 == QuadIndex(hs, FindStep(level, hs, k, 0), |level|)
    ensures forall l' :: l <= l' < |t.levels| && (r.None? || l' < r.value.0) ==> LevelMisses(t, h, k, l')
    decreases |t.levels| - l
  {
    if l == |t.levels| then None
    else
      var hs := Xor(h, l);
      var j := FindStep(t.levels[l], hs, k, 0);
      if j >= 0 then Some((l, QuadIndex(hs, j, |t.levels[l]|))) else FindFrom(t, h, k, l + 1)
  }

  /** `FindEntry`: the slot holding `k` that the level-by-level search reaches first. */
  function FindEntry<K(==), V>(t: Elastic<K, V>, hash: K -> U32, k: K): (r: Option<Pos>)
    requires Shape(t)
    ensures r.Some? ==> r.value.0 < |t.levels| && r.value.1 < |t.levels[r.value.0]|
    ensures r.Some? ==> Holds(t.levels[r.value.0], r.value.1, k) && k in KeysIn(t.levels)
    ensures r.Some? ==> var hs := Xor(hash(k), r.value.0); var level := t.levels[r.value.0];
              FindStep(level, hs, k, 0) >= 0 && r.value.1 == QuadIndex(hs, FindStep(level, hs, k, 0), |level|)
    ensures forall l :: 0 <= l < |t.levels| && (r.None? || l < r.value.0) ==> LevelMisses(t, hash(k), k, l)
  {
    FindFrom(t, hash(k), k, 0)
  }

  /** A key written at a target probed with its own level's salt is found
      again from any level up to that one. */
  lemma {:induction false} LandedIsFound<K, V>(t: Elastic<K, V>, h: U32, tg: Target, k: K, v: V, l: nat)
    requires Shape(t) && Lands(t, h, tg) && tg.salt == tg.level && l <= tg.level
    ensures Shape(Write(t, tg, k, v)) && FindFrom(Write(t, tg, k, v), h, k, l).Some?
    decreases tg.level - l
  {
    var r := Write(t, tg, k, v);
    WriteLanded(t, h, tg, k, v);
    var hs := Xor(h, l);
    if l == tg.level {
      var level := r.levels[l];
      forall m | 0 <= m < tg.step ensures level[QuadIndex(hs, m, |level|)].Occupied? {
        assert t.levels[l][QuadIndex(hs, m, |level|)].Occupied?;
      }
      assert Holds(level, QuadIndex(hs, tg.step, |level|), k);
    } else if FindStep(r.levels[l], hs, k, 0) < 0 {
      LandedIsFound(t, h, tg, k, v, l + 1);
    }
  }

  /** After `Add` returns, `Contains` finds the key whenever the write was
      probed with its own level's salt: every branch but the next-level one. */
  lemma AddThenContains<K, V>(t: Elastic<K, V>, hash: K -> U32, k: K, v: V)
    requires Shape(t)
    ensures var r := Add(t, hash, k, v);
            r.Returned? && |t.levels| >= 1 &&
            (TargetFrom(t, hash(k), 0).None? || TargetFrom(t, hash(k), 0).value.salt == TargetFrom(t, hash(k), 0).value.level)
            ==> Contains(r.state, hash, k)
  {
    var h := hash(k);
    var n := |t.levels|;
    if n >= 1 && Add(t, hash, k, v).Returned? {
      match TargetFrom(t, h, 0)
      case Some(tg) =>
        if tg.salt == tg.level {
          LandedIsFound(t, h, tg, k, v, 0);
        }
      case None =>
        var t1 := Expand(t);
        var tg :| InsertAt(t1, h, |t1.levels[n]|, n, n) == Some(tg);
        LandedIsFound(t1, h, tg, k, v, 0);
    }
  }

  /** The answer of each level's scan depends only on which slots hold which keys. */
  lemma {:induction false} FindStepKeysOnly<K, V>(a: seq<Slot<K, V>>, a': seq<Slot<K, V>>, hs: U32, k: K, j: nat)
    requires |a| >= 1 && j <= |a| && Extends(a, a') && Extends(a', a)
    ensures FindStep(a', hs, k, j) == FindStep(a, hs, k, j)
    decreases |a| - j
  {
    if j < |a| {
      FindStepKeysOnly(a, a', hs, k, j + 1);
    }
  }

  lemma {:induction false} FindFromKeysOnly<K, V>(t: Elastic<K, V>, t': Elastic<K, V>, h: U32, k: K, l: nat)
    requires Shape(t) && Shape(t') && l <= |t.levels|
    requires LevelsExtend(t.levels, t'.levels) && LevelsExtend(t'.levels, t.levels)
    ensures FindFrom(t', h, k, l) == FindFrom(t, h, k, l)
    decreases |t.levels| - l
  {
    if l < |t.levels| {
      FindFromKeysOnly(t, t', h, k, l + 1);
      FindFromOneLevel(t, t', h, k, l);
    }
  }

  /** One level of the search: equal searches below give equal searches from there. */
  lemma FindFromOneLevel<K, V>(t: Elastic<K, V>, t': Elastic<K, V>, h: U32, k: K, l: nat)
    requires Shape(t) && Shape(t') && l < |t.levels|
    requires LevelsExtend(t.levels, t'.levels) && LevelsExtend(t'.levels, t.levels)
    requires FindFrom(t', h, k, l + 1) == FindFrom(t, h, k, l + 1)
    ensures FindFrom(t', h, k, l) == FindFrom(t, h, k, l)
  {
    FindStepKeysOnly(t.levels[l], t'.levels[l], Xor(h, l), k, 0);
  }

  /** `AddOrUpdate`: a key FindEntry finds has its value overwritten in place
      and the result is false; otherwise the outcome is `Add`'s, with result true. */
  function AddOrUpdate<K(==), V>(t: Elastic<K, V>, hash: K -> U32, k: K, v: V): (r: Outcome<Elastic<K, V>, bool>)
    requires Shape(t)
    ensures FindEntry(t, hash, k).Some? ==>
              && r.Returned? && !r.result && Shape(r.state)
              && r.state.numInserts == t.numInserts && r.state.occupancies == t.occupancies
              && KeysIn(r.state.levels) == KeysIn(t.levels)
              && FindEntry(r.state, hash, k) == FindEntry(t, hash, k)
              && var q := FindEntry(t, hash, k).value; r.state.levels[q.0][q.1] == Occupied(k, v)
    ensures FindEntry(t, hash, k).Some? ==>
              && |r.state.levels| == |t.levels|
              && (forall l :: 0 <= l < |t.levels| ==> |r.state.levels[l]| == |t.levels[l]|)
              && forall l, p :: 0 <= l < |t.levels| && 0 <= p < |t.levels[l]| && (l, p) != FindEntry(t, hash, k).value ==>
                   r.state.levels[l][p] == t.levels[l][p]
    ensures FindEntry(t, hash, k).None? ==>
              var a := Add(t, hash, k, v);
              r.State() == a.State() && (r.Returned? <==> a.Returned?) && (r.Returned? ==> r.result)
    ensures Valid(t) ==> Valid(r.State())
  {
    var e := FindEntry(t, hash, k);
    if e.Some? && t.levels[e.value.0][e.value.1].Occupied? then
      var q := e.value;
      var r := t.(levels := t.levels[q.0 := t.levels[q.0][q.1 := Occupied(k, v)]]);
      OverwriteKeeps(t, hash, q, k, v);
      Returned(r, false)
    else
      match Add(t, hash, k, v)
      case Returned(t1, _) => Returned(t1, true)
      case Threw(err, t1) => Threw(err, t1)
  }

  /** Rewriting the value of a stored key changes no count, no key and no lookup. */
  lemma OverwriteKeeps<K, V>(t: Elastic<K, V>, hash: K -> U32, q: Pos, k: K, v: V)
    requires Shape(t) && q.0 < |t.levels| && q.1 < |t.levels[q.0]| && Holds(t.levels[q.0], q.1, k)
    ensures var r := t.(levels := t.levels[q.0 := t.levels[q.0][q.1 := Occupied(k, v)]]);
            && Shape(r)
            && TotalOccupancy(r.levels) == TotalOccupancy(t.levels)
            && KeysIn(r.levels) == KeysIn(t.levels)
            && FindEntry(r, hash, k) == FindEntry(t, hash, k)
  {
    var r := t.(levels := t.levels[q.0 := t.levels[q.0][q.1 := Occupied(k, v)]]);
    LevelsWrite(t.levels, q.0, q.1, k, v);
    TotalOccupancyUpdate(t.levels, q.0, q.1, Occupied(k, v));
    assert LevelsExtend(r.levels, t.levels) by {
      forall l | 0 <= l < |r.levels| ensures Extends(r.levels[l], t.levels[l]) {
        forall p | 0 <= p < |r.levels[l]| && r.levels[l][p].Occupied?
          ensures t.levels[l][p].Occupied? && t.levels[l][p].key == r.levels[l][p].key
        {
          if (l, p) != q { assert r.levels[l][p] == t.levels[l][p]; }
        }
      }
    }
    FindFromKeysOnly(t, r, hash(k), k, 0);
  }

  /** `GetValueOrDefault`: the value in the slot FindEntry reports, or `defaultValue`. */
  function GetValueOrDefault<K(==), V>(t: Elastic<K, V>, hash: K -> U32, k: K, defaultValue: V): (r: V)
    requires Shape(t)
    ensures FindEntry(t, hash, k).None? ==> r == defaultValue
    ensures FindEntry(t, hash, k).Some? ==> (k, r) in EntriesIn(t.levels)
    ensures FindEntry(t, hash, k).Some? ==> var q := FindEntry(t, hash, k).value; r == t.levels[q.0][q.1].value
  {
    var e := FindEntry(t, hash, k);
    if e.None? then defaultValue
    else
      var entry := t.levels[e.value.0][e.value.1];
      if entry.Empty? then defaultValue else entry.value
  }

  /** `Contains`: FindEntry reports a slot. Only one direction holds: a
      stored key can be missed (QuirkLosesKey). */
  function Contains<K(==), V>(t: Elastic<K, V>, hash: K -> U32, k: K): (r: bool)
    requires Shape(t)
    ensures r ==> k in KeysIn(t.levels)
  {
    FindEntry(t, hash, k).Some?
  }

  /** `Count`: the inserts so far, which is the number of occupied slots and
      the sum of the counters. */
  function Count<K, V>(t: Elastic<K, V>): (r: int)
    ensures Valid(t) ==> r == TotalOccupancy(t.levels) && r == Sum(t.occupancies)
  {
    t.numInserts
  }

  function ZeroHash(x: int): U32
  {
    0
  }

  /** A table that satisfies `Valid`: two entries sit in level 2 while the
      counter of level 1 carries them, and level 1 is empty but counted full.
      No run of Adds from `New` yields it (crediting level 1 for a write into
      level 2 needs level 2 at least three-quarters full); the lemmas below
      use only that it satisfies `Valid`. */
  function QuirkTable(): Elastic<int, int>
  {
    Elastic([[Empty], [Empty, Empty], [Occupied(1, 0), Occupied(2, 0), Empty, Empty]], [0, 2, 0], 2)
  }

  lemma QuirkTableValid()
    ensures Valid(QuirkTable())
  {
    var t := QuirkTable();
    assert Pow2(1) == 2 && Pow2(2) == 4;
    assert Occupancy(t.levels[2]) == 2;
    assert TotalOccupancy(t.levels) == 2 by {
      assert t.levels[1..][1..][1..] == [];
    }
  }

  lemma QuirkTarget()
    ensures Shape(QuirkTable()) && TargetFrom(QuirkTable(), 0, 0) == Some(Target(0, 1, 0, 0))
  {
    var t := QuirkTable();
    assert Pow2(1) == 2 && Pow2(2) == 4;
    XorZero(0);
    assert 20 * (|t.levels[0]| - t.occupancies[0]) > |t.levels[0]|;
    assert !(4 * (|t.levels[1]| - t.occupancies[1]) > |t.levels[1]|);
    assert FreeStep(t.levels[1], 0, 1, 0) == 0;
  }

  lemma QuirkMiss()
    requires Shape(QuirkTable())
    ensures var r := Write(QuirkTable(), Target(0, 1, 0, 0), 7, 0);
            Shape(r) && FindFrom(r, 0, 7, 0).None?
  {
    var r := Write(QuirkTable(), Target(0, 1, 0, 0), 7, 0);
    assert Pow2(1) == 2 && Pow2(2) == 4;
    assert r.levels[1] == [Occupied(7, 0), Empty];
    assert r.levels[2] == QuirkTable().levels[2];
    XorZero(0);
    XorZero(1);
    XorZero(2);
    assert FindStep(r.levels[0], 0, 7, 0) == -1;
    assert FindStep(r.levels[1], 1, 7, 0) == -1;
    assert FindStep(r.levels[2], 2, 7, 0) == -1;
    assert FindFrom(r, 0, 7, 3).None?;
  }

  /** The next-level branch loses the key: in the table above, which
      satisfies `Valid` but is not claimed to be reachable, an insert lands
      in level 1 at the probe salted with 0, while FindEntry probes level 1
      salted with 1, meets an Empty slot and moves on. */
  lemma QuirkLosesKey()
    ensures var r := Add(QuirkTable(), ZeroHash, 7, 0);
            && Valid(QuirkTable())
            && r.Returned?
            && !Contains(r.state, ZeroHash, 7)
  {
    QuirkTableValid();
    QuirkTarget();
    QuirkMiss();
    assert ZeroHash(7) == 0;
  }
}

=== FILE: funnel_hash_table.dfy ===
/** FunnelHashTable: `Alpha` layers of `Beta`-slot buckets followed by one
    special array. An insert tries, layer by layer, the one bucket the hash
    picks there, then at most `probeLimit` consecutive slots of the special
    array, and takes the first slot that is Empty or already holds the key.
    Nothing is ever removed, so a slot only ever goes from Empty to Occupied. */
module FunnelHashTable {
  import opened Slots

  /** `ceil(4 * log2(1 / 0.1)) + 10`: the number of bucket layers. */
  const Alpha: nat := 24
  /** `ceil(2 * log2(1 / 0.1))`: the slots of one bucket. */
  const Beta: nat := 7
  /** `(int)(4 * (1 - 0.75^Alpha))`: the first layer gets a third of the buckets. */
  const BucketDiv: nat := 3

  /** A slot: the level it is in (`Alpha` for the special array) and its index. */
  type Pos = (nat, nat)

  /** `levels` holds the `Alpha` bucket layers and then the special array; a
      layer the constructor never built has no slots and no buckets. */
  datatype Funnel<K, V> = Funnel(
    levels: seq<seq<Slot<K, V>>>,
    buckets: seq<int>,
    maxInserts: int,
    probeLimit: nat,
    numInserts: int)

  /** The layout Add and FindEntry index into: every layer is exactly its
      buckets times `Beta` slots long and the special array is not empty. */
  predicate Shape<K, V>(t: Funnel<K, V>)
  {
    && |t.levels| == Alpha + 1
    && |t.buckets| == Alpha
    && (forall i :: 0 <= i < Alpha ==> t.buckets[i] >= 0 && |t.levels[i]| == t.buckets[i] * Beta)
    && |t.levels[Alpha]| >= 1
  }

  /** `max(1, ceil(ln(ln(c + 1) + 1)))` for `c >= 0`. The ceiling is at most
      `n` exactly when `c + 1 <= e^(e^n - 1)`, which puts the steps at
      `c = 5`, `595` and `194421088`; past that the limit stays 4 for every
      `int` capacity. */
  function ProbeLimit(c: nat): (n: nat)
    ensures 1 <= n <= 4
    ensures c <= 4 <==> n == 1
  {
    if c <= 4 then 1 else if c <= 594 then 2 else if c <= 194421087 then 3 else 4
  }

  function Max(a: int, b: int): int { if a >= b then a else b }
  function Min(a: int, b: int): int { if a <= b then a else b }

  function Power(b: nat, n: nat): (r: nat)
    ensures b >= 1 ==> r >= 1
  {
    if n == 0 then 1 else b * Power(b, n - 1)
  }

  /** The slots of the special array: `max(1, floor(0.3 * (c >> 2)))`. */
  function SpecialSize(c: nat): (r: nat)
    ensures 1 <= r && (c >= 1 ==> r <= c)
  {
    Max(1, 3 * (c / 4) / 10)
  }

  /** `(capacity - specialSize) / Beta` with C#'s division, which truncates
      toward zero: the difference is -1 for capacity 0, giving 0 buckets. */
  function RemainingBuckets(c: nat): (r: nat)
    ensures Beta * r + SpecialSize(c) <= Max(c, 1)
  {
    var d := c - SpecialSize(c);
    if d < 0 then 0 else d / Beta
  }

  /** `(int)a1` in layer `i`: `a1` starts at `remainingBuckets / BucketDiv`
      and shrinks by a factor 0.75 per layer; here `floor(m * 3^i / 4^i)`. */
  function Share(m: nat, i: nat): nat
  {
    m * Power(3, i) / Power(4, i)
  }

  /** The share of every layer, in layer order, for `m` buckets in the first. */
  function Shares(m: nat): (r: seq<nat>)
    ensures |r| == Alpha && forall i :: 0 <= i < Alpha ==> r[i] == Share(m, i)
  {
    seq(Alpha, i requires 0 <= i => Share(m, i))
  }

  /** The constructor's loop from layer `i` on with `rem` buckets left to give
      out: the layers' slot arrays and bucket counts. Layer `i` takes
      `min(max(1, shares[i]), rem)` buckets; the last layer is also handed
      `(rem - aI) * Beta` extra, added both to its slots and to its bucket
      count. Once no bucket is left the remaining layers stay unbuilt. */
  function BuildFrom<K, V>(shares: seq<nat>, rem: int, i: nat): (r: (seq<seq<Slot<K, V>>>, seq<int>))
    requires |shares| == Alpha && i <= Alpha
    ensures |r.0| == Alpha - i && |r.1| == Alpha - i
    ensures TotalOccupancy(r.0) == 0
    decreases Alpha - i
  {
    if i == Alpha then ([], [])
    else if rem <= 0 then
      var rest := BuildFrom<K, V>(shares, rem, i + 1);
      assert ([[]] + rest.0)[1..] == rest.0;
      ([[]] + rest.0, [0] + rest.1)
    else
      var aI := Min(Max(1, shares[i]), rem);
      var extra := if i >= Alpha - 1 then (rem - aI) * Beta else 0;
      var rest := BuildFrom<K, V>(shares, rem - (aI + extra), i + 1);
      var layer := Empties<K, V>(aI * Beta + extra);
      OccupancyEmpties<K, V>(aI * Beta + extra);
      assert ([layer] + rest.0)[1..] == rest.0;
      ([layer] + rest.0, [aI + extra] + rest.1)
  }

  /** The number of slots over all levels. */
  function TotalSlots<K, V>(ls: seq<seq<Slot<K, V>>>): nat
  {
    if ls == [] then 0 else |ls[0]| + TotalSlots(ls[1..])
  }

  /** The buckets layers `i` up to `Alpha - 2` take when none runs short. */
  function Tail(shares: seq<nat>, i: nat): nat
    requires |shares| == Alpha
    decreases Alpha - i
  {
    if i >= Alpha - 1 then 0 else Max(1, shares[i]) + Tail(shares, i + 1)
  }

  lemma {:induction false} TailAtLeast(shares: seq<nat>, i: nat)
    requires |shares| == Alpha && i <= Alpha - 1
    ensures Tail(shares, i) >= Alpha - 1 - i
    decreases Alpha - i
  {
    if i < Alpha - 1 {
      TailAtLeast(shares, i + 1);
    }
  }

  /** When the layers before the last could absorb all `rem` buckets, the
      loop runs out of buckets before the last layer, so the extra branch is
      never taken: every built layer is its buckets times `Beta` slots and
      the bucket counts add up to exactly the buckets there were. */
  lemma {:induction false} BuildFromFits<K, V>(shares: seq<nat>, rem: int, i: nat)
    requires |shares| == Alpha && i <= Alpha && rem <= Tail(shares, i)
    ensures var r := BuildFrom<K, V>(shares, rem, i);
            && (forall j :: 0 <= j < |r.1| ==> 0 <= r.1[j] && |r.0[j]| == r.1[j] * Beta)
            && Sum(r.1) == Max(rem, 0)
            && TotalSlots(r.0) == Beta * Sum(r.1)
    decreases Alpha - i
  {
    if i < Alpha {
      if rem <= 0 {
        BuildFromFits<K, V>(shares, rem, i + 1);
        var rest := BuildFrom<K, V>(shares, rem, i + 1);
        BuildFromSkip<K, V>(shares, rem, i);
        ConsLayer([], 0, rest.0, rest.1);
      } else {
        assert i < Alpha - 1;
        var aI := Min(Max(1, shares[i]), rem);
        BuildFromFits<K, V>(shares, rem - aI, i + 1);
        var rest := BuildFrom<K, V>(shares, rem - aI, i + 1);
        BuildFromTake<K, V>(shares, rem, i);
        ConsLayer(Empties<K, V>(aI * Beta), aI, rest.0, rest.1);
      }
    }
  }

  /** A layer reached with no bucket left is left unbuilt. */
  lemma BuildFromSkip<K, V>(shares: seq<nat>, rem: int, i: nat)
    requires |shares| == Alpha && i < Alpha && rem <= 0
    ensures var rest := BuildFrom<K, V>(shares, rem, i + 1);
            BuildFrom<K, V>(shares, rem, i) == ([[]] + rest.0, [0] + rest.1)
  {
  }

  /** A layer before the last takes its share, or what is left. */
  lemma BuildFromTake<K, V>(shares: seq<nat>, rem: int, i: nat)
    requires |shares| == Alpha && i < Alpha - 1 && rem > 0
    ensures var aI := Min(Max(1, shares[i]), rem);
            var rest := BuildFrom<K, V>(shares, rem - aI, i + 1);
            BuildFrom<K, V>(shares, rem, i) == ([Empties<K, V>(aI * Beta)] + rest.0, [aI] + rest.1)
  {
  }

  /** One more layer of `a` buckets in front keeps every layer its buckets
      times `Beta` slots, and adds `a` to the bucket count. */
  lemma ConsLayer<K, V>(layer: seq<Slot<K, V>>, a: int, ls: seq<seq<Slot<K, V>>>, bs: seq<int>)
    requires |ls| == |bs| && 0 <= a && |layer| == a * Beta
    requires forall j :: 0 <= j < |bs| ==> 0 <= bs[j] && |ls[j]| == bs[j] * Beta
    requires TotalSlots(ls) == Beta * Sum(bs)
    ensures var ls', bs' := [layer] + ls, [a] + bs;
            && (forall j :: 0 <= j < |bs'| ==> 0 <= bs'[j] && |ls'[j]| == bs'[j] * Beta)
            && Sum(bs') == a + Sum(bs)
            && TotalSlots(ls') == Beta * Sum(bs')
  {
    var ls', bs' := [layer] + ls, [a] + bs;
    assert ls'[1..] == ls && bs'[1..] == bs;
    forall j | 1 <= j < |bs'|
      ensures 0 <= bs'[j] && |ls'[j]| == bs'[j] * Beta
    {
      assert bs'[j] == bs[j - 1] && ls'[j] == ls[j - 1];
    }
  }

  lemma EveryBucketFits(rem: nat)
    ensures rem <= Tail(Shares(rem / BucketDiv), 0)
  {
    var m := rem / BucketDiv;
    var sh := Shares(m);
    FirstShares(m, sh);
    SharesCover(rem, m, sh);
  }

  /** Layer shares starting with the first five of `m`, for `rem` buckets with
      `m == rem / 3`, leave no bucket over. */
  lemma SharesCover(rem: nat, m: nat, sh: seq<nat>)
    requires m == rem / BucketDiv && |sh| == Alpha
    requires sh[0] == m && sh[1] == 3 * m / 4 && sh[2] == 9 * m / 16
    requires sh[3] == 27 * m / 64 && sh[4] == 81 * m / 256
    ensures rem <= Tail(sh, 0)
  {
    TailAtLeast(sh, 5);
    TailFirstFive(sh);
    FirstSharesCover(m);
  }

  /** The first five shares: `m`, then `m` times 3/4, 9/16, 27/64 and 81/256, rounded down. */
  lemma FirstShares(m: nat, sh: seq<nat>)
    requires sh == Shares(m)
    ensures sh[0] == m && sh[1] == 3 * m / 4 && sh[2] == 9 * m / 16
    ensures sh[3] == 27 * m / 64 && sh[4] == 81 * m / 256
  {
    assert Power(3, 1) == 3 && Power(4, 1) == 4;
    assert Power(3, 2) == 9 && Power(4, 2) == 16;
    assert Power(3, 3) == 27 && Power(4, 3) == 64;
    assert Power(3, 4) == 81 && Power(4, 4) == 256;
  }

  /** The first five shares alone cover the `3 m + 2` buckets but 18. */
  lemma FirstSharesCover(m: nat)
    ensures m + 3 * m / 4 + 9 * m / 16 + 27 * m / 64 + 81 * m / 256 + 18 >= 3 * m + 2
  {
    assert 4 * (3 * m / 4) >= 3 * m - 3;
    assert 16 * (9 * m / 16) >= 9 * m - 15;
    assert 64 * (27 * m / 64) >= 27 * m - 63;
    assert 256 * (81 * m / 256) >= 81 * m - 255;
  }

  lemma TailFirstFive(sh: seq<nat>)
    requires |sh| == Alpha
    ensures Tail(sh, 0) == Max(1, sh[0]) + Max(1, sh[1]) + Max(1, sh[2]) + Max(1, sh[3]) + Max(1, sh[4]) + Tail(sh, 5)
  {
    assert Tail(sh, 3) == Max(1, sh[3]) + Max(1, sh[4]) + Tail(sh, 5);
  }

  /** `new FunnelHashTable(capacity)`: a negative capacity throws; otherwise
      `maxInserts` keeps a tenth of the capacity free, the special array has
      `SpecialSize` slots and the remaining buckets are spread over the layers. */
  function New<K, V>(capacity: int, hash: K -> U32): (r: Result<Funnel<K, V>>)
    ensures r.Err? <==> capacity < 0
    ensures r.Err? ==> r.error == ArgumentOutOfRange
    ensures r.Ok? ==> Valid(r.value, hash) && r.value.numInserts == 0 && KeysIn(r.value.levels) == {}
    ensures r.Ok? ==> r.value.maxInserts == capacity - capacity / 10 && 0 <= r.value.maxInserts <= capacity
    ensures r.Ok? ==> r.value.probeLimit == ProbeLimit(capacity)
    ensures r.Ok? ==> |r.value.levels[Alpha]| == SpecialSize(capacity)
    ensures r.Ok? ==> Sum(r.value.buckets) == RemainingBuckets(capacity)
    ensures r.Ok? ==> TotalSlots(r.value.levels) <= Max(capacity, 1)
  {
    if capacity < 0 then Err(ArgumentOutOfRange)
    else
      var t := Built<K, V>(capacity);
      NothingStored(t, hash);
      Ok(t)
  }

  /** The table the constructor builds for a capacity it accepts. */
  function Built<K, V>(capacity: nat): (t: Funnel<K, V>)
    ensures Shape(t) && TotalOccupancy(t.levels) == 0 && t.numInserts == 0
    ensures t.maxInserts == capacity - capacity / 10 && 0 <= t.maxInserts <= capacity
    ensures t.probeLimit == ProbeLimit(capacity)
    ensures |t.levels[Alpha]| == SpecialSize(capacity)
    ensures Sum(t.buckets) == RemainingBuckets(capacity)
    ensures TotalSlots(t.levels) <= Max(capacity, 1)
  {
    var sp := SpecialSize(capacity);
    var rem := RemainingBuckets(capacity);
    var sh := Shares(rem / BucketDiv);
    var built := BuildFrom<K, V>(sh, rem, 0);
    EveryBucketFits(rem);
    BuildFromFits<K, V>(sh, rem, 0);
    OccupancyEmpties<K, V>(sp);
    TotalOccupancyAppend(built.0, Empties<K, V>(sp));
    TotalSlotsAppend(built.0, Empties<K, V>(sp));
    LayersThenSpecial(built.0, built.1, Empties<K, V>(sp), capacity - capacity / 10, ProbeLimit(capacity));
    Funnel(built.0 + [Empties<K, V>(sp)], built.1, capacity - capacity / 10, ProbeLimit(capacity), 0)
  }

  /** Bucket layers of the right lengths followed by a non-empty special array
      make a table of the layout Add and FindEntry expect. */
  lemma LayersThenSpecial<K, V>(ls: seq<seq<Slot<K, V>>>, bs: seq<int>, special: seq<Slot<K, V>>,
                                maxInserts: int, probeLimit: nat)
    requires |ls| == Alpha && |bs| == Alpha && |special| >= 1
    requires forall j :: 0 <= j < |bs| ==> 0 <= bs[j] && |ls[j]| == bs[j] * Beta
    ensures var t := Funnel(ls + [special], bs, maxInserts, probeLimit, 0);
            Shape(t) && t.levels[Alpha] == special
  {
    var levels := ls + [special];
    forall i | 0 <= i < Alpha
      ensures |levels[i]| == bs[i] * Beta
    {
      assert levels[i] == ls[i];
    }
  }

  lemma TotalSlotsAppend<K, V>(ls: seq<seq<Slot<K, V>>>, l: seq<Slot<K, V>>)
    ensures TotalSlots(ls + [l]) == TotalSlots(ls) + |l|
  {
    if ls != [] {
      assert (ls + [l])[1..] == ls[1..] + [l];
      TotalSlotsAppend(ls[1..], l);
    }
  }

  /** A table with no occupied slot stores nothing, so it is settled. */
  lemma {:induction false} NothingStored<K, V>(t: Funnel<K, V>, hash: K -> U32)
    requires Shape(t) && TotalOccupancy(t.levels) == 0
    ensures Settled(t, hash) && KeysIn(t.levels) == {}
  {
    forall l, p | 0 <= l < |t.levels| && 0 <= p < |t.levels[l]| ensures t.levels[l][p].Empty? {
      NoneOccupied(t.levels, l, p);
    }
  }

  lemma {:induction false} NoneOccupied<K, V>(ls: seq<seq<Slot<K, V>>>, l: nat, p: nat)
    requires l < |ls| && p < |ls[l]| && TotalOccupancy(ls) == 0
    ensures ls[l][p].Empty?
  {
    if l == 0 {
      OccupancyUpdate(ls[0], p, Empty);
    } else {
      NoneOccupied(ls[1..], l - 1, p);
    }
  }

  /** The slot indexes the walk visits in level `l` for hash `h`, in order. In
      a layer with buckets: the `Beta` slots of bucket `(h ^ l) % buckets[l]`;
      in a layer without: none. In the special array: `probeLimit` slots from
      `(h ^ Alpha) % size` on, wrapping around to 0. */
  function Segment<K, V>(t: Funnel<K, V>, h: U32, l: nat): (seg: seq<nat>)
    requires Shape(t) && l <= Alpha
    ensures forall j :: 0 <= j < |seg| ==> seg[j] < |t.levels[l]|
    ensures l < Alpha ==> |seg| == (if t.buckets[l] > 0 then Beta else 0)
    ensures l == Alpha ==> |seg| == t.probeLimit
  {
    if l < Alpha then
      if t.buckets[l] > 0 then
        var b := Xor(h, l) % t.buckets[l];
        assert b * Beta + Beta <= t.buckets[l] * Beta;
        seq(Beta, j => b * Beta + j)
      else []
    else
      var size := |t.levels[Alpha]|;
      var start := Xor(h, Alpha) % size;
      seq(t.probeLimit, j => (start + j) % size)
  }

  /** `Add`'s scan of one segment from step `j` on: the first step whose slot
      is Empty or holds `k`, or -1. */
  function SegFit<K(==), V>(arr: seq<Slot<K, V>>, seg: seq<nat>, k: K, j: nat): (r: int)
    requires j <= |seg| && forall m :: 0 <= m < |seg| ==> seg[m] < |arr|
    ensures r == -1 || j <= r < |seg|
    ensures r >= 0 ==> Fits(arr, seg[r], k)
    ensures forall m :: j <= m < |seg| && (r == -1 || m < r) ==> !Fits(arr, seg[m], k)
    decreases |seg| - j
  {
    if j == |seg| then -1
    else if Fits(arr, seg[j], k) then j
    else SegFit(arr, seg, k, j + 1)
  }

  /** `FindEntry`'s scan of one segment from step `j` on: the first step
      holding `k`, giving up at the first Empty slot, or -1. */
  function SegFind<K(==), V>(arr: seq<Slot<K, V>>, seg: seq<nat>, k: K, j: nat): (r: int)
    requires j <= |seg| && forall m :: 0 <= m < |seg| ==> seg[m] < |arr|
    ensures r == -1 || j <= r < |seg|
    ensures r >= 0 ==> Holds(arr, seg[r], k) && forall m :: j <= m < r ==> !Fits(arr, seg[m], k)
    ensures (forall m :: j <= m < |seg| ==> !Fits(arr, seg[m], k)) ==> r == -1
    ensures forall J :: j <= J < |seg| && Holds(arr, seg[J], k) && (forall m :: j <= m < J ==> !Fits(arr, seg[m], k))
              ==> r == J
    decreases |seg| - j
  {
    if j == |seg| then -1
    else if Holds(arr, seg[j], k) then j
    else if arr[seg[j]].Empty? then -1
    else SegFind(arr, seg, k, j + 1)
  }

  /** `Add`'s search from level `l` on: the first slot, layer by layer and
      then in the special array, that is Empty or holds `k`. */
  function SlotFrom<K(==), V>(t: Funnel<K, V>, h: U32, k: K, l: nat): (r: Option<Pos>)
    requires Shape(t) && l <= Alpha + 1
    ensures r.Some? ==> l <= r.value.0 <= Alpha && r.value.1 < |t.levels[r.value.0]|
    ensures r.Some? ==> Fits(t.levels[r.value.0], r.value.1, k)
    decreases Alpha + 1 - l
  {
    if l > Alpha then None
    else
      var seg := Segment(t, h, l);
      var j := SegFit(t.levels[l], seg, k, 0);
      if j >= 0 then Some((l, seg[j])) else SlotFrom(t, h, k, l + 1)
  }

  /** The scan of layer `l` finds no candidate that fits `k`. */
  ghost predicate LayerMisses<K, V>(t: Funnel<K, V>, h: U32, k: K, l: nat)
    requires Shape(t) && l <= Alpha
  {
    SegFit(t.levels[l], Segment(t, h, l), k, 0) < 0
  }

  /** SlotFrom's answer is the first fit: its layer's scan reports the slot,
      and the scan of every earlier layer (every layer, for None) finds none. */
  lemma {:induction false} SlotFromIsFirstFit<K, V>(t: Funnel<K, V>, h: U32, k: K, l: nat)
    requires Shape(t) && l <= Alpha + 1
    ensures var r := SlotFrom(t, h, k, l);
            r.Some? ==> var seg := Segment(t, h, r.value.0); var j := SegFit(t.levels[r.value.0], seg, k, 0);
              j >= 0 && r.value.1 == seg[j]
    ensures var r := SlotFrom(t, h, k, l);
            forall l' :: l <= l' <= Alpha && (r.None? || l' < r.value.0) ==> LayerMisses(t, h, k, l')
    decreases Alpha + 1 - l
  {
    if l <= Alpha {
      var seg := Segment(t, h, l);
      var j := SegFit(t.levels[l], seg, k, 0);
      if j < 0 {
        SlotFromIsFirstFit(t, h, k, l + 1);
        var r := SlotFrom(t, h, k, l + 1);
        assert SlotFrom(t, h, k, l) == r;
        forall l' | l <= l' <= Alpha && (r.None? || l' < r.value.0)
          ensures LayerMisses(t, h, k, l')
        {
          if l' == l {
            assert LayerMisses(t, h, k, l);
          }
        }
      } else {
        assert SlotFrom(t, h, k, l) == Some((l, seg[j]));
      }
    }
  }

  /** `FindEntry` from level `l` on: in each layer the bucket is scanned up to
      its first Empty slot, then the special run likewise; the first slot
      holding `k`, or nothing. */
  function FindFrom<K(==), V>(t: Funnel<K, V>, h: U32, k: K, l: nat): (r: Option<Pos>)
    requires Shape(t) && l <= Alpha + 1
    ensures r.Some? ==> l <= r.value.0 <= Alpha && r.value.1 < |t.levels[r.value.0]|
    ensures r.Some? ==> Holds(t.levels[r.value.0], r.value.1, k)
    decreases Alpha + 1 - l
  {
    if l > Alpha then None
    else
      var seg := Segment(t, h, l);
      var j := SegFind(t.levels[l], seg, k, 0);
      if j >= 0 then Some((l, seg[j])) else FindFrom(t, h, k, l + 1)
  }

  /** Two tables that agree on buckets, probe limit and special size walk the same segments. */
  lemma SegmentOfLayout<K, V>(t: Funnel<K, V>, t': Funnel<K, V>, h: U32, l: nat)
    requires Shape(t) && Shape(t') && l <= Alpha
    requires t'.buckets == t.buckets && t'.probeLimit == t.probeLimit
    requires |t'.levels[Alpha]| == |t.levels[Alpha]|
    ensures Segment(t', h, l) == Segment(t, h, l)
  {
  }

  /** Within one array, filling Empty slots keeps `Add`'s scan where it was,
      once the slot it chose holds the key. */
  lemma SegFitStable<K, V>(a: seq<Slot<K, V>>, a': seq<Slot<K, V>>, seg: seq<nat>, x: K)
    requires Extends(a, a')
    requires forall m :: 0 <= m < |seg| ==> seg[m] < |a|
    ensures var j := SegFit(a, seg, x, 0);
            (j == -1 || Holds(a', seg[j], x)) ==> SegFit(a', seg, x, 0) == j
  {
    var j := SegFit(a, seg, x, 0);
    forall m | 0 <= m < |seg| && (j == -1 || m < j) ensures !Fits(a', seg[m], x) {
      assert !Fits(a, seg[m], x);
    }
  }

  /** Filling Empty slots does not move `Add`'s target for a key the target
      slot then holds. */
  lemma {:induction false} SlotStable<K, V>(t: Funnel<K, V>, t': Funnel<K, V>, h: U32, x: K, l: nat)
    requires Shape(t) && Shape(t') && l <= Alpha + 1
    requires t'.buckets == t.buckets && t'.probeLimit == t.probeLimit
    requires LevelsExtend(t.levels, t'.levels)
    requires SlotFrom(t, h, x, l).Some?
    requires Holds(t'.levels[SlotFrom(t, h, x, l).value.0], SlotFrom(t, h, x, l).value.1, x)
    ensures SlotFrom(t', h, x, l) == SlotFrom(t, h, x, l)
    decreases Alpha + 1 - l
  {
    SegmentOfLayout(t, t', h, l);
    var seg := Segment(t, h, l);
    SegFitStable(t.levels[l], t'.levels[l], seg, x);
    if SegFit(t.levels[l], seg, x, 0) == -1 {
      SlotStable(t, t', h, x, l + 1);
    }
  }

  /** `FindEntry` stops at the slot `Add` targets once that slot holds the key. */
  lemma {:induction false} SlotIsFound<K, V>(t: Funnel<K, V>, h: U32, x: K, l: nat)
    requires Shape(t) && l <= Alpha + 1
    requires SlotFrom(t, h, x, l).Some?
    requires Holds(t.levels[SlotFrom(t, h, x, l).value.0], SlotFrom(t, h, x, l).value.1, x)
    ensures FindFrom(t, h, x, l) == SlotFrom(t, h, x, l)
    decreases Alpha + 1 - l
  {
    var seg := Segment(t, h, l);
    var j := SegFit(t.levels[l], seg, x, 0);
    if j >= 0 {
      assert SegFind(t.levels[l], seg, x, 0) == j;
    } else {
      assert SegFind(t.levels[l], seg, x, 0) == -1;
      SlotIsFound(t, h, x, l + 1);
    }
  }

  /** Within one array, only the keys in the slots steer the two scans. */
  lemma SegScansSeeKeysOnly<K, V>(a: seq<Slot<K, V>>, a': seq<Slot<K, V>>, seg: seq<nat>, x: K)
    requires Extends(a, a') && Extends(a', a)
    requires forall m :: 0 <= m < |seg| ==> seg[m] < |a|
    ensures SegFit(a', seg, x, 0) == SegFit(a, seg, x, 0)
    ensures SegFind(a', seg, x, 0) == SegFind(a, seg, x, 0)
  {
    assert forall m :: 0 <= m < |seg| ==> (Fits(a, seg[m], x) <==> Fits(a', seg[m], x));
    assert forall m :: 0 <= m < |seg| ==> (Holds(a, seg[m], x) <==> Holds(a', seg[m], x));
    var j, j' := SegFit(a, seg, x, 0), SegFit(a', seg, x, 0);
    if j >= 0 {
      assert Fits(a', seg[j], x);
    }
    var f, f' := SegFind(a, seg, x, 0), SegFind(a', seg, x, 0);
    if f >= 0 {
      assert Holds(a', seg[f], x);
    }
  }

  /** Only the keys in the slots steer the walks: rewriting values leaves both
      `Add`'s target and `FindEntry`'s answer where they were. */
  lemma {:induction false} ValuesDoNotSteer<K, V>(t: Funnel<K, V>, t': Funnel<K, V>, h: U32, x: K, l: nat)
    requires Shape(t) && Shape(t') && l <= Alpha + 1
    requires t'.buckets == t.buckets && t'.probeLimit == t.probeLimit
    requires LevelsExtend(t.levels, t'.levels) && LevelsExtend(t'.levels, t.levels)
    ensures SlotFrom(t', h, x, l) == SlotFrom(t, h, x, l)
    ensures FindFrom(t', h, x, l) == FindFrom(t, h, x, l)
    decreases Alpha + 1 - l
  {
    if l <= Alpha {
      SegmentOfLayout(t, t', h, l);
      SegScansSeeKeysOnly(t.levels[l], t'.levels[l], Segment(t, h, l), x);
      ValuesDoNotSteer(t, t', h, x, l + 1);
    }
  }

  /** Every stored key sits in the slot `Add` would pick for it now. */
  ghost predicate Settled<K, V>(t: Funnel<K, V>, hash: K -> U32)
  {
    && Shape(t)
    && forall l, p :: 0 <= l < |t.levels| && 0 <= p < |t.levels[l]| && t.levels[l][p].Occupied? ==>
         SlotFrom(t, hash(t.levels[l][p].key), t.levels[l][p].key, 0) == Some((l, p))
  }

  /** The state the table keeps at rest: keys settled, `numInserts` counts
      the occupied slots and never passes `maxInserts`. */
  ghost predicate Valid<K, V>(t: Funnel<K, V>, hash: K -> U32)
  {
    && Settled(t, hash)
    && t.numInserts == TotalOccupancy(t.levels)
    && 0 <= t.numInserts <= t.maxInserts
  }

  /** A settled table stores no key twice. */
  lemma SettledDistinct<K, V>(t: Funnel<K, V>, hash: K -> U32, l: nat, p: nat, l': nat, p': nat)
    requires Settled(t, hash)
    requires l < |t.levels| && p < |t.levels[l]| && l' < |t.levels| && p' < |t.levels[l']|
    requires t.levels[l][p].Occupied? && t.levels[l'][p'].Occupied?
    ensures t.levels[l][p].key == t.levels[l'][p'].key ==> l == l' && p == p'
  {
  }

  /** `level[idx] = (key, value)` with `numInserts++` when the slot was Empty:
      the write both `Add` branches make. */
  function Put<K, V>(t: Funnel<K, V>, q: Pos, k: K, v: V): (r: Funnel<K, V>)
    requires q.0 < |t.levels| && q.1 < |t.levels[q.0]|
    ensures r.buckets == t.buckets && r.probeLimit == t.probeLimit && r.maxInserts == t.maxInserts
    ensures |r.levels| == |t.levels| && forall l :: 0 <= l < |t.levels| ==> |r.levels[l]| == |t.levels[l]|
    ensures r.numInserts - t.numInserts == TotalOccupancy(r.levels) - TotalOccupancy(t.levels)
    ensures r.levels[q.0][q.1] == Occupied(k, v)
    ensures forall l, p :: 0 <= l < |t.levels| && 0 <= p < |t.levels[l]| && (l, p) != q ==>
              r.levels[l][p] == t.levels[l][p]
  {
    TotalOccupancyUpdate(t.levels, q.0, q.1, Occupied(k, v));
    t.(levels := t.levels[q.0 := t.levels[q.0][q.1 := Occupied(k, v)]],
       numInserts := t.numInserts + (if t.levels[q.0][q.1].Empty? then 1 else 0))
  }

  /** Writing `k` into a slot that is Empty or already holds `k` adds `k` to the
      stored keys and loses no other entry. */
  lemma PutStores<K, V>(t: Funnel<K, V>, q: Pos, k: K, v: V)
    requires q.0 < |t.levels| && q.1 < |t.levels[q.0]| && Fits(t.levels[q.0], q.1, k)
    ensures LevelsExtend(t.levels, Put(t, q, k, v).levels)
    ensures KeysIn(Put(t, q, k, v).levels) == KeysIn(t.levels) + {k}
    ensures EntriesIn(Put(t, q, k, v).levels) <= EntriesIn(t.levels) + {(k, v)}
    ensures t.levels[q.0][q.1].Empty? ==> EntriesIn(t.levels) <= EntriesIn(Put(t, q, k, v).levels)
  {
    LevelsWrite(t.levels, q.0, q.1, k, v);
  }

  /** Writing `k` into the slot `Add` picks for it keeps every key settled. */
  lemma PutKeepsSettled<K, V>(t: Funnel<K, V>, hash: K -> U32, q: Pos, k: K, v: V)
    requires Shape(t) && SlotFrom(t, hash(k), k, 0) == Some(q)
    ensures Settled(t, hash) ==> Settled(Put(t, q, k, v), hash)
  {
    var r := Put(t, q, k, v);
    PutStores(t, q, k, v);
    if Settled(t, hash) {
      forall l, p | 0 <= l < |r.levels| && 0 <= p < |r.levels[l]| && r.levels[l][p].Occupied?
        ensures SlotFrom(r, hash(r.levels[l][p].key), r.levels[l][p].key, 0) == Some((l, p))
      {
        var x := r.levels[l][p].key;
        if (l, p) != q {
          assert t.levels[l][p] == r.levels[l][p];
        }
        SlotStable(t, r, hash(x), x, 0);
      }
    }
  }

  /** `FindEntry`: in each layer with buckets scan the key's bucket up to its
      first Empty slot, then the special run likewise; the slot holding `k`. */
  function FindEntry<K(==), V>(t: Funnel<K, V>, hash: K -> U32, k: K): (r: Option<Pos>)
    requires Shape(t)
    ensures r.Some? ==> r.value.0 < |t.levels| && r.value.1 < |t.levels[r.value.0]|
    ensures r.Some? ==> Holds(t.levels[r.value.0], r.value.1, k)
    ensures Settled(t, hash) ==> (r.Some? <==> k in KeysIn(t.levels))
    ensures Settled(t, hash) && r.Some? ==> r == SlotFrom(t, hash(k), k, 0)
  {
    StoredKeyIsFound(t, hash, k);
    FindFrom(t, hash(k), k, 0)
  }

  lemma StoredKeyIsFound<K, V>(t: Funnel<K, V>, hash: K -> U32, k: K)
    requires Shape(t)
    ensures Settled(t, hash) && k in KeysIn(t.levels) ==> FindFrom(t, hash(k), k, 0).Some?
  {
    if Settled(t, hash) && k in KeysIn(t.levels) {
      var l, p :| 0 <= l < |t.levels| && 0 <= p < |t.levels[l]| && t.levels[l][p].Occupied? && k == t.levels[l][p].key;
      SlotIsFound(t, hash(k), k, 0);
    }
  }

  /** After a successful write of `(k, v)` at `Add`'s target, FindEntry reports that slot. */
  lemma PutThenFind<K, V>(t: Funnel<K, V>, hash: K -> U32, q: Pos, k: K, v: V)
    requires Shape(t) && SlotFrom(t, hash(k), k, 0) == Some(q)
    ensures Shape(Put(t, q, k, v))
    ensures FindEntry(Put(t, q, k, v), hash, k) == Some(q)
  {
    var r := Put(t, q, k, v);
    PutStores(t, q, k, v);
    SlotStable(t, r, hash(k), k, 0);
    SlotIsFound(r, hash(k), k, 0);
  }

  /** `Add`: throws "full" when `numInserts >= maxInserts` before looking at
      any slot; otherwise writes `(k, v)` into the first slot on the route that
      is Empty or holds `k` and returns true, counting the insert only when the
      slot was Empty; throws "full" when the route has no such slot. */
  function Add<K(==), V>(t: Funnel<K, V>, hash: K -> U32, k: K, v: V): (r: Outcome<Funnel<K, V>, bool>)
    requires Shape(t)
    ensures t.numInserts >= t.maxInserts ==> r == Threw(TableFull, t)
    ensures r.Threw? <==> t.numInserts >= t.maxInserts || SlotFrom(t, hash(k), k, 0).None?
    ensures r.Threw? ==> r == Threw(TableFull, t)
    ensures r.Returned? ==> r.result && Shape(r.state)
    ensures r.Returned? ==> var e := FindEntry(r.state, hash, k);
                            e.Some? && r.state.levels[e.value.0][e.value.1] == Occupied(k, v)
    ensures r.Returned? ==> KeysIn(r.state.levels) == KeysIn(t.levels) + {k}
    ensures r.Returned? ==> EntriesIn(r.state.levels) <= EntriesIn(t.levels) + {(k, v)}
    ensures r.Returned? ==> LevelsExtend(t.levels, r.state.levels)
    ensures Valid(t, hash) ==> Valid(r.State(), hash)
    ensures Valid(t, hash) && r.Returned? ==>
              r.state.numInserts == t.numInserts + (if k in KeysIn(t.levels) then 0 else 1)
  {
    if t.numInserts >= t.maxInserts then Threw(TableFull, t)
    else
      match SlotFrom(t, hash(k), k, 0)
      case None => Threw(TableFull, t)
      case Some(q) =>
        PutStores(t, q, k, v);
        PutKeepsSettled(t, hash, q, k, v);
        PutThenFind(t, hash, q, k, v);
        Returned(Put(t, q, k, v), true)
  }

  /** `AddOrUpdate`: a key FindEntry finds has its value overwritten in place
      and the result is false; otherwise the outcome is `Add`'s, with result true. */
  function AddOrUpdate<K(==), V>(t: Funnel<K, V>, hash: K -> U32, k: K, v: V): (r: Outcome<Funnel<K, V>, bool>)
    requires Shape(t)
    ensures FindEntry(t, hash, k).Some? ==> r.Returned? && !r.result
    ensures FindEntry(t, hash, k).Some? ==> r.state.numInserts == t.numInserts && KeysIn(r.state.levels) == KeysIn(t.levels)
    ensures FindEntry(t, hash, k).Some? ==>
              && |r.state.levels| == |t.levels|
              && (forall l :: 0 <= l < |t.levels| ==> |r.state.levels[l]| == |t.levels[l]|)
              && forall l, p :: 0 <= l < |t.levels| && 0 <= p < |t.levels[l]| && (l, p) != FindEntry(t, hash, k).value ==>
                   r.state.levels[l][p] == t.levels[l][p]
    ensures FindEntry(t, hash, k).None? ==>
              var a := Add(t, hash, k, v);
              r.State() == a.State() && (r.Returned? <==> a.Returned?) && (r.Returned? ==> r.result)
    ensures r.Threw? ==> r == Threw(TableFull, t)
    ensures r.Returned? ==> Shape(r.state) && var e := FindEntry(r.state, hash, k);
                            e.Some? && r.state.levels[e.value.0][e.value.1] == Occupied(k, v)
    ensures r.Returned? ==> EntriesIn(r.state.levels) <= EntriesIn(t.levels) + {(k, v)}
    ensures Valid(t, hash) ==> Valid(r.State(), hash)
    ensures Valid(t, hash) && r.Returned? ==>
              (r.result <==> k !in KeysIn(t.levels)) &&
              r.state.numInserts == t.numInserts + (if r.result then 1 else 0)
  {
    var e := FindEntry(t, hash, k);
    if e.Some? && t.levels[e.value.0][e.value.1].Occupied? then
      // the slot is occupied, so Put leaves numInserts alone, as the in-place write does
      OverwriteKeeps(t, hash, e.value, k, v);
      OverwriteValid(t, hash, e.value, k, v);
      Returned(Put(t, e.value, k, v), false)
    else
      match Add(t, hash, k, v)
      case Returned(t1, _) => Returned(t1, true)
      case Threw(err, t1) => Threw(err, t1)
  }

  /** An in-place overwrite keeps the table valid: the slot stays occupied,
      so neither the count nor the number of occupied slots moves. */
  lemma OverwriteValid<K, V>(t: Funnel<K, V>, hash: K -> U32, q: Pos, k: K, v: V)
    requires Shape(t) && q.0 < |t.levels| && q.1 < |t.levels[q.0]| && Holds(t.levels[q.0], q.1, k)
    requires FindFrom(t, hash(k), k, 0) == Some(q)
    ensures Valid(t, hash) ==> Valid(Put(t, q, k, v), hash)
  {
    OverwriteKeeps(t, hash, q, k, v);
  }

  /** Rewriting the value of a stored key changes no count, no key and no walk. */
  lemma OverwriteKeeps<K, V>(t: Funnel<K, V>, hash: K -> U32, q: Pos, k: K, v: V)
    requires Shape(t) && q.0 < |t.levels| && q.1 < |t.levels[q.0]| && Holds(t.levels[q.0], q.1, k)
    requires FindFrom(t, hash(k), k, 0) == Some(q)
    ensures Shape(Put(t, q, k, v)) && Put(t, q, k, v).numInserts == t.numInserts
    ensures KeysIn(Put(t, q, k, v).levels) == KeysIn(t.levels)
    ensures EntriesIn(Put(t, q, k, v).levels) <= EntriesIn(t.levels) + {(k, v)}
    ensures FindFrom(Put(t, q, k, v), hash(k), k, 0) == Some(q)
    ensures Settled(t, hash) ==> Settled(Put(t, q, k, v), hash)
    ensures k in KeysIn(t.levels)
  {
    var r := Put(t, q, k, v);
    PutStores(t, q, k, v);
    PutSameKey(t, q, k, v);
    InKeysIn(t.levels, q.0, q.1);
    ValuesDoNotSteer(t, r, hash(k), k, 0);
    if Settled(t, hash) {
      SameKeysStaySettled(t, r, hash);
    }
  }

  /** Writing `k` over `k` keeps every slot's key where it was. */
  lemma PutSameKey<K, V>(t: Funnel<K, V>, q: Pos, k: K, v: V)
    requires q.0 < |t.levels| && q.1 < |t.levels[q.0]| && Holds(t.levels[q.0], q.1, k)
    ensures LevelsExtend(Put(t, q, k, v).levels, t.levels)
  {
    var r := Put(t, q, k, v);
    forall l | 0 <= l < |r.levels| ensures Extends(r.levels[l], t.levels[l]) {
      forall p | 0 <= p < |r.levels[l]| && r.levels[l][p].Occupied?
        ensures t.levels[l][p].Occupied? && t.levels[l][p].key == r.levels[l][p].key
      {
        if (l, p) != q { assert r.levels[l][p] == t.levels[l][p]; }
      }
    }
  }

  /** Two tables of one layout with the same key in every slot: if every key
      is settled in the first, it is settled in the second. */
  lemma SameKeysStaySettled<K, V>(t: Funnel<K, V>, r: Funnel<K, V>, hash: K -> U32)
    requires Settled(t, hash) && Shape(r)
    requires r.buckets == t.buckets && r.probeLimit == t.probeLimit
    requires LevelsExtend(t.levels, r.levels) && LevelsExtend(r.levels, t.levels)
    ensures Settled(r, hash)
  {
    forall l, p | 0 <= l < |r.levels| && 0 <= p < |r.levels[l]| && r.levels[l][p].Occupied?
      ensures SlotFrom(r, hash(r.levels[l][p].key), r.levels[l][p].key, 0) == Some((l, p))
    {
      var x := r.levels[l][p].key;
      assert t.levels[l][p].Occupied? && t.levels[l][p].key == x;
      ValuesDoNotSteer(t, r, hash(x), x, 0);
    }
  }

  /** `GetValueOrDefault`: the value in the slot FindEntry reports, or `defaultValue`. */
  function GetValueOrDefault<K(==), V>(t: Funnel<K, V>, hash: K -> U32, k: K, defaultValue: V): (r: V)
    requires Shape(t)
    ensures FindEntry(t, hash, k).None? ==> r == defaultValue
    ensures FindEntry(t, hash, k).Some? ==> (k, r) in EntriesIn(t.levels)
    ensures Settled(t, hash) && k !in KeysIn(t.levels) ==> r == defaultValue
  {
    var e := FindEntry(t, hash, k);
    if e.None? then defaultValue
    else
      var entry := t.levels[e.value.0][e.value.1];
      if entry.Empty? then defaultValue else entry.value
  }

  /** In a settled table a stored entry is what GetValueOrDefault returns for its key. */
  lemma GetValueIsStored<K, V>(t: Funnel<K, V>, hash: K -> U32, k: K, v: V, defaultValue: V)
    requires Settled(t, hash)
    ensures (k, v) in EntriesIn(t.levels) <==> k in KeysIn(t.levels) && GetValueOrDefault(t, hash, k, defaultValue) == v
  {
    if (k, v) in EntriesIn(t.levels) {
      var l, p :| 0 <= l < |t.levels| && 0 <= p < |t.levels[l]| && t.levels[l][p].Occupied? &&
                  (k, v) == (t.levels[l][p].key, t.levels[l][p].value);
      SlotIsFound(t, hash(k), k, 0);
    }
  }

  /** `Contains`: FindEntry reports a slot. */
  function Contains<K(==), V>(t: Funnel<K, V>, hash: K -> U32, k: K): (r: bool)
    requires Shape(t)
    ensures Settled(t, hash) ==> (r <==> k in KeysIn(t.levels))
  {
    FindEntry(t, hash, k).Some?
  }

  /** `Count`: the inserts so far, which at rest is the number of occupied slots. */
  function Count<K, V>(t: Funnel<K, V>, hash: K -> U32): (r: int)
    ensures Valid(t, hash) ==> r == TotalOccupancy(t.levels) && 0 <= r <= t.maxInserts
  {
    t.numInserts
  }

  /** `Remaining`: the inserts still allowed before `Add` throws "full" up front. */
  function Remaining<K, V>(t: Funnel<K, V>, hash: K -> U32): (r: int)
    ensures Valid(t, hash) ==> 0 <= r && r + TotalOccupancy(t.levels) == t.maxInserts
  {
    t.maxInserts - t.numInserts
  }
}

=== FILE: krapivin_dictionary.dfy ===
/** KrapivinDictionary: the backshift engine behind `IDictionary`. Unlike the
    table variant, `Add` and `AddOrUpdate` probe BEFORE resizing and resize
    only when a new key is coming in, every lookup stops at the first Empty
    slot, and misuse throws. A custom equality comparer is not modelled:
    keys are compared with `==`. */
module KrapivinDictionary {
  import opened Slots
  import opened KrapivinProbe

  /** The state the dictionary keeps while only inserts and overwrites
      happen: `count` is the number of occupied slots, the table is at most
      75% full, every key is found by the stop-at-Empty lookup, and no key is
      stored twice. `Remove` is not shown to keep it. */
  ghost predicate Valid<K, V>(t: Table<K, V>, hash: K -> U32)
  {
    && t.count == Occupancy(t.slots)
    && t.count <= Threshold(|t.slots|)
    && Contiguous(t.slots, hash)
    && Distinct(t.slots)
  }

  /** `new KrapivinDictionary(capacity)`: a negative capacity makes the array allocation
      throw OverflowException. */
  function New<K, V>(capacity: int, hash: K -> U32): (r: Result<Table<K, V>>)
    ensures r.Err? <==> capacity < 0
    ensures r.Err? ==> r.error == Overflow
    ensures r.Ok? ==> |r.value.slots| == capacity && r.value.count == 0 && Keys(r.value.slots) == {}
    ensures r.Ok? ==> Valid(r.value, hash)
  {
    if capacity < 0 then Err(Overflow)
    else
      OccupancyEmpties<K, V>(capacity);
      EmptiesContiguous<K, V>(capacity, hash);
      Ok(Table(Empties(capacity), 0))
  }

  /** `Clear`: every slot emptied, `count` zero, the length kept. */
  function Clear<K, V>(t: Table<K, V>, hash: K -> U32): (r: Table<K, V>)
    ensures |r.slots| == |t.slots| && r.count == 0
    ensures Keys(r.slots) == {}
    ensures Valid(r, hash)
  {
    OccupancyEmpties<K, V>(|t.slots|);
    EmptiesContiguous<K, V>(|t.slots|, hash);
    Table(Empties(|t.slots|), 0)
  }

  /** `CheckResize`: double the table when `count` has reached three
      quarters of the length; the flag says it did. */
  function CheckResize<K(==), V>(t: Table<K, V>, hash: K -> U32): (r: (Table<K, V>, bool))
    ensures !r.1 <==> t.count < Threshold(|t.slots|)
    ensures !r.1 ==> r.0 == t
    ensures r.1 ==> |r.0.slots| == 2 * |t.slots| && Keys(r.0.slots) <= Keys(t.slots)
    ensures Entries(r.0.slots) <= Entries(t.slots)
    ensures Valid(t, hash) ==> Valid(r.0, hash)
  {
    if t.count < Threshold(|t.slots|) then (t, false)
    else
      assert |t.slots| >= 1 ==> Threshold(|t.slots|) <= Threshold(2 * |t.slots|);
      (Doubled(t, hash, false).0, true)
  }

  /** `FindEntry`: the slot holding `k`, found before the first Empty slot on
      its probe sequence, or -1. */
  function FindEntry<K(==), V>(t: Table<K, V>, hash: K -> U32, k: K): (r: int)
    ensures r == -1 || (0 <= r < |t.slots| && t.slots[r].Occupied? && t.slots[r].key == k)
    ensures Contiguous(t.slots, hash) ==> (r >= 0 <==> k in Keys(t.slots))
  {
    ContiguousFindStop(t.slots, hash, k);
    var i := FindEntryStop(t.slots, hash(k), k);
    if i < 0 then -1 else CalcIndex(hash(k), i, |t.slots|)
  }

  /** The indexer's getter: the value stored with `k`, or KeyNotFound. On a
      valid dictionary it answers `v` exactly when `(k, v)` is stored. */
  function Get<K(==), V>(t: Table<K, V>, hash: K -> U32, k: K): (r: Result<V>)
    ensures r.Ok? <==> FindEntry(t, hash, k) >= 0
    ensures r.Err? ==> r.error == KeyNotFound
    ensures r.Ok? ==> (k, r.value) in Entries(t.slots)
    ensures Contiguous(t.slots, hash) ==> (r.Ok? <==> k in Keys(t.slots))
  {
    var p := FindEntry(t, hash, k);
    if p < 0 then Err(KeyNotFound) else Ok(t.slots[p].value)
  }

  /** On a valid dictionary the getter answers `v` exactly when `(k, v)` is
      stored: the dictionary is the finite map its entries spell out. */
  lemma GetIsEntry<K, V>(t: Table<K, V>, hash: K -> U32, k: K, v: V)
    ensures Valid(t, hash) ==> (Get(t, hash, k) == Ok(v) <==> (k, v) in Entries(t.slots))
  {
    if Valid(t, hash) && (k, v) in Entries(t.slots) {
      var q :| 0 <= q < |t.slots| && t.slots[q].Occupied? && (k, v) == (t.slots[q].key, t.slots[q].value);
      assert k in Keys(t.slots);
      var p := FindEntry(t, hash, k);
      assert t.slots[p].key == t.slots[q].key;
    }
  }

  /** `TryGetValue`: the stored value, or nothing. */
  function TryGetValue<K(==), V>(t: Table<K, V>, hash: K -> U32, k: K): (r: Option<V>)
    ensures r.Some? <==> Get(t, hash, k).Ok?
    ensures r.Some? ==> Get(t, hash, k) == Ok(r.value)
  {
    var p := FindEntry(t, hash, k);
    if p < 0 then None else Some(t.slots[p].value)
  }

  /** `GetValueOrDefault`: the stored value, or `defaultValue`. */
  function GetValueOrDefault<K(==), V>(t: Table<K, V>, hash: K -> U32, k: K, defaultValue: V): (r: V)
    ensures Get(t, hash, k).Err? ==> r == defaultValue
    ensures Get(t, hash, k).Ok? ==> r == Get(t, hash, k).value
  {
    var p := FindEntry(t, hash, k);
    if p < 0 then defaultValue else t.slots[p].value
  }

  /** `ContainsKey`: FindEntry reports a slot. */
  function ContainsKey<K(==), V>(t: Table<K, V>, hash: K -> U32, k: K): (r: bool)
    ensures r <==> FindEntry(t, hash, k) >= 0
    ensures Contiguous(t.slots, hash) ==> (r <==> k in Keys(t.slots))
  {
    FindEntry(t, hash, k) >= 0
  }

  /** `Contains(KeyValuePair)`: the key is found and its value equals `v`. */
  function ContainsPair<K(==), V(==)>(t: Table<K, V>, hash: K -> U32, k: K, v: V): (r: bool)
    ensures r <==> Get(t, hash, k) == Ok(v)
    ensures Valid(t, hash) ==> (r <==> (k, v) in Entries(t.slots))
  {
    GetIsEntry(t, hash, k, v);
    var p := FindEntry(t, hash, k);
    p >= 0 && t.slots[p].value == v
  }

  /** `Add`: FindSlot first; no slot throws "full", a slot holding `k` throws
      "duplicate key". Then CheckResize, and after a resize FindSlot again:
      no slot there makes the store index -1 (IndexOutOfRange). The entry is
      stored and `count` goes up by one. */
  function Add<K(==), V>(t: Table<K, V>, hash: K -> U32, k: K, v: V): (r: Outcome<Table<K, V>, ()>)
    ensures r == Threw(TableFull, t) <==> FindSlot(t.slots, hash(k), k) == -1
    ensures r == Threw(DuplicateKey, t) <==>
              var i := FindSlot(t.slots, hash(k), k);
              i >= 0 && t.slots[CalcIndex(hash(k), i, |t.slots|)].Occupied?
    ensures r.Threw? && r.error == IndexOutOfRange ==> r.state == CheckResize(t, hash).0
    ensures Contiguous(t.slots, hash) && k in Keys(t.slots) ==> r == Threw(DuplicateKey, t)
    ensures r.Returned? ==> k in Keys(r.state.slots) && Get(r.state, hash, k) == Ok(v)
    ensures Keys(r.State().slots) <= Keys(t.slots) + {k}
    ensures Entries(r.State().slots) <= Entries(t.slots) + {(k, v)}
    ensures Valid(t, hash) ==> Valid(r.State(), hash)
    ensures Valid(t, hash) && r.Returned? && t.count < Threshold(|t.slots|) ==>
              r.state.count == t.count + 1 && Keys(r.state.slots) == Keys(t.slots) + {k}
  {
    var h := hash(k);
    var i := FindSlot(t.slots, h, k);
    ContiguousFindStop(t.slots, hash, k);
    FoundIsSlot(t.slots, h, k);
    if i < 0 then Threw(TableFull, t)
    else if t.slots[CalcIndex(h, i, |t.slots|)].Occupied? then Threw(DuplicateKey, t)
    else
      var (t1, resized) := CheckResize(t, hash);
      var j := if resized then FindSlot(t1.slots, h, k) else i;
      if j < 0 then Threw(IndexOutOfRange, t1)
      else
        ContiguousEmptyFitMeansAbsent(t.slots, hash, k);
        StoreThenGet(t1, hash, k, v, 1);
        StoreNewValid(t, t1, hash, k, v, resized);
        Returned(Store(t1, hash, k, v, 1), ())
  }

  /** `AddOrUpdate`: FindSlot first; no slot gives false with nothing
      changed. Only for a new key CheckResize runs, and after a resize
      FindSlot again (no slot: IndexOutOfRange). The entry is stored; `count`
      goes up and the result is true exactly when the first slot was Empty. */
  function AddOrUpdate<K(==), V>(t: Table<K, V>, hash: K -> U32, k: K, v: V): (r: Outcome<Table<K, V>, bool>)
    ensures FindSlot(t.slots, hash(k), k) == -1 ==> r == Returned(t, false)
    ensures r.Returned? && FindSlot(t.slots, hash(k), k) >= 0 ==>
              && (r.result <==> t.slots[CalcIndex(hash(k), FindSlot(t.slots, hash(k), k), |t.slots|)].Empty?)
              && Get(r.state, hash, k) == Ok(v)
    ensures r.Threw? ==> r.error == IndexOutOfRange && r.state == CheckResize(t, hash).0
    ensures Contiguous(t.slots, hash) ==> (r.Returned? && r.result ==> k !in Keys(t.slots))
    ensures Keys(r.State().slots) <= Keys(t.slots) + {k}
    ensures t.count < Threshold(|t.slots|) && FindSlot(t.slots, hash(k), k) >= 0 ==>
              Keys(r.State().slots) == Keys(t.slots) + {k}
    ensures Entries(r.State().slots) <= Entries(t.slots) + {(k, v)}
    ensures Valid(t, hash) ==> Valid(r.State(), hash)
    ensures t.count < Threshold(|t.slots|) ==>
              && r.Returned? && |r.state.slots| == |t.slots|
              && r.state.count == t.count + (if r.result then 1 else 0)
    ensures t.count < Threshold(|t.slots|) && t.count == Occupancy(t.slots) ==>
              r.State().count == Occupancy(r.State().slots)
  {
    var h := hash(k);
    var i := FindSlot(t.slots, h, k);
    if i < 0 then Returned(t, false)
    else if t.slots[CalcIndex(h, i, |t.slots|)].Occupied? then
      StoreThenGet(t, hash, k, v, 0);
      StoreOverValid(t, hash, k, v);
      Returned(Store(t, hash, k, v, 0), false)
    else
      ContiguousEmptyFitMeansAbsent(t.slots, hash, k);
      var (t1, resized) := CheckResize(t, hash);
      var j := if resized then FindSlot(t1.slots, h, k) else i;
      if j < 0 then Threw(IndexOutOfRange, t1)
      else
        StoreThenGet(t1, hash, k, v, 1);
        StoreNewValid(t, t1, hash, k, v, resized);
        Returned(Store(t1, hash, k, v, 1), true)
  }

  /** After a store the getter finds the stored value. */
  lemma StoreThenGet<K, V>(t: Table<K, V>, hash: K -> U32, k: K, v: V, inc: nat)
    requires FindSlot(t.slots, hash(k), k) >= 0
    ensures var r := Store(t, hash, k, v, inc);
            k in Keys(r.slots) && Get(r, hash, k) == Ok(v)
  {
  }

  /** Storing a key the dictionary does not hold into the table CheckResize
      returned keeps the dictionary valid: after a resize `count` is below
      the threshold of twice the length. */
  lemma StoreNewValid<K, V>(t: Table<K, V>, t1: Table<K, V>, hash: K -> U32, k: K, v: V, resized: bool)
    requires CheckResize(t, hash) == (t1, resized)
    requires FindSlot(t1.slots, hash(k), k) >= 0
    requires Contiguous(t.slots, hash) ==> k !in Keys(t.slots)
    ensures Valid(t, hash) ==> Valid(Store(t1, hash, k, v, 1), hash)
  {
    if Valid(t, hash) {
      assert Valid(t1, hash);
      if resized {
        assert Threshold(|t.slots|) < Threshold(2 * |t.slots|) || |t.slots| == 0;
      }
    }
  }

  /** Overwriting the slot FindSlot reports when it already holds a key keeps
      the dictionary valid. */
  lemma StoreOverValid<K, V>(t: Table<K, V>, hash: K -> U32, k: K, v: V)
    requires FindSlot(t.slots, hash(k), k) >= 0
    requires t.slots[CalcIndex(hash(k), FindSlot(t.slots, hash(k), k), |t.slots|)].Occupied?
    ensures Valid(t, hash) ==> Valid(Store(t, hash, k, v, 0), hash)
  {
  }

  /** The indexer's setter: KeyNotFound unless FindEntry reports a slot; that
      slot receives `(k, v)` and `count` is untouched. */
  function Set<K(==), V>(t: Table<K, V>, hash: K -> U32, k: K, v: V): (r: Outcome<Table<K, V>, ()>)
    ensures r.Threw? <==> FindEntry(t, hash, k) < 0
    ensures r.Threw? ==> r == Threw(KeyNotFound, t)
    ensures r.Returned? ==> Get(r.state, hash, k) == Ok(v)
    ensures |r.State().slots| == |t.slots| && r.State().count == t.count
    ensures Keys(r.State().slots) == Keys(t.slots)
    ensures Entries(r.State().slots) <= Entries(t.slots) + {(k, v)}
    ensures Valid(t, hash) ==> Valid(r.State(), hash)
  {
    var p := FindEntry(t, hash, k);
    if p < 0 then Threw(KeyNotFound, t)
    else
      FoundIsSlot(t.slots, hash(k), k);
      OccupancyUpdate(t.slots, p, Occupied(k, v));
      Returned(Store(t, hash, k, v, 0), ())
  }

  /** `Remove(key)`: walk `k`'s probe sequence; an Empty slot (or the end of
      the steps) gives false with nothing changed; the slot holding `k` is
      emptied, `count` drops, and RekeyAfterHole repairs from that step. Its
      reinserts go through `AddOrUpdate`, which can resize and throw. */
  function Remove<K(==), V>(t: Table<K, V>, hash: K -> U32, k: K): (r: Outcome<Table<K, V>, bool>)
    ensures r == Returned(t, false) <==> !ContainsKey(t, hash, k)
    ensures r.Returned? ==> (r.result <==> ContainsKey(t, hash, k))
    ensures Keys(r.State().slots) <= Keys(t.slots)
    ensures ContainsKey(t, hash, k) && KeyUnique(t.slots, k) ==> k !in Keys(r.State().slots)
    ensures t.count <= Threshold(|t.slots|) ==>
              && r.Returned? && |r.state.slots| == |t.slots|
              && r.state.count <= t.count - (if r.result then 1 else 0)
    ensures t.count <= Threshold(|t.slots|) && t.count == Occupancy(t.slots) ==>
              r.State().count == Occupancy(r.State().slots)
  {
    var h := hash(k);
    var i := FindEntryStop(t.slots, h, k);
    if i < 0 then Returned(t, false)
    else
      var p := CalcIndex(h, i, |t.slots|);
      var s1 := t.slots[p := Empty];
      OccupancyUpdate(t.slots, p, Empty);
      KeysClear(t.slots, p);
      ClearUniqueKey(t.slots, p, k);
      match RekeyAfterHole(Table(s1, t.count - 1), hash, h, i)
      case Returned(t2, _) => Returned(t2, true)
      case Threw(e, t2) => Threw(e, t2)
  }

  /** `Remove(KeyValuePair)`: only when the key is found with value `v`. */
  function RemovePair<K(==), V(==)>(t: Table<K, V>, hash: K -> U32, k: K, v: V): (r: Outcome<Table<K, V>, bool>)
    ensures !ContainsPair(t, hash, k, v) ==> r == Returned(t, false)
    ensures ContainsPair(t, hash, k, v) ==> r == Remove(t, hash, k)
  {
    var p := FindEntry(t, hash, k);
    if p < 0 || t.slots[p].value != v then Returned(t, false)
    else Remove(t, hash, k)
  }

  lemma ClearUniqueKey<K, V>(s: seq<Slot<K, V>>, p: nat, k: K)
    requires p < |s| && s[p].Occupied? && s[p].key == k
    ensures KeyUnique(s, k) ==> k !in Keys(s[p := Empty])
  {
    var s' := s[p := Empty];
    if KeyUnique(s, k) {
      forall q | 0 <= q < |s'| && s'[q].Occupied? ensures s'[q].key != k {
        assert s[q] == s'[q];
      }
    }
  }

  /** `RekeyAfterHole`: lift out the occupied run that follows step `i` on the
      REMOVED key's probe sequence, take its size off `count`, and put each
      lifted entry back through `AddOrUpdate`. */
  function RekeyAfterHole<K(==), V>(t: Table<K, V>, hash: K -> U32, h: U32, i: nat): (r: Outcome<Table<K, V>, ()>)
    requires i < |t.slots|
    ensures Keys(r.State().slots) <= Keys(t.slots)
    ensures t.count < Threshold(|t.slots|) ==>
              r.Returned? && |r.state.slots| == |t.slots| && r.state.count <= t.count
    ensures t.count < Threshold(|t.slots|) && t.count == Occupancy(t.slots) ==>
              r.State().count == Occupancy(r.State().slots)
  {
    var (s1, es) := Lift(t.slots, h, i + 1);
    LiftKeys(t.slots, h, i + 1);
    ReinsertAll(Table(s1, t.count - |es|), hash, es)
  }

  /** The second loop of RekeyAfterHole: `AddOrUpdate` each lifted entry in
      order; an exception ends the loop. Below the threshold no reinsert
      resizes, so none throws. */
  function ReinsertAll<K(==), V>(t: Table<K, V>, hash: K -> U32, es: seq<(K, V)>): (r: Outcome<Table<K, V>, ()>)
    ensures Keys(r.State().slots) <= Keys(t.slots) + KeysOf(es)
    ensures t.count + |es| <= Threshold(|t.slots|) ==>
              r.Returned? && |r.state.slots| == |t.slots| && r.state.count <= t.count + |es|
    ensures t.count + |es| <= Threshold(|t.slots|) && t.count == Occupancy(t.slots) ==>
              r.State().count == Occupancy(r.State().slots)
    decreases |es|
  {
    if es == [] then Returned(t, ())
    else
      OfTail(es);
      match AddOrUpdate(t, hash, es[0].0, es[0].1)
      case Returned(t1, _) => ReinsertAll(t1, hash, es[1..])
      case Threw(e, t1) => Threw(e, t1)
  }
}

=== FILE: krapivin_hash_set.dfy ===
/** KrapivinHashSet: the backshift engine behind `ISet`. A slot is an item
    with a `used` bit; here an Occupied slot is a used one, and the item a
    cleared slot still holds is never read again, so it is not kept. `Add`
    throws when FindSlot finds no slot, also inside the rebuild of a resize,
    and `Remove` puts the lifted run back through `Add`. A custom equality
    comparer is not modelled: items are compared with `==`. */
module KrapivinHashSet {
  import opened Slots
  import opened KrapivinProbe

  /** The item array with its `used` bits, and `count`. */
  type HashSet<K> = Table<K, ()>

  /** The items the set holds: those of the used slots. */
  ghost function Items<K>(t: HashSet<K>): set<K>
  {
    Keys(t.slots)
  }

  /** The state the set keeps while only inserts happen: `count` is the
      number of used slots, the table is at most 75% full, every item is
      found by the stop-at-Empty lookup, and no item is stored twice.
      `Remove` is not shown to keep it. */
  ghost predicate Valid<K>(t: HashSet<K>, hash: K -> U32)
  {
    && t.count == Occupancy(t.slots)
    && t.count <= Threshold(|t.slots|)
    && Contiguous(t.slots, hash)
    && Distinct(t.slots)
  }

  /** `new KrapivinHashSet(capacity)`: a negative capacity makes the array allocation
      throw OverflowException. */
  function New<K>(capacity: int, hash: K -> U32): (r: Result<HashSet<K>>)
    ensures r.Err? <==> capacity < 0
    ensures r.Err? ==> r.error == Overflow
    ensures r.Ok? ==> |r.value.slots| == capacity && r.value.count == 0 && Items(r.value) == {}
    ensures r.Ok? ==> Valid(r.value, hash)
  {
    if capacity < 0 then Err(Overflow)
    else
      OccupancyEmpties<K, ()>(capacity);
      EmptiesContiguous<K, ()>(capacity, hash);
      Ok(Table(Empties(capacity), 0))
  }

  /** `Clear`: every `used` bit off, `count` zero, the length kept. */
  function Clear<K>(t: HashSet<K>, hash: K -> U32): (r: HashSet<K>)
    ensures |r.slots| == |t.slots| && r.count == 0 && Items(r) == {}
    ensures Valid(r, hash)
  {
    OccupancyEmpties<K, ()>(|t.slots|);
    EmptiesContiguous<K, ()>(|t.slots|, hash);
    Table(Empties(|t.slots|), 0)
  }

  /** `FindEntry`: the slot holding `x`, found before the first unused slot
      on its probe sequence, or -1. */
  function FindEntry<K(==)>(t: HashSet<K>, hash: K -> U32, x: K): (r: int)
    ensures r == -1 || (0 <= r < |t.slots| && t.slots[r].Occupied? && t.slots[r].key == x)
    ensures Contiguous(t.slots, hash) ==> (r >= 0 <==> x in Items(t))
  {
    ContiguousFindStop(t.slots, hash, x);
    var i := FindEntryStop(t.slots, hash(x), x);
    if i < 0 then -1 else CalcIndex(hash(x), i, |t.slots|)
  }

  /** `Contains`: FindEntry reports a slot. */
  function Contains<K(==)>(t: HashSet<K>, hash: K -> U32, x: K): (r: bool)
    ensures r ==> x in Items(t)
    ensures Contiguous(t.slots, hash) ==> (r <==> x in Items(t))
  {
    FindEntry(t, hash, x) >= 0
  }

  /** `CheckResize`: below three quarters full nothing happens; otherwise the
      items are rebuilt into twice the length through `Add`, and an item
      FindSlot finds no slot for throws "full" from the half-built table. */
  function CheckResize<K(==)>(t: HashSet<K>, hash: K -> U32): (r: Outcome<HashSet<K>, bool>)
    ensures r == Returned(t, false) <==> t.count < Threshold(|t.slots|)
    ensures r.Returned? && r.result ==> |r.state.slots| == 2 * |t.slots| && Items(r.state) == Items(t)
    ensures r.Threw? ==> r.error == TableFull && |r.state.slots| == 2 * |t.slots|
    ensures Items(r.State()) <= Items(t)
    ensures Valid(t, hash) ==> Valid(r.State(), hash)
  {
    if t.count < Threshold(|t.slots|) then Returned(t, false)
    else
      assert |t.slots| >= 1 ==> Threshold(|t.slots|) <= Threshold(2 * |t.slots|);
      var (t1, complete) := Doubled(t, hash, true);
      if complete then Returned(t1, true) else Threw(TableFull, t1)
  }

  /** `Add`: FindSlot first; no slot throws "full", a slot holding `x` gives
      false with nothing changed. Then CheckResize, and after a resize
      FindSlot again (no slot: IndexOutOfRange). The item is stored, its bit
      set, and `count` goes up by one. On every return the set holds exactly
      one item more or the same. */
  function Add<K(==)>(t: HashSet<K>, hash: K -> U32, x: K): (r: Outcome<HashSet<K>, bool>)
    ensures FindSlot(t.slots, hash(x), x) == -1 ==> r == Threw(TableFull, t)
    ensures r == Returned(t, false) <==>
              var i := FindSlot(t.slots, hash(x), x);
              i >= 0 && t.slots[CalcIndex(hash(x), i, |t.slots|)].Occupied?
    ensures Contiguous(t.slots, hash) && x in Items(t) ==> r == Returned(t, false)
    ensures r.Returned? ==> Items(r.state) == Items(t) + {x}
    ensures r.Returned? && r.result ==> Contains(r.state, hash, x)
    ensures Items(r.State()) <= Items(t) + {x}
    ensures Valid(t, hash) ==> Valid(r.State(), hash)
    ensures t.count < Threshold(|t.slots|) ==>
              && |r.State().slots| == |t.slots|
              && (r.Threw? ==> r == Threw(TableFull, t))
              && r.State().count == t.count + (if r.Returned? && r.result then 1 else 0)
    ensures t.count < Threshold(|t.slots|) && t.count == Occupancy(t.slots) ==>
              r.State().count == Occupancy(r.State().slots)
  {
    var h := hash(x);
    var i := FindSlot(t.slots, h, x);
    ContiguousFindStop(t.slots, hash, x);
    FoundIsSlot(t.slots, h, x);
    if i < 0 then Threw(TableFull, t)
    else if t.slots[CalcIndex(h, i, |t.slots|)].Occupied? then Returned(t, false)
    else
      ContiguousEmptyFitMeansAbsent(t.slots, hash, x);
      match CheckResize(t, hash)
      case Threw(e, t1) => Threw(e, t1)
      case Returned(t1, resized) =>
        var j := if resized then FindSlot(t1.slots, h, x) else i;
        if j < 0 then Threw(IndexOutOfRange, t1)
        else
          StoreNew(t, t1, hash, x, resized);
          StoreNewValid(t, t1, hash, x, resized);
          StoreOccupancy(t1, hash, x, (), 1);
          Returned(Store(t1, hash, x, (), 1), true)
  }

  /** The last step of `Add`: `x`, absent from a contiguous set, stored into
      the set CheckResize returned. */
  lemma StoreNew<K>(t: HashSet<K>, t1: HashSet<K>, hash: K -> U32, x: K, resized: bool)
    requires CheckResize(t, hash) == Returned(t1, resized)
    requires FindSlot(t1.slots, hash(x), x) >= 0
    requires Contiguous(t.slots, hash) ==> x !in Items(t)
    ensures var r := Store(t1, hash, x, (), 1);
            && Items(r) == Items(t) + {x}
            && Contains(r, hash, x)
            && (t.count < Threshold(|t.slots|) ==> |r.slots| == |t.slots| && r.count == t.count + 1)
  {
  }

  /** ... and keeps the set valid: after a resize the count is below the
      threshold of twice the length. */
  lemma StoreNewValid<K>(t: HashSet<K>, t1: HashSet<K>, hash: K -> U32, x: K, resized: bool)
    requires CheckResize(t, hash) == Returned(t1, resized)
    requires FindSlot(t1.slots, hash(x), x) >= 0
    requires Contiguous(t.slots, hash) ==> x !in Items(t)
    ensures Valid(t, hash) ==> Valid(Store(t1, hash, x, (), 1), hash)
  {
    if Valid(t, hash) {
      assert Valid(t1, hash);
      if resized {
        assert Threshold(|t.slots|) < Threshold(2 * |t.slots|) || |t.slots| == 0;
      }
    }
  }

  /** `Remove`: walk `x`'s probe sequence; an unused slot (or the end of the
      steps) gives false with nothing changed; the slot holding `x` loses its
      bit, `count` drops, and RekeyAfterHole repairs from that step. Its
      reinserts go through `Add`, which can throw. */
  function Remove<K(==)>(t: HashSet<K>, hash: K -> U32, x: K): (r: Outcome<HashSet<K>, bool>)
    ensures r == Returned(t, false) <==> !Contains(t, hash, x)
    ensures r.Returned? ==> (r.result <==> Contains(t, hash, x))
    ensures Items(r.State()) <= Items(t)
    ensures Contains(t, hash, x) && KeyUnique(t.slots, x) ==> x !in Items(r.State())
    ensures t.count <= Threshold(|t.slots|) ==>
              && |r.State().slots| == |t.slots|
              && (r.Threw? ==> r.error == TableFull)
              && r.State().count <= t.count - (if Contains(t, hash, x) then 1 else 0)
    ensures t.count <= Threshold(|t.slots|) && t.count == Occupancy(t.slots) ==>
              r.State().count == Occupancy(r.State().slots)
  {
    var h := hash(x);
    var i := FindEntryStop(t.slots, h, x);
    if i < 0 then Returned(t, false)
    else
      var p := CalcIndex(h, i, |t.slots|);
      var s1 := t.slots[p := Empty];
      OccupancyUpdate(t.slots, p, Empty);
      KeysClear(t.slots, p);
      ClearUniqueKey(t.slots, p, x);
      match RekeyAfterHole(Table(s1, t.count - 1), hash, h, i)
      case Returned(t2, _) => Returned(t2, true)
      case Threw(e, t2) => Threw(e, t2)
  }

  lemma ClearUniqueKey<K>(s: seq<Slot<K, ()>>, p: nat, x: K)
    requires p < |s| && s[p].Occupied? && s[p].key == x
    ensures KeyUnique(s, x) ==> x !in Keys(s[p := Empty])
  {
    var s' := s[p := Empty];
    if KeyUnique(s, x) {
      forall q | 0 <= q < |s'| && s'[q].Occupied? ensures s'[q].key != x {
        assert s[q] == s'[q];
      }
    }
  }

  /** `RekeyAfterHole`: lift out the used run that follows step `i` on the
      REMOVED item's probe sequence, take its size off `count`, and `Add`
      each lifted item back. */
  function RekeyAfterHole<K(==)>(t: HashSet<K>, hash: K -> U32, h: U32, i: nat): (r: Outcome<HashSet<K>, ()>)
    requires i < |t.slots|
    ensures Items(r.State()) <= Items(t)
    ensures t.count < Threshold(|t.slots|) ==>
              && |r.State().slots| == |t.slots|
              && (r.Threw? ==> r.error == TableFull)
              && r.State().count <= t.count
    ensures t.count < Threshold(|t.slots|) && t.count == Occupancy(t.slots) ==>
              r.State().count == Occupancy(r.State().slots)
  {
    var (s1, es) := Lift(t.slots, h, i + 1);
    LiftKeys(t.slots, h, i + 1);
    ReinsertAll(Table(s1, t.count - |es|), hash, es)
  }

  /** The second loop of RekeyAfterHole: `Add` each lifted item in order; an
      exception ends the loop. */
  function ReinsertAll<K(==)>(t: HashSet<K>, hash: K -> U32, es: seq<(K, ())>): (r: Outcome<HashSet<K>, ()>)
    ensures Items(r.State()) <= Items(t) + KeysOf(es)
    ensures t.count + |es| <= Threshold(|t.slots|) ==>
              && |r.State().slots| == |t.slots|
              && (r.Threw? ==> r.error == TableFull)
              && r.State().count <= t.count + |es|
    ensures t.count + |es| <= Threshold(|t.slots|) && t.count == Occupancy(t.slots) ==>
              r.State().count == Occupancy(r.State().slots)
    decreases |es|
  {
    if es == [] then Returned(t, ())
    else
      OfTail(es);
      match Add(t, hash, es[0].0)
      case Returned(t1, _) => ReinsertAll(t1, hash, es[1..])
      case Threw(e, t1) => Threw(e, t1)
  }

  /** The items of a sequence, as a set. */
  ghost function Elements<K>(xs: seq<K>): set<K>
  {
    set i | 0 <= i < |xs| :: xs[i]
  }

  lemma ElementsOfTail<K>(xs: seq<K>)
    requires xs != []
    ensures Elements(xs) == {xs[0]} + Elements(xs[1..])
  {
    assert forall i :: 1 <= i < |xs| ==> xs[i] == xs[1..][i - 1];
    assert forall i :: 0 <= i < |xs| - 1 ==> xs[1..][i] == xs[i + 1];
  }

  /** `UnionWith`: `Add` each item of `other` in order; an exception ends the
      loop. When it completes the set holds exactly the union. */
  function UnionWith<K(==)>(t: HashSet<K>, hash: K -> U32, other: seq<K>): (r: Outcome<HashSet<K>, ()>)
    ensures r.Returned? ==> Items(r.state) == Items(t) + Elements(other)
    ensures Items(r.State()) <= Items(t) + Elements(other)
    ensures Valid(t, hash) ==> Valid(r.State(), hash)
    decreases |other|
  {
    if other == [] then Returned(t, ())
    else
      ElementsOfTail(other);
      match Add(t, hash, other[0])
      case Returned(t1, _) => UnionWith(t1, hash, other[1..])
      case Threw(e, t1) => Threw(e, t1)
  }

  /** `ExceptWith`: `Remove` each item of `other` in order; an exception ends
      the loop. Nothing is ever added, and on a valid set the first item of
      `other` is gone afterwards. A removal can leave the set non-contiguous,
      so the later removals may miss their items. */
  function ExceptWith<K(==)>(t: HashSet<K>, hash: K -> U32, other: seq<K>): (r: Outcome<HashSet<K>, ()>)
    ensures Items(r.State()) <= Items(t)
    ensures other == [] ==> r == Returned(t, ())
    ensures Valid(t, hash) && other != [] ==> other[0] !in Items(r.State())
    decreases |other|
  {
    if other == [] then Returned(t, ())
    else
      ContiguousFindStop(t.slots, hash, other[0]);
      match Remove(t, hash, other[0])
      case Returned(t1, _) => ExceptWith(t1, hash, other[1..])
      case Threw(e, t1) => Threw(e, t1)
  }

  /** The first loop of `IntersectWith`: the items of `other` the set
      contains, in order. */
  function Kept<K(==)>(t: HashSet<K>, hash: K -> U32, other: seq<K>): (r: seq<K>)
    ensures Elements(r) == Elements(other) * (set x | x in Elements(other) && Contains(t, hash, x))
    ensures Elements(r) <= Items(t)
    decreases |other|
  {
    if other == [] then []
    else
      ElementsOfTail(other);
      var rest := Kept(t, hash, other[1..]);
      if Contains(t, hash, other[0]) then
        ElementsOfTail([other[0]] + rest);
        assert ([other[0]] + rest)[1..] == rest;
        [other[0]] + rest
      else rest
  }

  /** `IntersectWith`: collect the items of `other` the set contains, clear
      the set, and `Add` them back. It keeps nothing outside both, and when it
      completes on a contiguous set it holds exactly the intersection. */
  function IntersectWith<K(==)>(t: HashSet<K>, hash: K -> U32, other: seq<K>): (r: Outcome<HashSet<K>, ()>)
    ensures Items(r.State()) <= Items(t) * Elements(other)
    ensures r.Returned? && Contiguous(t.slots, hash) ==> Items(r.state) == Items(t) * Elements(other)
    ensures Valid(r.State(), hash)
  {
    var keep := Kept(t, hash, other);
    var r := UnionWith(Clear(t, hash), hash, keep);
    assert Contiguous(t.slots, hash) ==> Elements(keep) == Items(t) * Elements(other);
    r
  }

  /** `Overlaps`: some item of `other`, tried in order, is contained. */
  function Overlaps<K(==)>(t: HashSet<K>, hash: K -> U32, other: seq<K>): (r: bool)
    ensures r ==> Items(t) * Elements(other) != {}
    ensures Contiguous(t.slots, hash) ==> (r <==> Items(t) * Elements(other) != {})
    decreases |other|
  {
    if other == [] then false
    else
      ElementsOfTail(other);
      assert Items(t) * Elements(other) == Items(t) * {other[0]} + Items(t) * Elements(other[1..]);
      assert other[0] in Items(t) ==> other[0] in Items(t) * {other[0]};
      Contains(t, hash, other[0]) || Overlaps(t, hash, other[1..])
  }

  /** The bits SetEquals's first loop sets: the slot FindEntry reports for
      each item of `other`. */
  function Marks<K(==)>(t: HashSet<K>, hash: K -> U32, other: seq<K>): (m: set<int>)
    ensures forall i :: 0 <= i < |other| ==> FindEntry(t, hash, other[i]) in m
    ensures forall f :: f in m ==> exists i :: 0 <= i < |other| && FindEntry(t, hash, other[i]) == f
  {
    set i | 0 <= i < |other| :: FindEntry(t, hash, other[i])
  }

  /** The second loop of `SetEquals` from slot `i` on: every used slot's item
      must be found at a marked slot. An item FindEntry does not find reads
      bit -1 of the mark `BitArray`, whose indexer throws ArgumentOutOfRange. */
  function CoveredFrom<K(==)>(t: HashSet<K>, hash: K -> U32, marks: set<int>, i: nat): (r: Result<bool>)
    requires i <= |t.slots|
    ensures r.Err? ==> r.error == ArgumentOutOfRange
    ensures Contiguous(t.slots, hash) ==> r.Ok?
    ensures r == Ok(true) <==>
              forall p :: i <= p < |t.slots| && t.slots[p].Occupied? ==>
                FindEntry(t, hash, t.slots[p].key) >= 0 && FindEntry(t, hash, t.slots[p].key) in marks
    decreases |t.slots| - i
  {
    if i == |t.slots| then Ok(true)
    else if t.slots[i].Occupied? then
      var f := FindEntry(t, hash, t.slots[i].key);
      if f < 0 then Err(ArgumentOutOfRange)
      else if f !in marks then Ok(false)
      else CoveredFrom(t, hash, marks, i + 1)
    else CoveredFrom(t, hash, marks, i + 1)
  }

  /** `SetEquals`: false as soon as an item of `other` is not found; then
      every used slot's item must have been marked. On a valid set it answers
      whether `other` holds exactly the set's items, and never throws. */
  function SetEquals<K(==)>(t: HashSet<K>, hash: K -> U32, other: seq<K>): (r: Result<bool>)
    ensures r.Err? ==> r.error == ArgumentOutOfRange
    ensures Contiguous(t.slots, hash) ==> r.Ok?
    ensures Contiguous(t.slots, hash) && Distinct(t.slots) ==> (r == Ok(true) <==> Elements(other) == Items(t))
  {
    SetEqualsMeansSameItems(t, hash, other);
    if exists i :: 0 <= i < |other| && FindEntry(t, hash, other[i]) < 0 then Ok(false)
    else CoveredFrom(t, hash, Marks(t, hash, other), 0)
  }

  lemma SetEqualsMeansSameItems<K>(t: HashSet<K>, hash: K -> U32, other: seq<K>)
    ensures Contiguous(t.slots, hash) && Distinct(t.slots) ==>
              var r := if exists i :: 0 <= i < |other| && FindEntry(t, hash, other[i]) < 0 then Ok(false)
                       else CoveredFrom(t, hash, Marks(t, hash, other), 0);
              (r == Ok(true) <==> Elements(other) == Items(t))
  {
    var s := t.slots;
    if Contiguous(s, hash) && Distinct(s) {
      if i :| 0 <= i < |other| && FindEntry(t, hash, other[i]) < 0 {
        assert other[i] in Elements(other) && other[i] !in Items(t);
      } else {
        var marks := Marks(t, hash, other);
        assert Elements(other) <= Items(t) by {
          forall x | x in Elements(other) ensures x in Items(t) {
            var i :| 0 <= i < |other| && other[i] == x;
            assert FindEntry(t, hash, other[i]) >= 0;
          }
        }
        forall p | 0 <= p < |s| && s[p].Occupied?
          ensures FindEntry(t, hash, s[p].key) == p
          ensures p in marks <==> s[p].key in Elements(other)
        {
          var f := FindEntry(t, hash, s[p].key);
          assert s[p].key in Items(t);
          assert s[f].key == s[p].key;
          if p in marks {
            var i :| 0 <= i < |other| && FindEntry(t, hash, other[i]) == p;
          }
          if s[p].key in Elements(other) {
            var i :| 0 <= i < |other| && other[i] == s[p].key;
          }
        }
        if Items(t) <= Elements(other) {
          assert CoveredFrom(t, hash, marks, 0) == Ok(true);
        }
        if CoveredFrom(t, hash, marks, 0) == Ok(true) {
          forall x | x in Items(t) ensures x in Elements(other) {
            var p :| 0 <= p < |s| && s[p].Occupied? && s[p].key == x;
          }
        }
      }
    }
  }
}

=== FILE: krapivin_hash_table.dfy ===
/** KrapivinHashTable: the minimal variant of the backshift engine. `Add` and
    `AddOrUpdate` resize before probing (even when the key is already there),
    `FindEntry` walks all Length probe steps without stopping at Empty, and
    `Remove` repairs the hole by reinserting the run after it. */
module KrapivinHashTable {
  import opened Slots
  import opened KrapivinProbe

  /** The state the table keeps at rest: `count` is the number of occupied
      slots, the table is at most 75% full, and every key sits on its own
      probe sequence. */
  ghost predicate Valid<K, V>(t: Table<K, V>, hash: K -> U32)
  {
    && t.count == Occupancy(t.slots)
    && t.count <= Threshold(|t.slots|)
    && OnOwnSequence(t.slots, hash)
  }

  /** `new KrapivinHashTable(capacity)`: a negative capacity makes the array allocation
      throw OverflowException. */
  function New<K, V>(capacity: int, hash: K -> U32): (r: Result<Table<K, V>>)
    ensures r.Err? <==> capacity < 0
    ensures r.Err? ==> r.error == Overflow
    ensures r.Ok? ==> |r.value.slots| == capacity && r.value.count == 0
    ensures r.Ok? ==> Valid(r.value, hash)
  {
    if capacity < 0 then Err(Overflow)
    else
      OccupancyEmpties<K, V>(capacity);
      Ok(Table(Empties(capacity), 0))
  }

  /** The table both insert operations probe: resized first when
      `count >= Length * 3 / 4`. */
  function Prepared<K(==), V>(t: Table<K, V>, hash: K -> U32): Table<K, V>
  {
    if t.count >= Threshold(|t.slots|) then Doubled(t, hash, false).0 else t
  }

  /** At rest, after a resize there is room under the new threshold for one more entry. */
  lemma PreparedHasRoom<K, V>(t: Table<K, V>, hash: K -> U32)
    ensures var t1 := Prepared(t, hash);
            Valid(t, hash) ==>
            && t1.count == Occupancy(t1.slots)
            && OnOwnSequence(t1.slots, hash)
            && (|t1.slots| == 0 || t1.count < Threshold(|t1.slots|))
            && Keys(t1.slots) <= Keys(t.slots)
            && Entries(t1.slots) <= Entries(t.slots)
  {
    var L := |t.slots|;
    if t.count >= Threshold(L) && L >= 1 {
      assert Threshold(L) + 1 <= Threshold(2 * L);
    }
  }

  /** `Add`: resize if due, then FindSlot; a full probe run or a slot already
      holding `k` gives false, an Empty slot receives `(k, v)`. */
  function Add<K(==), V>(t: Table<K, V>, hash: K -> U32, k: K, v: V): (r: (Table<K, V>, bool))
    ensures var t1 := Prepared(t, hash);
            && (!r.1 ==> r.0 == t1)
            && (r.1 ==> r.0.count == t1.count + 1)
            && (r.1 && Contiguous(t1.slots, hash) ==> k !in Keys(t1.slots))
            && (r.1 ==> GetValueOrDefault(r.0, hash, k, v) == v && FindEntry(r.0, hash, k) >= 0)
            && (r.1 <==> FindSlot(t1.slots, hash(k), k) >= 0 &&
                         t1.slots[CalcIndex(hash(k), FindSlot(t1.slots, hash(k), k), |t1.slots|)].Empty?)
    ensures Entries(r.0.slots) <= Entries(t.slots) + {(k, v)}
    ensures Keys(r.0.slots) == Keys(Prepared(t, hash).slots) + (if r.1 then {k} else {})
    ensures t.count < Threshold(|t.slots|) ==> Keys(r.0.slots) == Keys(t.slots) + (if r.1 then {k} else {})
    ensures Valid(t, hash) ==> Valid(r.0, hash)
    ensures Contiguous(t.slots, hash) ==> Contiguous(r.0.slots, hash)
  {
    var t1 := Prepared(t, hash);
    var h := hash(k);
    var i := FindSlot(t1.slots, h, k);
    if i < 0 || t1.slots[CalcIndex(h, i, |t1.slots|)].Occupied? then (t1, false)
    else
      var t2 := Place(t1, h, k, v).0;
      PlaceThenFind(t1, h, k, v);
      PlaceKeepsContiguous(t1, hash, k, v);
      PlaceKeepsOnOwnSequence(t1, hash, k, v);
      PreparedHasRoom(t, hash);
      ContiguousEmptyFitMeansAbsent(t1.slots, hash, k);
      (t2, true)
  }

  /** `AddOrUpdate`: resize if due, then FindSlot; the slot receives `(k, v)`,
      and the result says it was Empty. False also when FindSlot finds no slot. */
  function AddOrUpdate<K(==), V>(t: Table<K, V>, hash: K -> U32, k: K, v: V): (r: (Table<K, V>, bool))
    ensures var t1 := Prepared(t, hash);
            var i := FindSlot(t1.slots, hash(k), k);
            && (i < 0 ==> r.0 == t1 && !r.1)
            && (i >= 0 ==> GetValueOrDefault(r.0, hash, k, v) == v && FindEntry(r.0, hash, k) >= 0)
            && (i >= 0 ==> (r.1 <==> t1.slots[CalcIndex(hash(k), i, |t1.slots|)].Empty?))
            && r.0.count == t1.count + (if r.1 then 1 else 0)
    ensures Entries(r.0.slots) <= Entries(t.slots) + {(k, v)}
    ensures Keys(r.0.slots) <= Keys(t.slots) + {k}
    ensures var t1 := Prepared(t, hash);
            Keys(r.0.slots) == Keys(t1.slots) + (if FindSlot(t1.slots, hash(k), k) >= 0 then {k} else {})
    ensures t.count < Threshold(|t.slots|) ==>
              Keys(r.0.slots) == Keys(t.slots) + (if FindSlot(t.slots, hash(k), k) >= 0 then {k} else {})
    ensures Valid(t, hash) ==> Valid(r.0, hash)
    ensures Contiguous(t.slots, hash) ==> Contiguous(r.0.slots, hash)
  {
    var t1 := Prepared(t, hash);
    var (t2, st) := Place(t1, hash(k), k, v);
    PlaceKeepsContiguous(t1, hash, k, v);
    PlaceKeepsOnOwnSequence(t1, hash, k, v);
    PreparedHasRoom(t, hash);
    if st == NoRoom then (t2, false)
    else
      PlaceThenFind(t1, hash(k), k, v);
      (t2, st == Inserted)
  }

  /** `FindEntry`: the slot of the first of all Length probe steps holding `k`, or -1. */
  function FindEntry<K(==), V>(t: Table<K, V>, hash: K -> U32, k: K): (r: int)
    ensures r == -1 || (0 <= r < |t.slots| && t.slots[r].Occupied? && t.slots[r].key == k)
    ensures OnOwnSequence(t.slots, hash) ==> (r >= 0 <==> k in Keys(t.slots))
  {
    OnOwnSequenceFindAll(t.slots, hash, k);
    var i := FindEntryAll(t.slots, hash(k), k);
    if i < 0 then -1 else CalcIndex(hash(k), i, |t.slots|)
  }

  /** `GetValueOrDefault`: the value stored with `k`, or `defaultValue`. */
  function GetValueOrDefault<K(==), V>(t: Table<K, V>, hash: K -> U32, k: K, defaultValue: V): (r: V)
    ensures FindEntry(t, hash, k) < 0 ==> r == defaultValue
    ensures FindEntry(t, hash, k) >= 0 ==> (k, r) in Entries(t.slots)
    ensures OnOwnSequence(t.slots, hash) && k !in Keys(t.slots) ==> r == defaultValue
  {
    var p := FindEntry(t, hash, k);
    if p < 0 then defaultValue else t.slots[p].value
  }

  /** `ContainsKey`: FindEntry reports a slot. */
  function ContainsKey<K(==), V>(t: Table<K, V>, hash: K -> U32, k: K): (r: bool)
    ensures OnOwnSequence(t.slots, hash) ==> (r <==> k in Keys(t.slots))
  {
    FindEntry(t, hash, k) >= 0
  }

  /** `Remove`: walk `k`'s probe sequence; an Empty slot (or the end of the
      steps) gives false with nothing changed; the slot holding `k` is
      emptied, `count` drops, and RekeyAfterHole repairs from that step. */
  function Remove<K(==), V>(t: Table<K, V>, hash: K -> U32, k: K): (r: (Table<K, V>, bool))
    ensures !r.1 <==> FindEntryStop(t.slots, hash(k), k) == -1
    ensures !r.1 ==> r.0 == t
    ensures Keys(r.0.slots) <= Keys(t.slots)
    ensures Valid(t, hash) ==> Valid(r.0, hash)
    ensures r.1 && KeyUnique(t.slots, k) ==> k !in Keys(r.0.slots)
  {
    var h := hash(k);
    var i := FindEntryStop(t.slots, h, k);
    if i < 0 then (t, false)
    else
      var p := CalcIndex(h, i, |t.slots|);
      var s1 := t.slots[p := Empty];
      OccupancyUpdate(t.slots, p, Empty);
      KeysClear(t.slots, p);
      ClearingKeepsOnOwnSequence(t.slots, s1, hash);
      ClearUniqueKey(t.slots, p, k);
      (RekeyAfterHole(Table(s1, t.count - 1), hash, h, i), true)
  }

  lemma ClearUniqueKey<K, V>(s: seq<Slot<K, V>>, p: nat, k: K)
    requires p < |s| && s[p].Occupied? && s[p].key == k
    ensures KeyUnique(s, k) ==> k !in Keys(s[p := Empty])
  {
    var s' := s[p := Empty];
    if KeyUnique(s, k) {
      forall q | 0 <= q < |s'| && s'[q].Occupied? ensures s'[q].key != k {
        assert s[q] == s'[q];
      }
    }
  }

  /** `RekeyAfterHole`: lift out the occupied run that follows step `i` on the
      REMOVED key's probe sequence, take its size off `count`, and put each
      lifted entry back through `AddOrUpdate`. Nothing checks that this
      restores the lookup of the lifted entries or of any other key. */
  function RekeyAfterHole<K(==), V>(t: Table<K, V>, hash: K -> U32, h: U32, i: nat): (r: Table<K, V>)
    requires i < |t.slots|
    ensures Keys(r.slots) <= Keys(t.slots)
    ensures t.count == Occupancy(t.slots) && t.count <= Threshold(|t.slots|) && OnOwnSequence(t.slots, hash)
            ==> Valid(r, hash)
  {
    var (s1, es) := Lift(t.slots, h, i + 1);
    var t1 := Table(s1, t.count - |es|);
    ClearingKeepsOnOwnSequence(t.slots, s1, hash);
    LiftKeys(t.slots, h, i + 1);
    ReinsertAll(t1, hash, es)
  }

  /** The second loop of RekeyAfterHole: `AddOrUpdate` each lifted entry in order. */
  function ReinsertAll<K(==), V>(t: Table<K, V>, hash: K -> U32, es: seq<(K, V)>): (r: Table<K, V>)
    ensures Keys(r.slots) <= Keys(t.slots) + KeysOf(es)
    ensures Valid(t, hash) ==> Valid(r, hash)
    decreases |es|
  {
    if es == [] then t
    else
      OfTail(es);
      ReinsertAll(AddOrUpdate(t, hash, es[0].0, es[0].1).0, hash, es[1..])
  }
}

=== FILE: krapivin_probe.dfy ===
/** The engine shared by KrapivinHashTable, KrapivinDictionary and
    KrapivinHashSet: one flat slot array, the two-parity probe step, the
    FindSlot and FindEntry walks, the write both insert paths end in, the
    rebuild loop of a resize, and the run RekeyAfterHole lifts out.

    Every walk is over probe STEPS `i = 0, 1, …, Length - 1`; step `i` visits
    slot `CalcIndex(hash, i, Length)`. The probe sequence is not a
    permutation: a slot can be visited at several steps and another at none. */
module KrapivinProbe {
  import opened Slots

  /** The count at which the table doubles: `table.Length * 3 / 4`, which for a
      non-negative length is also `(table.Length * 3) >> 2`. */
  function Threshold(len: nat): nat
  {
    len * 3 / 4
  }

  /** The multiplier of probe step `i`: `hash / Length + 1` truncated to a
      `uint` on even steps, the step itself on odd steps. */
  function Stride(hash: U32, i: nat, len: nat): (r: nat)
    requires len >= 1
    ensures i % 2 == 1 ==> r == i
    ensures i % 2 == 0 ==> r < TWO32
    ensures i % 2 == 0 ==> (r == 0 <==> len == 1 && hash == TWO32 - 1)
    ensures i % 2 == 0 && r != 0 ==> r == hash / len + 1
  {
    if i % 2 == 0 then
      DivBound(hash, len);
      (hash / len + 1) % TWO32
    else i
  }

  lemma DivBound(hash: U32, len: nat)
    requires len >= 1
    ensures hash / len <= hash
    ensures len >= 2 ==> hash / len < TWO32 - 1
  {
    var q := hash / len;
    MulAtLeast(len, q);
    assert len * q <= hash by {
      assert hash == len * q + hash % len;
    }
  }

  lemma {:induction false} MulAtLeast(a: nat, b: nat)
    ensures a * b >= (if a >= 2 then 2 * b else if a == 1 then b else 0)
  {
    if a > 2 {
      MulAtLeast(a - 1, b);
      assert a * b == (a - 1) * b + b;
    }
  }

  /** `CalcIndex`: the slot visited at probe step `i` of hash `hash` in an
      array of `len` slots. The product `i * mul` is formed in 64 bits and
      truncated back to a `uint` before the final `% len`. */
  function CalcIndex(hash: U32, i: nat, len: nat): (r: nat)
    requires len >= 1
    ensures r < len
  {
    ((hash + i * Stride(hash, i, len)) % TWO32) % len
  }

  /** Every probe step in `[i, j)` of hash `h` visits an occupied slot. */
  ghost predicate OccupiedRun<K, V>(s: seq<Slot<K, V>>, h: U32, i: nat, j: nat)
    requires j <= |s|
  {
    forall m :: i <= m < j ==> s[CalcIndex(h, m, |s|)].Occupied?
  }

  /** `FindSlot` from step `i` on: the first step whose slot is Empty or holds
      `k`, or -1 once all `Length` steps are spent. */
  function FindSlotFrom<K(==), V>(s: seq<Slot<K, V>>, h: U32, k: K, i: nat): (r: int)
    requires i <= |s|
    ensures r == -1 || i <= r < |s|
    ensures r >= 0 ==> Fits(s, CalcIndex(h, r, |s|), k)
    ensures forall m :: i <= m < |s| && (r == -1 || m < r) ==> !Fits(s, CalcIndex(h, m, |s|), k)
    decreases |s| - i
  {
    if i == |s| then -1
    else if Fits(s, CalcIndex(h, i, |s|), k) then i
    else FindSlotFrom(s, h, k, i + 1)
  }

  function FindSlot<K(==), V>(s: seq<Slot<K, V>>, h: U32, k: K): int
  {
    FindSlotFrom(s, h, k, 0)
  }

  /** The table variant's `FindEntry` from step `i` on: the first step whose
      slot holds `k`, looking at all `Length` steps and passing Empty slots. */
  function FindEntryAllFrom<K(==), V>(s: seq<Slot<K, V>>, h: U32, k: K, i: nat): (r: int)
    requires i <= |s|
    ensures r == -1 || i <= r < |s|
    ensures r >= 0 ==> Holds(s, CalcIndex(h, r, |s|), k)
    ensures forall m :: i <= m < |s| && (r == -1 || m < r) ==> !Holds(s, CalcIndex(h, m, |s|), k)
    decreases |s| - i
  {
    if i == |s| then -1
    else if Holds(s, CalcIndex(h, i, |s|), k) then i
    else FindEntryAllFrom(s, h, k, i + 1)
  }

  function FindEntryAll<K(==), V>(s: seq<Slot<K, V>>, h: U32, k: K): int
  {
    FindEntryAllFrom(s, h, k, 0)
  }

  /** The dictionary and set `FindEntry` (and the search loop of every
      `Remove`) from step `i` on: the first step whose slot holds `k`, giving up
      at the first Empty slot. */
  function FindEntryStopFrom<K(==), V>(s: seq<Slot<K, V>>, h: U32, k: K, i: nat): (r: int)
    requires i <= |s|
    ensures r == -1 || i <= r < |s|
    ensures r >= 0 ==> Holds(s, CalcIndex(h, r, |s|), k) && OccupiedRun(s, h, i, r)
    ensures r >= 0 ==> forall m :: i <= m < r ==> !Holds(s, CalcIndex(h, m, |s|), k)
    ensures r == -1 ==> forall m :: i <= m < |s| && OccupiedRun(s, h, i, m) ==> !Holds(s, CalcIndex(h, m, |s|), k)
    decreases |s| - i
  {
    if i == |s| then -1
    else
      var p := CalcIndex(h, i, |s|);
      if Holds(s, p, k) then i
      else if s[p].Empty? then -1
      else
        var r := FindEntryStopFrom(s, h, k, i + 1);
        assert forall m :: i + 1 <= m < |s| && OccupiedRun(s, h, i, m) ==> OccupiedRun(s, h, i + 1, m);
        r
  }

  function FindEntryStop<K(==), V>(s: seq<Slot<K, V>>, h: U32, k: K): int
  {
    FindEntryStopFrom(s, h, k, 0)
  }

  /** The table state every variant carries: the slot array and `count`. */
  datatype Table<K, V> = Table(slots: seq<Slot<K, V>>, count: int)

  /** What one write through FindSlot did. */
  datatype Placed = NoRoom | Inserted | Updated

  /** The write both insert paths end in: FindSlot, then store `(k, v)` at the
      slot it reports, adding one to `count` only when that slot was Empty. */
  function Place<K(==), V>(t: Table<K, V>, h: U32, k: K, v: V): (r: (Table<K, V>, Placed))
    ensures |r.0.slots| == |t.slots|
    ensures r.1 == NoRoom <==> FindSlot(t.slots, h, k) == -1
    ensures r.1 == NoRoom ==> r.0 == t
    ensures r.1 != NoRoom ==>
              var p := CalcIndex(h, FindSlot(t.slots, h, k), |t.slots|);
              && r.0.slots == t.slots[p := Occupied(k, v)]
              && (r.1 == Inserted <==> t.slots[p].Empty?)
    ensures r.0.count == t.count + (if r.1 == Inserted then 1 else 0)
    ensures Occupancy(r.0.slots) == Occupancy(t.slots) + (if r.1 == Inserted then 1 else 0)
    ensures Keys(r.0.slots) == Keys(t.slots) + (if r.1 == NoRoom then {} else {k})
    ensures Entries(r.0.slots) <= Entries(t.slots) + {(k, v)}
    ensures Extends(t.slots, r.0.slots)
  {
    var i := FindSlot(t.slots, h, k);
    if i < 0 then (t, NoRoom)
    else
      var p := CalcIndex(h, i, |t.slots|);
      var isNew := t.slots[p].Empty?;
      OccupancyUpdate(t.slots, p, Occupied(k, v));
      KeysWrite(t.slots, p, k, v);
      EntriesUpdate(t.slots, p, Occupied(k, v));
      (Table(t.slots[p := Occupied(k, v)], t.count + (if isNew then 1 else 0)),
       if isNew then Inserted else Updated)
  }

  lemma KeysWrite<K, V>(s: seq<Slot<K, V>>, p: nat, k: K, v: V)
    requires p < |s| && Fits(s, p, k)
    ensures Keys(s[p := Occupied(k, v)]) == Keys(s) + {k}
  {
    var s' := s[p := Occupied(k, v)];
    forall x | x in Keys(s) ensures x in Keys(s') {
      var q :| 0 <= q < |s| && s[q].Occupied? && s[q].key == x;
      if q == p { assert s'[p].key == x; } else { assert s'[q] == s[q]; }
    }
    assert s'[p].key == k;
  }

  lemma EntriesUpdate<K, V>(s: seq<Slot<K, V>>, p: nat, x: Slot<K, V>)
    requires p < |s|
    ensures Entries(s[p := x]) <= Entries(s) + (if x.Occupied? then {(x.key, x.value)} else {})
  {
    var s' := s[p := x];
    forall e | e in Entries(s') ensures e in Entries(s) + (if x.Occupied? then {(x.key, x.value)} else {}) {
      var q :| 0 <= q < |s'| && s'[q].Occupied? && e == (s'[q].key, s'[q].value);
      if q != p { assert s'[q] == s[q]; }
    }
  }

  lemma KeysClear<K, V>(s: seq<Slot<K, V>>, p: nat)
    requires p < |s|
    ensures Keys(s[p := Empty]) <= Keys(s)
  {
    forall x | x in Keys(s[p := Empty]) ensures x in Keys(s) {
      var q :| 0 <= q < |s| && s[p := Empty][q].Occupied? && s[p := Empty][q].key == x;
      assert s[q] == s[p := Empty][q];
    }
  }

  /** After a successful Place both lookups find the new entry at the written
      step: every earlier step visits an occupied slot holding another key. */
  lemma PlaceThenFind<K, V>(t: Table<K, V>, h: U32, k: K, v: V)
    requires Place(t, h, k, v).1 != NoRoom
    ensures var s' := Place(t, h, k, v).0.slots;
            var i := FindSlot(t.slots, h, k);
            && FindEntryStop(s', h, k) == i
            && FindEntryAll(s', h, k) == i
            && s'[CalcIndex(h, i, |s'|)] == Occupied(k, v)
  {
    var s := t.slots;
    var s' := Place(t, h, k, v).0.slots;
    var i := FindSlot(s, h, k);
    var p := CalcIndex(h, i, |s|);
    forall m | 0 <= m < i
      ensures s'[CalcIndex(h, m, |s|)] == s[CalcIndex(h, m, |s|)]
      ensures s'[CalcIndex(h, m, |s|)].Occupied? && s'[CalcIndex(h, m, |s|)].key != k
    {
      assert !Fits(s, CalcIndex(h, m, |s|), k);
    }
    assert OccupiedRun(s', h, 0, i);
    assert Holds(s', p, k);
  }

  /** Probe contiguity: every stored key is found by the stop-at-Empty lookup,
      i.e. no Empty slot lies on its probe sequence before the first step that
      visits it. */
  ghost predicate Contiguous<K, V>(s: seq<Slot<K, V>>, hash: K -> U32)
  {
    forall p :: 0 <= p < |s| && s[p].Occupied? ==> FindEntryStop(s, hash(s[p].key), s[p].key) >= 0
  }

  /** On a contiguous array the lookup that stops at Empty and the lookup that
      walks all steps agree for every key. */
  lemma ContiguousLookupsAgree<K, V>(s: seq<Slot<K, V>>, hash: K -> U32, k: K)
    requires Contiguous(s, hash)
    ensures FindEntryStop(s, hash(k), k) == FindEntryAll(s, hash(k), k)
  {
    var h := hash(k);
    var a := FindEntryAll(s, h, k);
    var f := FindEntryStop(s, h, k);
    if a >= 0 {
      var q := CalcIndex(h, a, |s|);
      assert s[q].Occupied? && s[q].key == k;
      assert f >= 0;
      assert Holds(s, CalcIndex(h, f, |s|), k);
    }
  }

  /** On a contiguous array a FindSlot that stops at an Empty slot proves the
      key is stored nowhere. */
  lemma ContiguousEmptyFitMeansAbsent<K, V>(s: seq<Slot<K, V>>, hash: K -> U32, k: K)
    requires FindSlot(s, hash(k), k) >= 0
    requires s[CalcIndex(hash(k), FindSlot(s, hash(k), k), |s|)].Empty?
    ensures Contiguous(s, hash) ==> k !in Keys(s)
  {
    ContiguousFindStop(s, hash, k);
    FoundIsSlot(s, hash(k), k);
  }

  /** Filling Empty slots never hides a key the stop-at-Empty lookup found. */
  lemma ExtendsKeepsFound<K, V>(s: seq<Slot<K, V>>, s': seq<Slot<K, V>>, h: U32, x: K)
    requires Extends(s, s')
    requires FindEntryStop(s, h, x) >= 0
    ensures FindEntryStop(s', h, x) == FindEntryStop(s, h, x)
  {
    var f := FindEntryStop(s, h, x);
    forall m | 0 <= m < f
      ensures s'[CalcIndex(h, m, |s|)].Occupied? && s'[CalcIndex(h, m, |s|)].key != x
    {
      assert !Holds(s, CalcIndex(h, m, |s|), x);
    }
    assert OccupiedRun(s', h, 0, f);
    assert Holds(s', CalcIndex(h, f, |s|), x);
  }

  /** Place keeps probe contiguity. */
  lemma PlaceKeepsContiguous<K, V>(t: Table<K, V>, hash: K -> U32, k: K, v: V)
    ensures Contiguous(t.slots, hash) ==> Contiguous(Place(t, hash(k), k, v).0.slots, hash)
  {
    var r := Place(t, hash(k), k, v);
    if r.1 != NoRoom && Contiguous(t.slots, hash) {
      var s := t.slots;
      var s' := r.0.slots;
      var w := CalcIndex(hash(k), FindSlot(s, hash(k), k), |s|);
      PlaceThenFind(t, hash(k), k, v);
      forall p | 0 <= p < |s'| && s'[p].Occupied?
        ensures FindEntryStop(s', hash(s'[p].key), s'[p].key) >= 0
      {
        if p != w {
          assert s'[p] == s[p];
          ExtendsKeepsFound(s, s', hash(s[p].key), s[p].key);
        }
      }
    }
  }

  lemma EmptiesContiguous<K, V>(n: nat, hash: K -> U32)
    ensures Contiguous(Empties<K, V>(n), hash)
  {
  }

  /** The keys of a list of entries. */
  ghost function KeysOf<K, V>(es: seq<(K, V)>): set<K>
  {
    set i | 0 <= i < |es| :: es[i].0
  }

  /** The entries of a list of entries. */
  ghost function EntriesOf<K, V>(es: seq<(K, V)>): set<(K, V)>
  {
    set i | 0 <= i < |es| :: es[i]
  }

  /** The live entries, reinserted in index order, carry exactly the stored keys. */
  lemma LiveKeys<K, V>(s: seq<Slot<K, V>>)
    ensures KeysOf(Live(s)) == Keys(s)
    ensures EntriesOf(Live(s)) == Entries(s)
  {
    var es := Live(s);
    forall x | x in KeysOf(es) ensures x in Keys(s) {
      var i :| 0 <= i < |es| && es[i].0 == x;
      EntryKey(s, es[i]);
    }
    forall x | x in Keys(s) ensures x in KeysOf(es) {
      var p :| 0 <= p < |s| && s[p].Occupied? && s[p].key == x;
      assert (s[p].key, s[p].value) in es;
      var i :| 0 <= i < |es| && es[i] == (s[p].key, s[p].value);
    }
    forall e | e in Entries(s) ensures e in EntriesOf(es) {
      var p :| 0 <= p < |s| && s[p].Occupied? && e == (s[p].key, s[p].value);
      assert e in es;
      var i :| 0 <= i < |es| && es[i] == e;
    }
  }

  /** A stored entry's key is a stored key. */
  lemma EntryKey<K, V>(s: seq<Slot<K, V>>, e: (K, V))
    requires e in Entries(s)
    ensures e.0 in Keys(s)
  {
    var p :| 0 <= p < |s| && s[p].Occupied? && e == (s[p].key, s[p].value);
  }

  /** At most one slot holds `k`. */
  ghost predicate KeyUnique<K, V>(s: seq<Slot<K, V>>, k: K)
  {
    forall p, q ::
      (0 <= p < |s| && 0 <= q < |s| && s[p].Occupied? && s[q].Occupied? && s[p].key == k && s[q].key == k)
      ==> p == q
  }

  /** Every stored key sits on its own probe sequence: the table variant's
      full-length FindEntry can reach it. */
  ghost predicate OnOwnSequence<K, V>(s: seq<Slot<K, V>>, hash: K -> U32)
  {
    forall p :: 0 <= p < |s| && s[p].Occupied? ==>
      exists j :: 0 <= j < |s| && CalcIndex(hash(s[p].key), j, |s|) == p
  }

  /** On such an array the full-length lookup finds exactly the stored keys. */
  lemma OnOwnSequenceFindAll<K, V>(s: seq<Slot<K, V>>, hash: K -> U32, k: K)
    ensures OnOwnSequence(s, hash) ==> (FindEntryAll(s, hash(k), k) >= 0 <==> k in Keys(s))
  {
    var a := FindEntryAll(s, hash(k), k);
    if k in Keys(s) && OnOwnSequence(s, hash) {
      var p :| 0 <= p < |s| && s[p].Occupied? && s[p].key == k;
      var j :| 0 <= j < |s| && CalcIndex(hash(s[p].key), j, |s|) == p;
      assert Holds(s, CalcIndex(hash(k), j, |s|), k);
    }
    if a >= 0 {
      assert Holds(s, CalcIndex(hash(k), a, |s|), k);
    }
  }

  lemma PlaceKeepsOnOwnSequence<K, V>(t: Table<K, V>, hash: K -> U32, k: K, v: V)
    ensures OnOwnSequence(t.slots, hash) ==> OnOwnSequence(Place(t, hash(k), k, v).0.slots, hash)
  {
    var r := Place(t, hash(k), k, v);
    if r.1 != NoRoom && OnOwnSequence(t.slots, hash) {
      var s := t.slots;
      var s' := r.0.slots;
      var i := FindSlot(s, hash(k), k);
      var w := CalcIndex(hash(k), i, |s|);
      forall p | 0 <= p < |s'| && s'[p].Occupied?
        ensures exists j :: 0 <= j < |s'| && CalcIndex(hash(s'[p].key), j, |s'|) == p
      {
        if p == w {
          assert CalcIndex(hash(s'[p].key), i, |s'|) == p;
        } else {
          assert s'[p] == s[p];
          var j :| 0 <= j < |s| && CalcIndex(hash(s[p].key), j, |s|) == p;
          assert CalcIndex(hash(s'[p].key), j, |s'|) == p;
        }
      }
    }
  }

  /** Emptying slots keeps every remaining key on its own sequence. */
  lemma ClearingKeepsOnOwnSequence<K, V>(s: seq<Slot<K, V>>, s': seq<Slot<K, V>>, hash: K -> U32)
    requires |s'| == |s|
    requires forall p :: 0 <= p < |s| ==> s'[p] == s[p] || s'[p].Empty?
    ensures OnOwnSequence(s, hash) ==> OnOwnSequence(s', hash)
  {
    if OnOwnSequence(s, hash) {
    forall p | 0 <= p < |s'| && s'[p].Occupied?
      ensures exists j :: 0 <= j < |s'| && CalcIndex(hash(s'[p].key), j, |s'|) == p
    {
      assert s'[p] == s[p];
      var j :| 0 <= j < |s| && CalcIndex(hash(s[p].key), j, |s|) == p;
      assert CalcIndex(hash(s'[p].key), j, |s'|) == p;
    }
    }
  }

  /** The rebuild loop of a resize: every entry goes through Place in order.
      With `stopAtNoRoom` the loop ends at the first entry FindSlot finds no
      slot for (the set variant throws there); otherwise that entry is
      dropped and the loop goes on. The flag returned says every entry found
      a slot. */
  function Regrow<K(==), V>(t: Table<K, V>, hash: K -> U32, es: seq<(K, V)>, stopAtNoRoom: bool)
    : (r: (Table<K, V>, bool))
    ensures |r.0.slots| == |t.slots|
    ensures t.count <= r.0.count <= t.count + |es|
    ensures r.0.count - t.count == Occupancy(r.0.slots) - Occupancy(t.slots)
    decreases |es|
  {
    if es == [] then (t, true)
    else
      var (t1, st) := Place(t, hash(es[0].0), es[0].0, es[0].1);
      if st == NoRoom && stopAtNoRoom then (t, false)
      else
        var r := Regrow(t1, hash, es[1..], stopAtNoRoom);
        (r.0, r.1 && st != NoRoom)
  }

  lemma OfTail<K, V>(es: seq<(K, V)>)
    requires es != []
    ensures KeysOf(es) == {es[0].0} + KeysOf(es[1..])
    ensures EntriesOf(es) == {es[0]} + EntriesOf(es[1..])
  {
    assert forall i :: 1 <= i < |es| ==> es[i] == es[1..][i - 1];
    assert forall i :: 0 <= i < |es| - 1 ==> es[1..][i] == es[i + 1];
  }

  /** The rebuild keeps only keys it started with or was given, and every
      one of them when each entry found a slot. */
  lemma {:induction false} RegrowKeys<K, V>(t: Table<K, V>, hash: K -> U32, es: seq<(K, V)>, stopAtNoRoom: bool)
    ensures var r := Regrow(t, hash, es, stopAtNoRoom);
            && Keys(r.0.slots) <= Keys(t.slots) + KeysOf(es)
            && (r.1 ==> Keys(r.0.slots) == Keys(t.slots) + KeysOf(es))
    decreases |es|
  {
    if es != [] {
      var (t1, st) := Place(t, hash(es[0].0), es[0].0, es[0].1);
      if !(st == NoRoom && stopAtNoRoom) {
        OfTail(es);
        RegrowKeys(t1, hash, es[1..], stopAtNoRoom);
      }
    }
  }

  /** The rebuild stores only entries it started with or was given. */
  lemma {:induction false} RegrowEntries<K, V>(t: Table<K, V>, hash: K -> U32, es: seq<(K, V)>, stopAtNoRoom: bool)
    ensures Entries(Regrow(t, hash, es, stopAtNoRoom).0.slots) <= Entries(t.slots) + EntriesOf(es)
    decreases |es|
  {
    if es != [] {
      var (t1, st) := Place(t, hash(es[0].0), es[0].0, es[0].1);
      if !(st == NoRoom && stopAtNoRoom) {
        OfTail(es);
        RegrowEntries(t1, hash, es[1..], stopAtNoRoom);
      }
    }
  }

  /** The rebuild keeps probe contiguity. */
  lemma {:induction false} RegrowContiguous<K, V>(t: Table<K, V>, hash: K -> U32, es: seq<(K, V)>, stopAtNoRoom: bool)
    requires Contiguous(t.slots, hash)
    ensures Contiguous(Regrow(t, hash, es, stopAtNoRoom).0.slots, hash)
    decreases |es|
  {
    if es != [] {
      var (t1, st) := Place(t, hash(es[0].0), es[0].0, es[0].1);
      if !(st == NoRoom && stopAtNoRoom) {
        PlaceKeepsContiguous(t, hash, es[0].0, es[0].1);
        RegrowContiguous(t1, hash, es[1..], stopAtNoRoom);
      }
    }
  }

  /** The rebuild keeps every key on its own probe sequence. */
  lemma {:induction false} RegrowOnOwnSequence<K, V>(t: Table<K, V>, hash: K -> U32, es: seq<(K, V)>, stopAtNoRoom: bool)
    requires OnOwnSequence(t.slots, hash)
    ensures OnOwnSequence(Regrow(t, hash, es, stopAtNoRoom).0.slots, hash)
    decreases |es|
  {
    if es != [] {
      var (t1, st) := Place(t, hash(es[0].0), es[0].0, es[0].1);
      if !(st == NoRoom && stopAtNoRoom) {
        PlaceKeepsOnOwnSequence(t, hash, es[0].0, es[0].1);
        RegrowOnOwnSequence(t1, hash, es[1..], stopAtNoRoom);
      }
    }
  }

  /** The doubling every resize performs: a blank array of twice the length,
      `count` reset to 0, and every live entry, in index order, put back
      through the variant's own insert. At that load the nested insert never
      resizes again (DoubledNeverNests), so each step is a Place. An entry
      FindSlot finds no slot for is dropped by the table and dictionary
      (`stopAtNoRoom` false) and ends the rebuild with an exception in the
      set; the flag returned says every entry found a slot. */
  function Doubled<K(==), V>(t: Table<K, V>, hash: K -> U32, stopAtNoRoom: bool): (r: (Table<K, V>, bool))
    ensures |r.0.slots| == 2 * |t.slots|
    ensures 0 <= r.0.count <= Occupancy(t.slots)
    ensures r.0.count == Occupancy(r.0.slots)
    ensures Keys(r.0.slots) <= Keys(t.slots)
    ensures r.1 ==> Keys(r.0.slots) == Keys(t.slots)
    ensures Entries(r.0.slots) <= Entries(t.slots)
    ensures Contiguous(r.0.slots, hash) && OnOwnSequence(r.0.slots, hash) && Distinct(r.0.slots)
  {
    var blank := Table(Empties(2 * |t.slots|), 0);
    OccupancyEmpties<K, V>(2 * |t.slots|);
    LiveKeys(t.slots);
    RegrowKeys(blank, hash, Live(t.slots), stopAtNoRoom);
    RegrowEntries(blank, hash, Live(t.slots), stopAtNoRoom);
    RegrowContiguous(blank, hash, Live(t.slots), stopAtNoRoom);
    RegrowOnOwnSequence(blank, hash, Live(t.slots), stopAtNoRoom);
    RegrowDistinct(blank, hash, Live(t.slots), stopAtNoRoom);
    Regrow(blank, hash, Live(t.slots), stopAtNoRoom)
  }

  /** During a doubling, before each nested insert the count is below the new
      threshold, so the nested call goes straight to FindSlot. */
  lemma DoubledNeverNests<K, V>(t: Table<K, V>, hash: K -> U32, stopAtNoRoom: bool, n: nat)
    requires n < |Live(t.slots)|
    ensures Regrow(Table(Empties(2 * |t.slots|), 0), hash, Live(t.slots)[..n], stopAtNoRoom).0.count
            < Threshold(2 * |t.slots|)
  {
  }

  /** On a contiguous array the stop-at-Empty lookup finds exactly the stored keys. */
  lemma ContiguousFindStop<K, V>(s: seq<Slot<K, V>>, hash: K -> U32, k: K)
    ensures Contiguous(s, hash) ==> (FindEntryStop(s, hash(k), k) >= 0 <==> k in Keys(s))
  {
    if Contiguous(s, hash) && k in Keys(s) {
      var p :| 0 <= p < |s| && s[p].Occupied? && s[p].key == k;
      assert FindEntryStop(s, hash(s[p].key), s[p].key) >= 0;
    }
    var f := FindEntryStop(s, hash(k), k);
    if f >= 0 {
      assert Holds(s, CalcIndex(hash(k), f, |s|), k);
    }
  }

  /** Once the stop-at-Empty lookup finds `k`, FindSlot reports the same step. */
  lemma FoundIsSlot<K, V>(s: seq<Slot<K, V>>, h: U32, k: K)
    ensures FindEntryStop(s, h, k) >= 0 ==> FindSlot(s, h, k) == FindEntryStop(s, h, k)
  {
    var f := FindEntryStop(s, h, k);
    if f >= 0 {
      assert Fits(s, CalcIndex(h, f, |s|), k);
      forall m | 0 <= m < f ensures !Fits(s, CalcIndex(h, m, |s|), k) {
        assert OccupiedRun(s, h, 0, f);
      }
    }
  }

  /** No key is stored in two slots. */
  ghost predicate Distinct<K, V>(s: seq<Slot<K, V>>)
  {
    forall p, q ::
      (0 <= p < |s| && 0 <= q < |s| && s[p].Occupied? && s[q].Occupied? && s[p].key == s[q].key)
      ==> p == q
  }

  /** On a contiguous array Place never stores a second copy of a key. */
  lemma PlaceKeepsDistinct<K, V>(t: Table<K, V>, hash: K -> U32, k: K, v: V)
    ensures Contiguous(t.slots, hash) && Distinct(t.slots) ==> Distinct(Place(t, hash(k), k, v).0.slots)
  {
    var r := Place(t, hash(k), k, v);
    if r.1 != NoRoom && Contiguous(t.slots, hash) && Distinct(t.slots) {
      var s := t.slots;
      var s' := r.0.slots;
      var w := CalcIndex(hash(k), FindSlot(s, hash(k), k), |s|);
      if s[w].Empty? {
        ContiguousEmptyFitMeansAbsent(s, hash, k);
      }
      forall q | 0 <= q < |s| && q != w && s[q].Occupied? ensures s[q].key != k {
      }
      forall p, q | 0 <= p < |s'| && 0 <= q < |s'| && s'[p].Occupied? && s'[q].Occupied? && s'[p].key == s'[q].key
        ensures p == q
      {
        if p != w && q != w {
          assert s'[p] == s[p] && s'[q] == s[q];
        }
      }
    }
  }

  /** The rebuild of a contiguous array never stores a second copy of a key. */
  lemma {:induction false} RegrowDistinct<K, V>(t: Table<K, V>, hash: K -> U32, es: seq<(K, V)>, stopAtNoRoom: bool)
    requires Contiguous(t.slots, hash) && Distinct(t.slots)
    ensures Distinct(Regrow(t, hash, es, stopAtNoRoom).0.slots)
    decreases |es|
  {
    if es != [] {
      var (t1, st) := Place(t, hash(es[0].0), es[0].0, es[0].1);
      if !(st == NoRoom && stopAtNoRoom) {
        PlaceKeepsContiguous(t, hash, es[0].0, es[0].1);
        PlaceKeepsDistinct(t, hash, es[0].0, es[0].1);
        RegrowDistinct(t1, hash, es[1..], stopAtNoRoom);
      }
    }
  }

  /** The store the dictionary and set insert paths end in: `(k, v)` into the slot FindSlot
      reports, `count` up by `inc`. The slots are Place's; on a contiguous
      array the slot is Empty unless `k` is already stored. */
  function Store<K(==), V>(t: Table<K, V>, hash: K -> U32, k: K, v: V, inc: nat): (r: Table<K, V>)
    requires FindSlot(t.slots, hash(k), k) >= 0
    ensures r.slots == Place(t, hash(k), k, v).0.slots && r.count == t.count + inc
    ensures FindEntryStop(r.slots, hash(k), k) >= 0
    ensures r.slots[CalcIndex(hash(k), FindEntryStop(r.slots, hash(k), k), |r.slots|)] == Occupied(k, v)
    ensures Keys(r.slots) == Keys(t.slots) + {k}
    ensures Entries(r.slots) <= Entries(t.slots) + {(k, v)}
    ensures Contiguous(t.slots, hash) && k !in Keys(t.slots) ==>
              Occupancy(r.slots) == Occupancy(t.slots) + 1
    ensures Contiguous(t.slots, hash) ==> Contiguous(r.slots, hash)
    ensures Contiguous(t.slots, hash) && Distinct(t.slots) ==> Distinct(r.slots)
  {
    var p := CalcIndex(hash(k), FindSlot(t.slots, hash(k), k), |t.slots|);
    PlaceThenFind(t, hash(k), k, v);
    PlaceKeepsContiguous(t, hash, k, v);
    PlaceKeepsDistinct(t, hash, k, v);
    if t.slots[p].Occupied? then Table(t.slots[p := Occupied(k, v)], t.count + inc)
    else
      ContiguousEmptyFitMeansAbsent(t.slots, hash, k);
      Table(t.slots[p := Occupied(k, v)], t.count + inc)
  }

  /** A store fills an Empty slot or overwrites an occupied one, so the
      occupancy rises by one exactly when the slot FindSlot reports was Empty. */
  lemma StoreOccupancy<K, V>(t: Table<K, V>, hash: K -> U32, k: K, v: V, inc: nat)
    requires FindSlot(t.slots, hash(k), k) >= 0
    ensures var r := Store(t, hash, k, v, inc);
            Occupancy(r.slots) == Occupancy(t.slots) +
              (if t.slots[CalcIndex(hash(k), FindSlot(t.slots, hash(k), k), |t.slots|)].Empty? then 1 else 0)
  {
    var p := CalcIndex(hash(k), FindSlot(t.slots, hash(k), k), |t.slots|);
    OccupancyUpdate(t.slots, p, Occupied(k, v));
  }

  /** On a contiguous array, writing `k` leaves the lookup of every other key
      where it was: same step, same slot contents. */
  lemma PlaceKeepsOtherLookups<K, V>(t: Table<K, V>, hash: K -> U32, k: K, v: V, k2: K)
    requires k2 != k
    ensures var s' := Place(t, hash(k), k, v).0.slots;
            var f := FindEntryStop(t.slots, hash(k2), k2);
            && (f >= 0 ==> FindEntryStop(s', hash(k2), k2) == f
                           && s'[CalcIndex(hash(k2), f, |s'|)] == t.slots[CalcIndex(hash(k2), f, |s'|)])
            && (Contiguous(t.slots, hash) ==> FindEntryStop(s', hash(k2), k2) == f)
  {
    var s := t.slots;
    var r := Place(t, hash(k), k, v);
    var s' := r.0.slots;
    var f := FindEntryStop(s, hash(k2), k2);
    if f >= 0 {
      ExtendsKeepsFound(s, s', hash(k2), k2);
      assert Holds(s, CalcIndex(hash(k2), f, |s|), k2);
    } else if Contiguous(s, hash) {
      ContiguousFindStop(s, hash, k2);
      PlaceKeepsContiguous(t, hash, k, v);
      ContiguousFindStop(s', hash, k2);
    }
  }

  /** RekeyAfterHole's first loop: from step `j` on along the removed key's
      probe sequence, empty each occupied slot and collect its entry, until a
      step visits an Empty slot or the steps run out. */
  function Lift<K, V>(s: seq<Slot<K, V>>, h: U32, j: nat): (r: (seq<Slot<K, V>>, seq<(K, V)>))
    requires j <= |s|
    ensures |r.0| == |s|
    ensures j + |r.1| <= |s|
    ensures Occupancy(r.0) + |r.1| == Occupancy(s)
    ensures forall p :: 0 <= p < |s| ==> r.0[p] == s[p] || r.0[p].Empty?
    ensures forall i :: 0 <= i < |r.1| ==> r.1[i] in Entries(s)
    decreases |s| - j
  {
    if j == |s| then (s, [])
    else
      var p := CalcIndex(h, j, |s|);
      if s[p].Empty? then (s, [])
      else
        var s1 := s[p := Empty];
        var (s', es) := Lift(s1, h, j + 1);
        OccupancyUpdate(s, p, Empty);
        EntriesUpdate(s, p, Empty);
        assert (s[p].key, s[p].value) in Entries(s);
        (s', [(s[p].key, s[p].value)] + es)
  }

  /** After Lift from step `j`: the steps it walked visit Empty slots, and
      it stopped at an Empty slot or after the last step. */
  ghost predicate RunCleared<K, V>(s: seq<Slot<K, V>>, h: U32, j: nat)
    requires j <= |s|
  {
    var r := Lift(s, h, j);
    && (forall m :: j <= m < j + |r.1| ==> r.0[CalcIndex(h, m, |s|)].Empty?)
    && (j + |r.1| == |s| || r.0[CalcIndex(h, j + |r.1|, |s|)].Empty?)
  }

  /** Lift clears the run it walks, up to the Empty slot that ends it. */
  lemma {:induction false} LiftRun<K, V>(s: seq<Slot<K, V>>, h: U32, j: nat)
    requires j <= |s|
    ensures RunCleared(s, h, j)
    decreases |s| - j
  {
    if j < |s| {
      var p := CalcIndex(h, j, |s|);
      if s[p].Occupied? {
        LiftRun(s[p := Empty], h, j + 1);
        LiftRunStep(s, h, j);
      }
    }
  }

  /** LiftRun's step: the run lifted after an occupied step, then that step. */
  lemma LiftRunStep<K, V>(s: seq<Slot<K, V>>, h: U32, j: nat)
    requires j < |s| && s[CalcIndex(h, j, |s|)].Occupied?
    requires RunCleared(s[CalcIndex(h, j, |s|) := Empty], h, j + 1)
    ensures RunCleared(s, h, j)
  {
    var p := CalcIndex(h, j, |s|);
    var s1 := s[p := Empty];
    var (s', es) := Lift(s1, h, j + 1);
    assert Lift(s, h, j) == (s', [(s[p].key, s[p].value)] + es);
    assert s'[p].Empty? by { assert s1[p].Empty?; }
  }

  /** Every entry Lift emptied is in the list it returns. */
  lemma {:induction false} LiftCollects<K, V>(s: seq<Slot<K, V>>, h: U32, j: nat)
    requires j <= |s|
    ensures var r := Lift(s, h, j);
            forall p :: 0 <= p < |s| && s[p].Occupied? && r.0[p].Empty? ==> (s[p].key, s[p].value) in r.1
    decreases |s| - j
  {
    if j < |s| {
      var p := CalcIndex(h, j, |s|);
      if s[p].Occupied? {
        var s1 := s[p := Empty];
        LiftCollects(s1, h, j + 1);
        var (s', es) := Lift(s1, h, j + 1);
        forall q | 0 <= q < |s| && s[q].Occupied? && s'[q].Empty?
          ensures (s[q].key, s[q].value) in [(s[p].key, s[p].value)] + es
        {
          if q != p { assert s1[q] == s[q]; }
        }
      }
    }
  }

  /** Lift keeps only keys that were stored. */
  lemma LiftKeys<K, V>(s: seq<Slot<K, V>>, h: U32, j: nat)
    requires j <= |s|
    ensures Keys(Lift(s, h, j).0) <= Keys(s)
    ensures KeysOf(Lift(s, h, j).1) <= Keys(s)
  {
    var (s', es) := Lift(s, h, j);
    forall x | x in Keys(s') ensures x in Keys(s) {
      var q :| 0 <= q < |s'| && s'[q].Occupied? && s'[q].key == x;
      assert s'[q] == s[q];
    }
    forall x | x in KeysOf(es) ensures x in Keys(s) {
      var i :| 0 <= i < |es| && es[i].0 == x;
      EntryKey(s, es[i]);
    }
  }
}

=== FILE: slots.dfy ===
/** Shared vocabulary of the three hash tables: 32-bit hash codes, slots, the
    exceptions the tables can raise, and counting over slot arrays. */
module Slots {

  const TWO32: int := 0x1_0000_0000

  /** A C# `uint`: what `(uint)key.GetHashCode()` produces. */
  type U32 = x: int | 0 <= x < TWO32

  /** C# `a ^ b` on two `uint` values, bit by bit from the least significant. */
  function Xor(a: U32, b: U32): (r: U32)
  {
    Pow2Is32();
    XorBitsBound(a, b, 32);
    XorBits(a, b, 32)
  }

  /** The exclusive-or of the low `n` bits of `a` and `b`. */
  function XorBits(a: nat, b: nat, n: nat): nat
  {
    if n == 0 then 0
    else (a + b) % 2 + 2 * XorBits(a / 2, b / 2, n - 1)
  }

  /** `n` bits hold a number below `2^n`. */
  lemma {:induction false} XorBitsBound(a: nat, b: nat, n: nat)
    ensures XorBits(a, b, n) < Pow2(n)
  {
    if n > 0 {
      XorBitsBound(a / 2, b / 2, n - 1);
    }
  }

  /** `0 ^ b == b`. */
  lemma XorZero(b: U32)
    ensures Xor(0, b) == b
  {
    Pow2Is32();
    XorBitsZero(b, 32);
  }

  lemma {:induction false} XorBitsZero(b: nat, n: nat)
    requires b < Pow2(n)
    ensures XorBits(0, b, n) == b
  {
    if n > 0 {
      XorBitsZero(b / 2, n - 1);
    }
  }

  lemma Pow2Is32()
    ensures Pow2(32) == TWO32
  {
    assert Pow2(1) == 2;
    assert Pow2(2) == 4;
    assert Pow2(3) == 8;
    assert Pow2(4) == 16;
    assert Pow2(5) == 32;
    assert Pow2(6) == 64;
    assert Pow2(7) == 128;
    assert Pow2(8) == 256;
    assert Pow2(9) == 512;
    assert Pow2(10) == 1024;
    assert Pow2(11) == 2048;
    assert Pow2(12) == 4096;
    assert Pow2(13) == 8192;
    assert Pow2(14) == 16384;
    assert Pow2(15) == 32768;
    assert Pow2(16) == 65536;
    assert Pow2(17) == 131072;
    assert Pow2(18) == 262144;
    assert Pow2(19) == 524288;
    assert Pow2(20) == 1048576;
    assert Pow2(21) == 2097152;
    assert Pow2(22) == 4194304;
    assert Pow2(23) == 8388608;
    assert Pow2(24) == 16777216;
    assert Pow2(25) == 33554432;
    assert Pow2(26) == 67108864;
    assert Pow2(27) == 134217728;
    assert Pow2(28) == 268435456;
    assert Pow2(29) == 536870912;
    assert Pow2(30) == 1073741824;
    assert Pow2(31) == 2147483648;
    assert Pow2(32) == 4294967296;
  }

  function Pow2(n: nat): (r: nat)
    ensures r >= 1
  {
    if n == 0 then 1 else 2 * Pow2(n - 1)
  }

  /** A nullable `(key, value)` tuple: an empty slot or a stored entry. */
  datatype Slot<K, V> = Empty | Occupied(key: K, value: V)

  datatype Option<T> = None | Some(value: T)

  /** The exceptions of the original code, as values. */
  datatype Error =
    | TableFull          // NotSupportedException / InvalidOperationException "full"
    | DuplicateKey       // ArgumentException "An element with the same key already exists"
    | KeyNotFound        // KeyNotFoundException
    | IndexOutOfRange    // an array access at an index outside the array
    | ArgumentOutOfRange // ArgumentOutOfRangeException
    | Overflow           // OverflowException: an array of negative length

  /** The result of a read that may throw. */
  datatype Result<T> = Ok(value: T) | Err(error: Error)

  /** The result of an operation that may throw. A C# exception does not roll
      back the writes made before it, so a throw carries the state it left. */
  datatype Outcome<S, R> = Returned(state: S, result: R) | Threw(error: Error, state: S)
  {
    function State(): S
    {
      match this
      case Returned(s, _) => s
      case Threw(_, s) => s
    }
  }

  /** A slot array of `n` empty slots: `new (TKey, TValue)?[n]`. */
  function Empties<K, V>(n: nat): (s: seq<Slot<K, V>>)
    ensures |s| == n
    ensures forall p :: 0 <= p < n ==> s[p].Empty?
  {
    seq(n, _ => Empty)
  }

  /** The slot is a target for an insert of `k`: Empty, or holding `k`. */
  predicate Fits<K(==), V>(s: seq<Slot<K, V>>, p: nat, k: K)
    requires p < |s|
  {
    s[p].Empty? || s[p].key == k
  }

  /** The slot holds key `k`. */
  predicate Holds<K(==), V>(s: seq<Slot<K, V>>, p: nat, k: K)
    requires p < |s|
  {
    s[p].Occupied? && s[p].key == k
  }

  /** `s'` keeps every key of `s` in its slot; Empty slots may have filled. */
  ghost predicate Extends<K, V>(s: seq<Slot<K, V>>, s': seq<Slot<K, V>>)
  {
    && |s'| == |s|
    && forall p :: 0 <= p < |s| && s[p].Occupied? ==> s'[p].Occupied? && s'[p].key == s[p].key
  }

  /** The number of occupied slots. */
  function Occupancy<K, V>(s: seq<Slot<K, V>>): (n: nat)
    ensures n <= |s|
  {
    if s == [] then 0 else (if s[0].Occupied? then 1 else 0) + Occupancy(s[1..])
  }

  /** The number of occupied slots over a list of slot arrays. */
  function TotalOccupancy<K, V>(ls: seq<seq<Slot<K, V>>>): nat
  {
    if ls == [] then 0 else Occupancy(ls[0]) + TotalOccupancy(ls[1..])
  }

  /** The entries stored in `s`. */
  ghost function Entries<K, V>(s: seq<Slot<K, V>>): set<(K, V)>
  {
    set p | 0 <= p < |s| && s[p].Occupied? :: (s[p].key, s[p].value)
  }

  /** The keys stored in `s`. */
  ghost function Keys<K, V>(s: seq<Slot<K, V>>): set<K>
  {
    set p | 0 <= p < |s| && s[p].Occupied? :: s[p].key
  }

  /** The live entries in index order: what `foreach (var entry in table)` visits. */
  function Live<K, V>(s: seq<Slot<K, V>>): (es: seq<(K, V)>)
    ensures |es| == Occupancy(s)
    ensures forall i :: 0 <= i < |es| ==> es[i] in Entries(s)
    ensures forall p :: 0 <= p < |s| && s[p].Occupied? ==> (s[p].key, s[p].value) in es
  {
    if s == [] then []
    else
      EntriesCons(s);
      var r := (if s[0].Occupied? then [(s[0].key, s[0].value)] else []) + Live(s[1..]);
      assert forall p :: 1 <= p < |s| ==> s[p] == s[1..][p - 1];
      r
  }

  lemma EntriesCons<K, V>(s: seq<Slot<K, V>>)
    requires s != []
    ensures Entries(s) == (if s[0].Occupied? then {(s[0].key, s[0].value)} else {}) + Entries(s[1..])
  {
    var head: set<(K, V)> := if s[0].Occupied? then {(s[0].key, s[0].value)} else {};
    forall e | e in Entries(s) ensures e in head + Entries(s[1..]) {
      var p :| 0 <= p < |s| && s[p].Occupied? && e == (s[p].key, s[p].value);
      if p > 0 {
        assert s[1..][p - 1] == s[p];
      }
    }
    forall e | e in Entries(s[1..]) ensures e in Entries(s) {
      var q :| 0 <= q < |s| - 1 && s[1..][q].Occupied? && e == (s[1..][q].key, s[1..][q].value);
      assert s[q + 1] == s[1..][q];
    }
  }

  /** Writing one slot changes the occupancy only by that slot's change. */
  lemma {:induction false} OccupancyUpdate<K, V>(s: seq<Slot<K, V>>, p: nat, x: Slot<K, V>)
    requires p < |s|
    ensures Occupancy(s[p := x]) ==
            Occupancy(s) - (if s[p].Occupied? then 1 else 0) + (if x.Occupied? then 1 else 0)
  {
    if p > 0 {
      assert s[p := x][1..] == s[1..][p - 1 := x];
      OccupancyUpdate(s[1..], p - 1, x);
    }
  }

  lemma {:induction false} OccupancyEmpties<K, V>(n: nat)
    ensures Occupancy(Empties<K, V>(n)) == 0
  {
    if n > 0 {
      assert Empties<K, V>(n)[1..] == Empties<K, V>(n - 1);
      OccupancyEmpties<K, V>(n - 1);
    }
  }

  lemma TotalOccupancyAppend<K, V>(ls: seq<seq<Slot<K, V>>>, l: seq<Slot<K, V>>)
    ensures TotalOccupancy(ls + [l]) == TotalOccupancy(ls) + Occupancy(l)
  {
    if ls != [] {
      assert (ls + [l])[1..] == ls[1..] + [l];
      TotalOccupancyAppend(ls[1..], l);
    }
  }

  /** Writing one slot of one array changes the total only by that slot's change. */
  lemma {:induction false} TotalOccupancyUpdate<K, V>(ls: seq<seq<Slot<K, V>>>, i: nat, p: nat, x: Slot<K, V>)
    requires i < |ls| && p < |ls[i]|
    ensures TotalOccupancy(ls[i := ls[i][p := x]]) ==
            TotalOccupancy(ls) - (if ls[i][p].Occupied? then 1 else 0) + (if x.Occupied? then 1 else 0)
  {
    OccupancyUpdate(ls[i], p, x);
    if i > 0 {
      assert ls[i := ls[i][p := x]][1..] == ls[1..][i - 1 := ls[1..][i - 1][p := x]];
      TotalOccupancyUpdate(ls[1..], i - 1, p, x);
    }
  }

  function Sum(s: seq<int>): int
  {
    if s == [] then 0 else s[0] + Sum(s[1..])
  }

  /** Adding one to an element adds one to the sum. */
  lemma {:induction false} SumBump(s: seq<int>, i: nat)
    requires i < |s|
    ensures Sum(s[i := s[i] + 1]) == Sum(s) + 1
  {
    if i > 0 {
      assert s[i := s[i] + 1][1..] == s[1..][i - 1 := s[1..][i - 1] + 1];
      SumBump(s[1..], i - 1);
    }
  }

  lemma SumAppend(s: seq<int>, x: int)
    ensures Sum(s + [x]) == Sum(s) + x
  {
    if s != [] {
      assert (s + [x])[1..] == s[1..] + [x];
      SumAppend(s[1..], x);
    }
  }

  /** The keys stored anywhere in a list of slot arrays. */
  ghost function KeysIn<K, V>(ls: seq<seq<Slot<K, V>>>): set<K>
  {
    set l, p | 0 <= l < |ls| && 0 <= p < |ls[l]| && ls[l][p].Occupied? :: ls[l][p].key
  }

  /** The key of an occupied slot is one of the stored keys. */
  lemma InKeysIn<K, V>(ls: seq<seq<Slot<K, V>>>, l: nat, p: nat)
    requires l < |ls| && p < |ls[l]| && ls[l][p].Occupied?
    ensures ls[l][p].key in KeysIn(ls)
  {
  }

  /** The entries stored anywhere in a list of slot arrays. */
  ghost function EntriesIn<K, V>(ls: seq<seq<Slot<K, V>>>): set<(K, V)>
  {
    set l, p | 0 <= l < |ls| && 0 <= p < |ls[l]| && ls[l][p].Occupied? :: (ls[l][p].key, ls[l][p].value)
  }

  /** The same arrays with the same keys in the same slots, except that Empty
      slots of `ls` may have filled. */
  ghost predicate LevelsExtend<K, V>(ls: seq<seq<Slot<K, V>>>, ls': seq<seq<Slot<K, V>>>)
  {
    |ls'| == |ls| && forall l :: 0 <= l < |ls| ==> Extends(ls[l], ls'[l])
  }

  /** Writing `k` into a slot that is Empty or already holds `k` adds `k` to
      the keys and loses no other entry; into an Empty slot it loses none. */
  lemma LevelsWrite<K, V>(ls: seq<seq<Slot<K, V>>>, l: nat, p: nat, k: K, v: V)
    requires l < |ls| && p < |ls[l]| && Fits(ls[l], p, k)
    ensures LevelsExtend(ls, ls[l := ls[l][p := Occupied(k, v)]])
    ensures KeysIn(ls[l := ls[l][p := Occupied(k, v)]]) == KeysIn(ls) + {k}
    ensures EntriesIn(ls[l := ls[l][p := Occupied(k, v)]]) <= EntriesIn(ls) + {(k, v)}
    ensures ls[l][p].Empty? ==> EntriesIn(ls[l := ls[l][p := Occupied(k, v)]]) == EntriesIn(ls) + {(k, v)}
  {
    var r: seq<seq<Slot<K, V>>> := ls[l := ls[l][p := Occupied(k, v)]];
    forall x | x in KeysIn(r) ensures x in KeysIn(ls) + {k} {
      var l', p' :| 0 <= l' < |r| && 0 <= p' < |r[l']| && r[l'][p'].Occupied? && x == r[l'][p'].key;
      if (l', p') != (l, p) { assert ls[l'][p'] == r[l'][p']; }
    }
    forall x | x in KeysIn(ls) + {k} ensures x in KeysIn(r) {
      if x == k {
        assert r[l][p].key == k;
      } else {
        var l', p' :| 0 <= l' < |ls| && 0 <= p' < |ls[l']| && ls[l'][p'].Occupied? && x == ls[l'][p'].key;
        assert (l', p') != (l, p);
        assert r[l'][p'] == ls[l'][p'];
      }
    }
    forall e | e in EntriesIn(r) ensures e in EntriesIn(ls) + {(k, v)} {
      var l', p' :| 0 <= l' < |r| && 0 <= p' < |r[l']| && r[l'][p'].Occupied? && e == (r[l'][p'].key, r[l'][p'].value);
      if (l', p') != (l, p) { assert ls[l'][p'] == r[l'][p']; }
    }
    if ls[l][p].Empty? {
      forall e | e in EntriesIn(ls) + {(k, v)} ensures e in EntriesIn(r) {
        if e == (k, v) {
          assert r[l][p] == Occupied(k, v);
        } else {
          var l', p' :| 0 <= l' < |ls| && 0 <= p' < |ls[l']| && ls[l'][p'].Occupied? && e == (ls[l'][p'].key, ls[l'][p'].value);
          assert r[l'][p'] == ls[l'][p'];
        }
      }
    }
  }
}
